=== FILE: README.md ===
# pearl-editor interaction engine, modelled in Dafny

pearl-editor is a keyboard-driven editor for Java namespaces. This project models
its non-visual core as pure functions over immutable values:

- **Package tree** (`package.dfy`, module `Packages`). A package has its own
  name segment, its declarations and its subpackages. The model covers
  `Package::new`, `add_subpackage`, both completion-list generators and
  `find_pkg`. Raw `*mut Package` handles become name paths. A path is resolved
  the way every loop in the source walks the tree: through the first child
  with the next name.
- **Project** (`project.dfy`, module `Projects`). The model covers the
  selection, the root package list, and the two NUL-separated search buffers
  the prompts complete against. It covers `package_exists`, `add_package` and
  the two `regen_*` functions.
- **Search buffer** (`search.dfy`, module `Search`). Strings are packed with a
  NUL after each one. `find_all_subsequences` is one greedy pass over the
  buffer. It is proved equal to filtering the entries with a declarative
  "the lower-cased query is a subsequence of the lower-cased entry".
  `find_all_containing_char` is proved equal to "the prefix before the first
  occurrence, for each entry that has one".
- **Command trie and buffer** (`input_trie.dfy` and `command_buffer.dfy`,
  modules `InputTrie` and `Commands`). The trie is an arena of nodes, one per
  key chord, whose leaves hold commands. `add_cmd_str` inserts a command
  string. The buffer feeds chords one at a time into a cursor over the trie,
  and queues recognised commands first in, first out.
- **Keys** (`keys.dfy`, module `Keys`). Virtual key codes, the 4-bit
  modifier mask (`mods_to_bitflags`), `InputChunk::to_str` and
  `char_to_keycode`.
- **Prompt** (`prompt.dfy`, module `Prompts`). A multi-slot text entry.
  Tab and Shift-Tab cycle through completions, Backspace deletes, and Enter
  moves to the next slot or finishes.
- **Application state** (`state.dfy`, module `AppState`). `State::new`,
  `State::prompt`, and `State::process_input` as a dispatcher from window
  events to the prompt or the command buffer. Also the selection rule of
  `select_package` and `select_decl`. `process_input` appears twice.
  `AppState.ProcessInputAsWritten` refreshes completions the way the source
  does. `AppState.ProcessInput` uses the corrected refresh (see Findings).
- `text.dfy` (module `Text`) holds ASCII case folding, the control-character
  test, and the dotted split with its inverse. `wrappers.dfy` holds `Option`
  and `Result`.

Panics in the source (failed `assert!`, `unwrap` of nothing, an out-of-range
slice or index, `usize` underflow) become preconditions. Error returns
(`AddCommandError`) are modelled as `Result` values. Locks, `Arc` sharing and
boxed callbacks are dropped. Each operation takes the old value and returns
the new one, and a finished prompt hands back its inputs instead of calling a
callback.

## Model

| member | source | states |
|---|---|---|
| `Keys.ToStr` | src/command/mod.rs:27-57 | A letter key gives exactly one ASCII letter of that key, upper case exactly when the shift bit is set. Every other key gives the empty string. The output has at most one character. |
| `Keys.CharToKeycode` | src/command/input_trie.rs:10-40 | A key is returned exactly for the 52 ASCII letters. It is the letter key of the character's lower-case form. |
| `Keys.ToStrChunkOfChar` | src/command/input_trie.rs:114-122 | The chunk `add_cmd_str` builds for a letter renders back to that same letter. |
| `Keys.ChunkOfCharInjective` | src/command/input_trie.rs:114-122 | Distinct letters give distinct chunks. |
| `Keys.ModsToBitflags` | src/common/mod.rs:8-11 | The mask is below 16. Shift, ctrl, alt and logo are read back from bits 8, 4, 2 and 1 respectively. |
| `Keys.BitflagsRoundTrip` | src/common/mod.rs:8-11 | The mask loses nothing: the modifier state is recovered from it, so the mapping is injective. Every 4-bit mask is the mask of some state. |
| `Keys.FromModifiersState` | src/state/mod.rs:67-70 | The chunk of a key press carries the key and a mask from which the held modifiers are read back. |
| `Text.ToLower` | src/search/mod.rs:73-75 | Upper-case ASCII letters map to their lower-case letters. Every other character is unchanged. |
| `Text.Lower` | src/search/mod.rs:55 | Lower-casing a string keeps its length and lower-cases it character by character. |
| `Text.Split` | src/java_model/package.rs:27-35 | `split(".")` gives at least one segment, and no segment contains a dot. |
| `Text.JoinSplit` | src/java_model/package.rs:27-35 | Joining the segments with dots gives the name back. |
| `Text.SplitJoin` | src/state/project.rs:90-104 | Splitting the join of dot-free segments gives the segments back. |
| `Search.Entries` | src/search/mod.rs:3-11 | The entries read back from a buffer never contain a NUL. |
| `Search.AppendEntry` | src/search/mod.rs:27-30 | Pushing a NUL-free string and a NUL onto a terminated buffer adds exactly that entry at the end. |
| `Search.EntriesPack` | src/search/mod.rs:41-44 | Packing NUL-free strings after a terminated buffer appends exactly those strings to its entries, and leaves the buffer terminated. |
| `Search.PackAppend` | src/search/mod.rs:41-44 | Packing two lists one after the other is packing their concatenation. |
| `Search.NewBuffer` | src/search/mod.rs:14-16 | A new buffer is terminated and has no entries. |
| `Search.AddStrings` | src/search/mod.rs:20-45 | The buffer only grows: each string is appended followed by one NUL, and nothing is cleared. For NUL-free strings, the entries become the old entries followed by the new strings. |
| `Search.Clear` | src/search/mod.rs:48-50 | A cleared buffer is terminated and has no entries. |
| `Search.GreedyAgrees` | src/search/mod.rs:72-78 | The greedy cursor reaches the end of the query exactly when the query is a subsequence of the text. |
| `Search.GreedyPrefixes` | src/search/mod.rs:72-78 | The greedy cursor passes position `m` exactly when the first `m` query characters form a subsequence of the text. |
| `Search.MatchingIsFilter` | src/search/mod.rs:52-53 | A string is matched exactly when it is an entry the query matches. The matches keep the entries' order. |
| `Search.MatchingEmptyQuery` | src/search/mod.rs:63 | An empty query matches every entry. |
| `Search.SubseqScanMeaning` | src/search/mod.rs:58-79 | After any prefix of the buffer, the scan state is: the matches among the completed entries, and the greedy position in the open entry. |
| `Search.ScanTailStep` | src/search/mod.rs:59-68 | `curr_base` stays the start of the open entry: after a NUL it is the next index, and after any other character it is unchanged. |
| `Search.FindAllSubsequences` | src/search/mod.rs:53-81 | The results are, in stored order and with repeats, exactly the whole entries whose lower-cased text contains the lower-cased query as a subsequence. |
| `Search.Before` | src/search/mod.rs:96-99 | The prefix before the first character equal to the search character, ignoring case. There is none exactly when no character matches. |
| `Search.CharScanMeaning` | src/search/mod.rs:88-103 | After any prefix of the buffer, the scan state is the hits of the pieces seen so far, and whether the open piece has had its hit. |
| `Search.FindAllContainingChar` | src/search/mod.rs:84-105 | One result per piece that contains the character, ignoring case. Each result is that piece's prefix before the first occurrence, in order. On a terminated buffer the pieces are the entries. |
| `Packages.FirstChild` | src/java_model/package.rs:71-76 | The index of the first subpackage with the name: none before it carries the name, and none at all when there is no index. |
| `Packages.Descend` | src/java_model/package.rs:69-76 | A first-match walk that reaches a package ends at the package named by the last segment. |
| `Packages.DescendAgreesWithHasPath` | src/java_model/package.rs:69-76 | The first-match walk succeeds only along an existing path. With unique sibling names, it succeeds whenever some path exists. |
| `Packages.Chain` | src/java_model/package.rs:27-44 | One package per segment, in order. The last segment is an empty leaf below the root. The chain has exactly as many nodes as there are segments. |
| `Packages.New` | src/java_model/package.rs:25-51 | Requires a non-empty name (the `assert!`). The root is named after the first segment and has no declarations. The whole dotted path resolves to an empty leaf named by the last segment, with one package per segment. The path to the returned deepest package is absent exactly when the name has one segment, and is otherwise the dotted split. |
| `Packages.ComTomChain` | src/java_model/package.rs:25-44 | "com.tom.example" gives com, then tom, then a leaf example. |
| `Packages.Insert` | src/java_model/package.rs:69-85 | Name and declarations are kept. Existing subpackages are only extended, and the path exists afterwards. Every package of the old tree, at every depth, gains at most one subpackage (`AppendsAtMostOne`). |
| `Packages.InsertExisting` | src/java_model/package.rs:71-76 | Inserting a path that already exists changes nothing. |
| `Packages.InsertKeepsUniqueNames` | src/java_model/package.rs:71-83 | Insertion keeps sibling names unique. |
| `Packages.ChainIsInsertIntoLeaf` | src/java_model/package.rs:25-44 | `Package::new` builds the same tree as inserting the rest of the path below a fresh root. |
| `Packages.AddSubpackage` | src/java_model/package.rs:60-89 | Requires the first segment to be the package's own name. Afterwards the full path resolves to a package named by its last segment. The old tree is only extended, each of its packages gains at most one subpackage, unique names stay unique, and an existing path leaves the tree unchanged. |
| `Packages.AddSubpackageIdempotent` | src/java_model/package.rs:60-89 | Adding the same name twice is the same as adding it once. |
| `Packages.SharedPrefixExample` | src/java_model/package.rs:69-85 | "com.tom.example" then "com.tom.foo" gives one com and one com.tom, with two leaves in insertion order. |
| `Packages.PkgNamesCount` | src/java_model/package.rs:91-112 | The traversal names every package node exactly once. |
| `Packages.PushedFacts` | src/java_model/package.rs:106-108 | Pushing the children puts their trees on the stack in list order, so the last child's names are produced first. |
| `Packages.StackAppend` | src/java_model/package.rs:101-110 | The names still to come from a stack are those of its top part, then those of the part below. |
| `Packages.Traverse` | src/java_model/package.rs:101-110 | The stack loop emits the names already produced, followed by the names of every frame still on the stack. |
| `Packages.GenPackageCompletionList` | src/java_model/package.rs:93-112 | The stack loop produces the declarative naming: one qualified name per package node, children visited in the order the stack pops them. The first name is the root's own. |
| `Packages.ChainPkgNames` | src/java_model/package.rs:91-92 | For a chain, entry `i` is the dotted join of the first `i + 1` segments. |
| `Packages.PackageCompletionExample` | src/java_model/package.rs:91-92 | `Package::new("com.tom.example")` completes to com, com.tom, com.tom.example. |
| `Packages.OwnEntries` | src/java_model/package.rs:132-134 | One entry per declaration of the package, in list order, under the package's own name. |
| `Packages.Qualified` | src/java_model/package.rs:132-134 | Each entry becomes the prefix, the dotted package path, a dot and the declaration name. |
| `Packages.QualifiedUnder` | src/java_model/package.rs:129-131 | Qualifying below a parent is qualifying with the parent's name and a dot pushed onto the prefix. |
| `Packages.GenDecls` | src/java_model/package.rs:124-139 | The prefix is handed back exactly as it came in, after the whole subtree is done. |
| `Packages.GenDeclsNames` | src/java_model/package.rs:124-139 | The recursion appends, after the names already produced, the qualified name of every declaration of the tree. A package's own declarations come before its subpackages', in pre-order. |
| `Packages.GenDeclsChildrenNames` | src/java_model/package.rs:135-137 | The subpackage loop appends each child's qualified declaration names, child by child. |
| `Packages.ChildEntriesQualified` | src/java_model/package.rs:135-137 | The declaration entries of the children, qualified under the parent, are the children's own qualified names with the parent on the prefix. |
| `Packages.GenDeclCompletionList` | src/java_model/package.rs:115-145 | Exactly the fully qualified name of every declaration in the tree, in pre-order. |
| `Packages.FindPkg` | src/java_model/package.rs:151-177 | As written: an empty name gives nothing and false. The result is true exactly when the name has two or more segments and some subpackage carries the first segment, and the package returned is then the first such subpackage. The later segments are never compared. Requires that the name is not a lone segment naming a subpackage, because the recursion then panics. |
| `Packages.FindPkgStopsAtChild` | src/java_model/package.rs:163-168 | For a name with more segments and a childless matching child, the result is that child with true, although the second segment does not exist. |
| `Packages.FindPkgReportsMissingPackageFound` | src/java_model/package.rs:163-168 | "com.nothere" is reported found in a tree that holds only "com". |
| `Packages.FindPkgPanicsOnExistingChild` | src/java_model/package.rs:162-169 | Looking up an existing single-segment name makes the recursion unwrap an exhausted iterator. |
| `Packages.Reach` | src/java_model/package.rs:147-150 | The walk reports true exactly when every segment is matched, and then returns the package reached. |
| `Packages.ReachStops` | src/java_model/package.rs:147-149 | A walk that misses stops at the package the matched prefix of the path leads to, and no subpackage there carries the next segment. |
| `Packages.FindPkgFixed` | src/java_model/package.rs:147-150 | As documented: true exactly when the name is non-empty and the whole path exists, and then it returns that package. On a miss it returns the package it "made it to": the one the first `k` segments lead to, where no subpackage carries segment `k`. The empty name gives (self, false). |
| `Packages.FindPkgFixedExamples` | src/java_model/package.rs:147-150 | The corrected lookup reports "com.nothere" missing and "com" found. |
| `InputTrie.EmptyTrie` | src/command/input_trie.rs:66-71 | A new trie has no nodes and no roots, and satisfies every invariant. |
| `InputTrie.MatchAtFirst` | src/command/input_trie.rs:90-100 | The scan returns the first candidate with the chunk, and none when no candidate has it. |
| `InputTrie.AdvanceNodeRef` | src/command/input_trie.rs:88-103 | The node returned is in range and carries the chunk. |
| `InputTrie.AdvanceNodeRefSpec` | src/command/input_trie.rs:88-103 | Without a cursor it is the first root with the chunk, and from a node it is that node's first child with the chunk. When none matches it is None. |
| `InputTrie.Walk` | src/command/input_trie.rs:88-103 | Repeated advancing ends on a valid node, and an empty walk stays put. |
| `InputTrie.WalkAppend` | src/command/input_trie.rs:88-103 | Walking two chunk sequences one after the other is walking their concatenation. |
| `InputTrie.GrowsFollow` | src/command/input_trie.rs:130-188 | In a trie that only gained nodes and children, every path that led somewhere still leads to the same node. |
| `InputTrie.Chunks` | src/command/input_trie.rs:114-122 | One chunk per character of the command string. |
| `InputTrie.AddRoot` | src/command/input_trie.rs:137-146 | The new node goes at the next index and is pushed onto the roots. Every old node is kept. |
| `InputTrie.AddChildSpec` | src/command/input_trie.rs:169-176 | The new node goes at the next index and is appended to its parent's children. Every other node is kept. |
| `InputTrie.DescendSpec` | src/command/input_trie.rs:149-165 | The trace stops at the deepest node the command's chunks reach, after consuming exactly the chunks it matched. |
| `InputTrie.DescendToLeaf` | src/command/input_trie.rs:151-163 | A trace that reaches a node without children stops there. |
| `InputTrie.Extend` | src/command/input_trie.rs:167-188 | Hanging the remaining chunks adds exactly one node per chunk and leaves the roots alone. |
| `InputTrie.ExtendWalk` | src/command/input_trie.rs:167-188 | After hanging, the chunks lead from the start node to the new leaf. |
| `InputTrie.ExtendWellFormed` | src/command/input_trie.rs:167-188 | Hanging below a node without a command keeps every command at a leaf. |
| `InputTrie.Hang` | src/command/input_trie.rs:148-188 | Refusal leaves the trie unchanged. Success adds between one and `|xs|` nodes, and the chunks lead to a new leaf holding the command. |
| `InputTrie.HangRefuses` | src/command/input_trie.rs:159-163 | Refused only when the trace stops at a node that ends a command. When commands sit at leaves, it is always refused then. |
| `InputTrie.RootFor` | src/command/input_trie.rs:128-146 | The existing root for the first chunk is reused, leaving the trie unchanged. Otherwise exactly one empty root is pushed: a new node for that chunk, at the next index, appended to the roots. |
| `InputTrie.RootForFinds` | src/command/input_trie.rs:128-146 | Afterwards, advancing from no cursor with the first chunk reaches the root chosen. |
| `InputTrie.RootForRest` | src/command/input_trie.rs:149-168 | Outside the panicking inputs, the command has at least two chunks, and the rest cannot be walked from its root. |
| `InputTrie.AddCmdStr` | src/command/input_trie.rs:112-191 | `CommandEmpty` is returned exactly for the empty string, and any refusal leaves the trie unchanged. Requires letters only (`unwrap` of `char_to_keycode`) and no panic at the slice at line 168. |
| `InputTrie.AddCmdStrRefuses` | src/command/input_trie.rs:151-163 | `CommandAlreadyPrefixed` is returned only when a proper prefix already ends a command. When commands are leaves, it is always returned then. |
| `InputTrie.AddCmdStrAdds` | src/command/input_trie.rs:128-188 | After success, between one and `|s|` nodes were added, and the chunks lead from the roots to a fresh leaf whose command is `cmd`. |
| `InputTrie.AddCmdStrGrows` | src/command/input_trie.rs:130-188 | Insertion only appends: old nodes keep their index, chunk and command, and old children lists are prefixes of the new ones. |
| `InputTrie.AddCmdStrWellFormed` | src/command/input_trie.rs:161-188 | Insertion keeps every command-carrying node childless. |
| `InputTrie.AddCmdStrUnique` | src/command/input_trie.rs:130-188 | Insertion keeps the chunks of the roots, and of each node's children, pairwise distinct. |
| `Commands.AddCc` | src/command/mod.rs:96-98 | Adding "cc" to an empty trie succeeds and gives a root c with one leaf c. |
| `Commands.AddCp` | src/command/mod.rs:99-101 | Adding "cp" next succeeds and hangs a leaf p beside it. |
| `Commands.InitMappings` | src/command/mod.rs:94-103 | The default mappings are the three-node trie of `Commands.AddCc` and `Commands.AddCp`: root c with a leaf c creating a class, and a leaf p creating a package. Neither `unwrap` can fail. |
| `Commands.DefaultTrieInvariants` | src/command/mod.rs:94-103 | The default mappings keep commands at leaves and sibling chunks distinct. |
| `Commands.DefaultTrieLookups` | src/command/input_trie.rs:230-244 | The five lookups of `test_advance_node_ref`. |
| `Commands.New` | src/command/mod.rs:105-112 | Nothing pending, nothing queued, the default mappings, and the buffer invariant holds. |
| `Commands.IsEmpty` | src/command/mod.rs:114-116 | Under the invariant, it holds exactly when there is no cursor. |
| `Commands.GetInputAsStr` | src/command/mod.rs:118-124 | The pending chunks rendered one after another. |
| `Commands.RenderChunks` | src/command/mod.rs:118-124 | Rendering the chunks of a command string gives the string back. |
| `Commands.ResetInput` | src/command/mod.rs:127-130 | No pending chunks and no cursor. The queue and the mappings are unchanged. |
| `Commands.CursorStep` | src/command/mod.rs:133-135 | Advancing the cursor by one chunk is following the pending chunks plus that chunk from the roots. |
| `Commands.AddKey` | src/command/mod.rs:133-147 | Keeps the invariant: the pending chunks are the path from the roots to the cursor, there is a cursor exactly when chunks are pending, and the cursor never rests on a command. |
| `Commands.AddKeyBreaks` | src/command/mod.rs:134-139 | A chunk that leads nowhere drops the pending input and the cursor, and queues nothing. |
| `Commands.AddKeyQueues` | src/command/mod.rs:140-146 | A chunk that completes a command appends exactly that command to the queue, and resets the input and the cursor. |
| `Commands.AddKeyPends` | src/command/mod.rs:133-147 | A chunk that reaches a node ending no command is pended, and the cursor moves there. |
| `Commands.PollCmd` | src/command/mod.rs:150-156 | Nothing exactly when the queue is empty. Otherwise the oldest command, removed from the front, with the rest unchanged. |
| `Commands.PollAllIsQueue` | src/command/mod.rs:150-156 | Polling until nothing is left yields the queued commands in the order they were queued. |
| `Commands.FollowStopsForGood` | src/command/mod.rs:134-139 | Once a prefix leads nowhere, every longer sequence does too. |
| `Commands.PrefixOpen` | src/command/mod.rs:140-146 | When commands are leaves, every proper prefix of a command's path leads to a node that ends no command. |
| `Commands.TypePrefix` | src/command/mod.rs:133-147 | When commands sit at leaves, typing a proper prefix of a chunk sequence that leads somewhere into an empty buffer leaves the whole prefix pending, with the cursor at its end. |
| `Commands.TypeCommand` | src/command/mod.rs:133-147 | Typing all the chunks of a command into an empty buffer queues exactly that command and leaves nothing pending. |
| `Commands.DefaultTypesClass` | src/command/mod.rs:96-98 | With the default mappings, c then c queues a class creation. |
| `Commands.DefaultTypesPackage` | src/command/mod.rs:99-101 | With the default mappings, c then p queues a package creation. |
| `Prompts.Completions` | src/prompt/prompt_type.rs:25-40 | A text slot offers nothing. A package slot offers exactly the package entries the input matches as a case-insensitive subsequence, as an order-preserving sub-list of the buffer's entries. |
| `Prompts.Complete` | src/prompt/prompt_type.rs:25-40 | Running the buffer search gives those completions. |
| `Prompts.New` | src/prompt/mod.rs:40-52 | Requires at least one slot. One empty input per slot, the first slot current, nothing offered and nothing selected. |
| `Prompts.KeyInput` | src/prompt/mod.rs:63-99 | Keeps one input per slot. Only Tab and Shift-Tab move the selection or the slot. Backspace removes exactly the last character of the current input, or nothing from an empty one, and leaves other inputs alone. Other chunks change nothing, including Tab with any modifiers other than none or Shift. |
| `Prompts.TabKeepsActiveInRange` | src/prompt/mod.rs:80-91 | Tab and Shift-Tab never leave the selection outside the completions on offer. |
| `Prompts.ShiftTabUndoesTab` | src/prompt/mod.rs:65-91 | Shift-Tab undoes a Tab that left a completion selected. |
| `Prompts.TabUndoesShiftTab` | src/prompt/mod.rs:65-91 | Tab undoes a Shift-Tab made while a completion was selected. |
| `Prompts.ShiftTabGoesBack` | src/prompt/mod.rs:73-78 | With nothing selected, Shift-Tab moves back one slot, and stays on the first. |
| `Prompts.TabCycle` | src/prompt/mod.rs:80-91 | From no selection, the j-th Tab selects completion j - 1. One more Tab than there are completions returns to no selection, and nothing else changes. |
| `Prompts.CharInput` | src/prompt/mod.rs:105-128 | Enter moves to the next slot without touching the inputs, and finishes exactly on the last slot. A printable character replaces the current input with the selected completion, if any, clears the selection and appends itself. Other control characters change nothing. |
| `Prompts.BackUndoesChar` | src/prompt/mod.rs:92-96 | With nothing selected, Backspace undoes a printable character. |
| `Prompts.UpdateCompletionsAsWritten` | src/prompt/mod.rs:131-134 | As written: the completions for the current input replace the list, and the selection is kept. |
| `Prompts.UpdateCompletions` | src/prompt/mod.rs:131-134 | Corrected: the list becomes the current slot's completions for its input, and the inputs and slot are kept. The selection survives whenever the list is unchanged, and a selection that pointed into the list still points into it afterwards. |
| `Prompts.EnterKeepsStaleSelection` | src/prompt/mod.rs:107-120 | As written, Enter into a text slot while a completion is selected leaves a selection past the end of the refreshed, empty list. |
| `Prompts.TabSelectsCom` | src/prompt/mod.rs:80-85 | From a new package-then-text prompt over a buffer holding "com", a refresh and a Tab select "com". The corrected refresh agrees there. |
| `Prompts.EnterDropsSelection` | src/prompt/mod.rs:131-134 | With the corrected refresh, the same Enter leaves no selection. |
| `Projects.IsPackage` | src/state/project.rs:16-21 | True exactly when the selection is the package with that name. |
| `Projects.IsDecl` | src/state/project.rs:25-30 | True exactly when the selection is the declaration with that name. |
| `Projects.SelectionKinds` | src/state/project.rs:13-30 | A selection is never both kinds, names one thing of its kind, and is always the kind it names. |
| `Projects.Lookup` | src/state/project.rs:90-118 | A package found by the first-match walk over the roots is named by the last segment, and is some root's resolution of the path. |
| `Projects.New` | src/state/project.rs:50-57 | No packages, two terminated empty buffers, no selection. |
| `Projects.RegenPkgCompletionList` | src/state/project.rs:60-67 | Only the DECLARATION buffer is rebuilt, and everything else is unchanged. It is a valid buffer whose entries are every root's qualified declaration names, root after root. |
| `Projects.RegenDeclCompletionList` | src/state/project.rs:70-77 | Only the PACKAGE buffer is rebuilt, and everything else is unchanged. It is a valid buffer whose entries are every root's package names, root after root. |
| `Projects.PackageExists` | src/state/project.rs:83-120 | The empty name always exists. A non-empty name that exists resolves from some root. |
| `Projects.PackageExistsIff` | src/state/project.rs:90-119 | With unique names: a non-empty name exists exactly when some root carries its first segment and a chain of children carries the rest. |
| `Projects.FindDot` | src/state/project.rs:136 | The index returned holds a dot. |
| `Projects.FirstSegmentIsSplitHead` | src/state/project.rs:136 | The slice before the first dot is the first segment of the dotted split. |
| `Projects.NewUnique` | src/state/project.rs:151 | A root built by `Package::new` has unique sibling names. |
| `Projects.ReplaceRoot` | src/state/project.rs:139-145 | Extending one root keeps every root's name, hence which root the first-match scan picks. |
| `Projects.PlaceFinds` | src/state/project.rs:133-160 | The deepest package's path is the dotted split of the name, and that path resolves afterwards. |
| `Projects.PlaceExtends` | src/state/project.rs:139-156 | One root is added exactly when no root carries the first segment. Old roots keep their order and are only extended. |
| `Projects.PlaceExisting` | src/state/project.rs:139-150 | Adding a name that already exists leaves the package list unchanged. |
| `Projects.PlaceUnique` | src/state/project.rs:139-156 | Unique names stay unique. |
| `Projects.AddPackage` | src/state/project.rs:133-160 | The package list is extended as above, and the name exists afterwards. The package buffer and the selection are unchanged. The declaration buffer is rebuilt from the new list. |
| `AppState.New` | src/state/mod.rs:23-29 | No prompt, an empty project, and a command buffer with nothing pending or queued over the default mappings. |
| `AppState.Prompt` | src/state/mod.rs:31-50 | A prompt for the given slots is installed only when none is on show, and one on show is never replaced. The result is always true. |
| `AppState.ProcessInput` | src/state/mod.rs:53-101 | With the corrected refresh (`Prompts.UpdateCompletions`), which the source does not have: keeps the state invariant, including that a prompt's selection points into its completions. The source does not keep that invariant (see Findings). An event is used exactly when it is a key press with a key code. Characters never reach the command buffer. Other events change nothing, and the project is never touched. A prompt finishes only on a character event, hands back one input per slot, and is then dropped. |
| `AppState.KeyToPrompt` | src/state/mod.rs:71-77 | With the corrected refresh: a chunk other than Ctrl-G goes to the prompt on show, followed by a refresh. The command buffer is untouched. |
| `AppState.ProcessInputAsWritten` | src/state/mod.rs:53-101 | `process_input` with the refresh as written. It keeps only the weaker invariant (a well-formed prompt, with a selection that may point anywhere), and is defined wherever the source does not panic. Otherwise it has the same routing, use flag and finishing behaviour as `AppState.ProcessInput`. |
| `AppState.KeyToPromptAsWritten` | src/state/mod.rs:71-77 | As written, a chunk other than Ctrl-G goes to the prompt on show. The refresh replaces the completions with those of the new input, and the selection stays whatever the key left it. |
| `AppState.CharToPrompt` | src/state/mod.rs:86-97 | A character that does not finish the prompt is typed into it and followed by a refresh: the as-written one in `ProcessInputAsWritten` and the corrected one in `ProcessInput`. |
| `AppState.AsWrittenDiffersOnlyInSelection` | src/state/mod.rs:53-101 | From a state whose selection points into its list, the source does not panic. Both dispatchers then agree on the use flag, the finished inputs, the project, the command buffer and every prompt field except the selection. The corrected one either keeps the source's selection or drops it. |
| `AppState.StaleSelectionRenames` | src/prompt/mod.rs:131-134 | A divergence without a panic. In a new one-slot package prompt over "a" and "b", the events b, Tab, Backspace, q leave "aq" as written, because the kept selection 0 now names "a". With the corrected refresh they leave "q". |
| `AppState.StaleSelectionPanics` | src/prompt/mod.rs:119-120 | In a new package-then-text prompt over "com", the events Tab, Tab, Enter, a make the as-written dispatcher panic at the index. With the corrected refresh, "a" is typed into the text slot. |
| `AppState.KeyToCommands` | src/state/mod.rs:78-82 | Without a prompt, a chunk other than Ctrl-G goes to the command buffer only. |
| `AppState.CancelRoutesToCommands` | src/state/mod.rs:59-82 | After Ctrl-G the prompt is gone, and the chunk goes to the reset command buffer. |
| `AppState.CancelClears` | src/state/mod.rs:59-66 | When no mapping starts with Ctrl-G, nothing is pending afterwards and the queue is untouched. |
| `AppState.DefaultIgnoresCancel` | src/state/mod.rs:61-62 | No default mapping starts with Ctrl-G. |
| `AppState.CharWithoutPrompt` | src/state/mod.rs:86-97 | A character without a prompt changes nothing and is not reported used. |
| `AppState.EnterFinishes` | src/state/mod.rs:86-91 | Enter on the last slot drops the prompt and hands back its inputs unchanged. On an earlier slot it moves to the next one. |
| `AppState.TypeThenBackspace` | src/state/mod.rs:86-97 | With fresh completions and nothing selected, a printable character followed by Backspace restores the state. |
| `AppState.SelectPackagePrompts` | src/command/select.rs:12-14 | One package slot that accepts empty input. |
| `AppState.SelectPackage` | src/command/select.rs:10-26 | Opens that prompt unless one is already on show. Nothing else changes. |
| `AppState.OnSelectPackage` | src/command/select.rs:15-24 | The selection is set exactly when the first result matched a completion, and is then the package typed. Otherwise it is cleared. Nothing else in the project changes. |
| `AppState.OnSelectDecl` | src/command/select.rs:34-42 | The same rule, selecting a declaration. |

## Code versus doc comments

The model follows the code where it disagrees with its comments:

- `regen_pkg_completion_list` rebuilds the declaration buffer, and
  `regen_decl_completion_list` rebuilds the package buffer
  (src/state/project.rs:59-77). As a result, `add_package` refreshes only the
  declaration buffer. `Projects.RegenPkgCompletionList`,
  `Projects.RegenDeclCompletionList` and `Projects.AddPackage` state this.
- `State::prompt` is documented to return false when a prompt is already on
  show, but it returns true in both branches (src/state/mod.rs:31-50). This
  is `AppState.Prompt`.
- `find_pkg` tests the peek the wrong way round (src/java_model/package.rs:147-177).
  See Findings.

## Findings

| source | as written | input that shows it | evidently intended | confidence | as-written member | corrected member |
|---|---|---|---|---|---|---|
| src/java_model/package.rs:165-169 | When a child matches and more segments remain, it returns that child with `true`. When no segment remains, it recurses, and the recursion unwraps an exhausted iterator. | A package whose only subpackage is a childless `com`. `find_pkg("com.nothere")` returns `com` with `true`, and `find_pkg("com")` panics. | Recurse while segments remain. Return the package with `true` once the last segment has matched, and `false` at the first segment that does not. | high; not executed | `Packages.FindPkg`, `Packages.FindPkgReportsMissingPackageFound`, `Packages.FindPkgPanicsOnExistingChild` | `Packages.FindPkgFixed`, `Packages.FindPkgFixedExamples` |
| src/prompt/mod.rs:131-134 | `update_completions` replaces the completion list but keeps `active_completion`. | Prompt slots `[Package, String]` with "com" in the package buffer. Tab (the refresh now offers "com"), Tab (selects index 0), Enter (moves to the String slot, whose refresh offers nothing, while the selection stays 0), then a printable character: `curr_completions[0]` at src/prompt/mod.rs:119-120 indexes an empty list and panics. | Drop the selection when the list changes, so it always points into the list on offer. | medium; not executed | `Prompts.UpdateCompletionsAsWritten`, `AppState.ProcessInputAsWritten`, `AppState.StaleSelectionPanics`, `AppState.StaleSelectionRenames`, `Prompts.EnterKeepsStaleSelection` | `Prompts.UpdateCompletions`, `AppState.ProcessInput`, `Prompts.EnterDropsSelection` |

`AppState.ProcessInput` uses the corrected refresh, which is what lets its
invariant say that a prompt's selection always points into its completions.
`AppState.ProcessInputAsWritten` keeps the source's refresh, and
`AppState.RunAsWritten` feeds it a sequence of events, ending in None at the
first panic. `AppState.AsWrittenDiffersOnlyInSelection` relates the two
dispatchers. The corrected refresh also changes behaviour where the source
does not panic, which `AppState.StaleSelectionRenames` shows.

## Left out

- Rendering, windowing, fonts and the event loop: src/renderer/, src/view/ and
  src/main.rs are GPU and I/O work. `Rect` in src/common/mod.rs is float
  geometry.
- `Mutex` and `Arc` in src/state/: the state is a single owned value, so lock
  ordering and the deadlock avoided at src/state/project.rs:147 are not
  modelled.
- Prompt callbacks (`Box<FnMut>`). A finished prompt hands back its inputs in
  the `finished` field of `AppState.Step` instead. The select callbacks are modelled as the
  functions `AppState.OnSelectPackage` and `AppState.OnSelectDecl`, over a
  `PromptResult(val, completion_match)` taken as given. src/state/mod.rs:14
  imports `PromptResult`, but src/prompt/mod.rs defines no such type, and its
  callback takes `&[String]` (src/prompt/mod.rs:27). `PT::Decl`, which
  `select_decl` uses, is not a variant of `PromptType`
  (src/prompt/prompt_type.rs:7-13). So the prompt that `select_decl` opens, and
  the computation of `completion_match`, are not modelled.
- src/command/create.rs. Its effects go through `add_decl`, `P::new_exact` and
  `PT::Decl`. No file of the repository defines `add_decl` or `P::new_exact`,
  and `PT::Decl` is not a `PromptType` variant.
- `InputChunk::from_modifiers_state` is called at src/state/mod.rs:67 but
  defined in neither src/input.rs nor src/command/mod.rs.
  `Keys.FromModifiersState` takes it to be the key together with
  `mods_to_bitflags` of the modifiers.
- Class and field contents: a declaration is reduced to its name.
- Unicode: characters are taken to be ASCII, where `to_lowercase` and
  `to_ascii_lowercase` agree. Indices are character indices, not byte
  offsets.
- `display_name` of a trie node is never read or written beyond being empty.
  `SmallVec`, capacities, benches and `println!` do not affect behaviour.
- Trivial getters (`get_node`, `get_active_completion`, `get_completions`,
  `get_curr_prompt`, `get_curr_input`) are plain field reads and have no
  contract.
- `add_strings` and `add_strings_owned` have identical bodies and are the
  single `Search.AddStrings`. The two identical copies of `InputChunk::to_str`
  (src/input.rs and src/command/mod.rs) are the single `Keys.ToStr`.
  `find_pkg_mut` has the control flow of `find_pkg` and shares `Packages.FindPkg`.
- `usize` is unbounded: `curr_prompt += 1` and `consumed += 1` cannot
  overflow at any realistic size.
- Search.FindAllContainingChar: requires a search character other than NUL.
  With NUL, the source slices from `curr_base = ii + 1` to `ii` with
  `slice_unchecked`, which is undefined behaviour.
- Prompts.KeyInput: requires that Tab is not pressed while a completion is
  selected and none are offered, because `len() - 1` then underflows
  (src/prompt/mod.rs:86). The invariant `Prompts.ActiveInRange`, which the
  corrected refresh keeps, rules this out.
- AppState.ProcessInput: uses the corrected refresh, not `update_completions`
  as written (src/state/mod.rs:75-77 and 92-94). This drops a selection whenever
  the list of completions changes, where the source keeps it.
  - On some inputs the source does not panic and still differs. One-slot
    package prompt over "a" and "b": b, Tab, Backspace, q gives "aq" in the
    source and "q" here (`AppState.StaleSelectionRenames`).
  - The source's panics at src/prompt/mod.rs:86 and 119-120 cannot be reached.

  `AppState.ProcessInputAsWritten` models the source's behaviour.
- AppState.KeyToPrompt: states the prompt route with the corrected refresh.
  The source's route, which keeps the selection, is
  `AppState.KeyToPromptAsWritten`.
- AppState.ProcessInputAsWritten: requires that the event does not panic
  (`AppState.PanicsAsWritten`). `AppState.RunAsWritten` turns that panic into
  None.
- Prompts.CharInput: requires that a printable character does not arrive while
  the selection points past the completions (`Prompts.CharPanics`), because
  `curr_completions[k]` panics there (src/prompt/mod.rs:119-120). The
  as-written refresh can reach that state, as `AppState.StaleSelectionPanics`
  shows.
- Packages.FindPkg: requires that the name is not a single segment naming an
  existing child, because the source panics there.
- InputTrie.AddCmdStr: requires letters only, because of the `unwrap` of
  `char_to_keycode`. It also requires that the command is not a single letter
  and does not already spell a whole path of the trie, because
  `consumed == len` then makes the slice at src/command/input_trie.rs:168
  start past its end.
- Projects.PackageExists: its own contract gives one direction only. The
  equivalence with the declarative reading is `Projects.PackageExistsIff`,
  under unique sibling names, which every operation keeps.
- Packages.AddSubpackage: requires the first segment to equal the package's
  name, because `assert_eq!` panics otherwise. `Projects.Place` requires a
  non-empty name unless a root is named "", because `Package::new` asserts
  it.

=== FILE: command_buffer.dfy ===
/**
 * The command buffer of `command/mod.rs`: key chords are fed one at a time
 * into a cursor over the command trie; a chord that leaves the trie drops the
 * pending input, and one that reaches a command queues it and starts over.
 */
module Commands {
  import opened Wrappers
  import opened Text
  import opened Keys
  import opened InputTrie

  /** The chunk of the unshifted letter key with index `i`. */
  function LetterChunk(i: LetterIndex): InputChunk
  {
    InputChunk(Letter(i), 0)
  }

  /** The chunks of "c" and "p". */
  const KeyC: InputChunk := LetterChunk(2)
  const KeyP: InputChunk := LetterChunk(15)

  /** The trie after "cc" was added to an empty one. */
  const AfterCc: Trie := Trie([TrieNode(KeyC, [1], None), TrieNode(KeyC, [], Some(Create(Class)))], [0])

  /** The default mappings: "c" at node 0 with "c" (node 1, create class) and "p" (node 2, create package) below it. */
  const DefaultTrie: Trie :=
    Trie([TrieNode(KeyC, [1, 2], None), TrieNode(KeyC, [], Some(Create(Class))), TrieNode(KeyP, [], Some(Create(Package)))], [0])

  lemma ChunksCc()
    ensures Chunks("cc") == [KeyC, KeyC]
  {
    assert ChunkOfChar('c') == KeyC;
  }

  lemma ChunksCp()
    ensures Chunks("cp") == [KeyC, KeyP]
  {
    assert ChunkOfChar('c') == KeyC && ChunkOfChar('p') == KeyP;
  }

  /** Adding "cc" to the empty trie succeeds and gives a root "c" with one leaf "c" below it. */
  lemma AddCc()
    ensures forall i :: 0 <= i < |"cc"| ==> IsAsciiLetter("cc"[i])
    ensures !SlicePanics(EmptyTrie(), Chunks("cc"))
    ensures AddCmdStr(EmptyTrie(), "cc", Create(Class)) == (AfterCc, Ok(()))
  {
    ChunksCc();
    var t := EmptyTrie();
    var xs := [KeyC, KeyC];
    assert AdvanceNodeRef(t, None, KeyC).None?;
    var t1 := AddRoot(t, NewNode(KeyC, None));
    assert RootFor(t, KeyC) == (t1, 0);
    assert Candidates(t1, Some(0)) == [];
    assert Walk(t1, 0, [KeyC]).None?;
    assert Descend(t1, 0, [KeyC]) == (0, 0);
    var u := AddChild(t1, 0, NewNode(KeyC, Some(Create(Class))));
    AddChildSpec(t1, 0, NewNode(KeyC, Some(Create(Class))));
    assert u.nodes[0] == AfterCc.nodes[0] && u.nodes[1] == AfterCc.nodes[1];
    assert Extend(t1, 0, [KeyC], Create(Class)) == u == AfterCc;
  }

  /** Adding "cp" next succeeds and hangs a leaf "p" beside the first. */
  lemma AddCp()
    ensures forall i :: 0 <= i < |"cp"| ==> IsAsciiLetter("cp"[i])
    ensures !SlicePanics(AfterCc, Chunks("cp"))
    ensures AddCmdStr(AfterCc, "cp", Create(Package)) == (DefaultTrie, Ok(()))
  {
    ChunksCp();
    var t := AfterCc;
    assert t.nodes[t.roots[0]].input == KeyC;
    assert AdvanceNodeRef(t, None, KeyC) == Some(0);
    assert t.nodes[t.nodes[0].children[0]].input != KeyP;
    assert AdvanceNodeRef(t, Some(0), KeyP).None?;
    assert Walk(t, 0, [KeyP]).None?;
    assert Follow(t, [KeyC, KeyP]).None?;
    assert RootFor(t, KeyC) == (t, 0);
    assert Descend(t, 0, [KeyP]) == (0, 0);
    var u := AddChild(t, 0, NewNode(KeyP, Some(Create(Package))));
    AddChildSpec(t, 0, NewNode(KeyP, Some(Create(Package))));
    assert u.nodes[0] == DefaultTrie.nodes[0] && u.nodes[1] == DefaultTrie.nodes[1] && u.nodes[2] == DefaultTrie.nodes[2];
    assert Extend(t, 0, [KeyP], Create(Package)) == u == DefaultTrie;
  }

  /**
   * `CommandBuffer::init_mappings`: "cc" creates a class and "cp" a package.
   * Both insertions succeed, so neither `unwrap` panics, and the result is one
   * root and three nodes.
   */
  function InitMappings(): (t: Trie)
    ensures t == DefaultTrie
  {
    AddCc();
    AddCp();
    var cc := AddCmdStr(EmptyTrie(), "cc", Create(Class));
    assert cc.1.Ok?;
    var cp := AddCmdStr(cc.0, "cp", Create(Package));
    assert cp.1.Ok?;
    cp.0
  }

  /** Both invariants survive one `add_cmd_str`. */
  lemma AddCmdStrInvariants(t: Trie, s: string, cmd: Command)
    requires WellFormed(t) && Unique(t)
    requires forall i :: 0 <= i < |s| ==> IsAsciiLetter(s[i])
    requires !SlicePanics(t, Chunks(s))
    ensures WellFormed(AddCmdStr(t, s, cmd).0) && Unique(AddCmdStr(t, s, cmd).0)
  {
    AddCmdStrWellFormed(t, s, cmd);
    AddCmdStrUnique(t, s, cmd);
  }

  /** The default mappings keep commands at leaves and sibling chords distinct, as every insertion does. */
  lemma DefaultTrieInvariants()
    ensures WellFormed(DefaultTrie) && Unique(DefaultTrie)
  {
    AddCc();
    AddCmdStrInvariants(EmptyTrie(), "cc", Create(Class));
    AddCp();
    AddCmdStrInvariants(AfterCc, "cp", Create(Package));
  }

  /** The lookups `test_advance_node_ref` checks. */
  lemma DefaultTrieLookups()
    ensures AdvanceNodeRef(DefaultTrie, None, KeyC) == Some(0)
    ensures AdvanceNodeRef(DefaultTrie, Some(0), KeyC) == Some(1)
    ensures AdvanceNodeRef(DefaultTrie, Some(0), KeyP) == Some(2)
    ensures AdvanceNodeRef(DefaultTrie, Some(1), KeyP).None?
    ensures AdvanceNodeRef(DefaultTrie, Some(2), KeyP).None?
  {
    var t := DefaultTrie;
    assert Candidates(t, Some(1)) == [] && Candidates(t, Some(2)) == [];
    assert t.nodes[t.nodes[0].children[0]].input != KeyP;
    assert MatchAt(t, [1, 2], KeyP) == Some(1) by {
      assert [1, 2][1..] == [2];
    }
  }

  // ---------------------------------------------------------------------------
  // The buffer
  // ---------------------------------------------------------------------------

  /**
   * `CommandBuffer`: the chords typed since the last reset, the recognised
   * commands not yet polled (oldest first), the trie of mappings, and the
   * cursor into it.
   */
  datatype CommandBuffer = CommandBuffer(inputBuf: seq<InputChunk>, cmdBuf: seq<Command>, trie: Trie, nodeRef: Option<NodeRef>)

  /**
   * The pending chords are the path from the roots to the cursor, there is a
   * cursor exactly when chords are pending, and the cursor never rests on a
   * node that ends a command.
   */
  predicate Inv(b: CommandBuffer)
  {
    && Valid(b.trie) && ValidRef(b.trie, b.nodeRef)
    && (b.nodeRef.None? <==> b.inputBuf == [])
    && (b.inputBuf != [] ==> Follow(b.trie, b.inputBuf) == b.nodeRef && GetCmd(b.trie, b.nodeRef.value).None?)
  }

  /** `CommandBuffer::new`: nothing pending, nothing queued, the default mappings. */
  function New(): (b: CommandBuffer)
    ensures Inv(b) && b.inputBuf == [] && b.cmdBuf == [] && b.trie == DefaultTrie
  {
    CommandBuffer([], [], InitMappings(), None)
  }

  /** `is_empty`: no chord is pending, which is to say there is no cursor. */
  function IsEmpty(b: CommandBuffer): (r: bool)
    ensures Inv(b) ==> (r <==> b.nodeRef.None?)
  {
    b.inputBuf == []
  }

  /** The text of a chord sequence: each chord's `to_str`, in order. */
  function Render(xs: seq<InputChunk>): string
  {
    if |xs| == 0 then [] else Render(xs[..|xs| - 1]) + ToStr(Last(xs))
  }

  /** `get_input_as_str`: the pending chords rendered one after another. */
  method GetInputAsStr(b: CommandBuffer) returns (s: string)
    ensures s == Render(b.inputBuf)
  {
    s := "";
    var i := 0;
    while i < |b.inputBuf|
      invariant i <= |b.inputBuf|
      invariant s == Render(b.inputBuf[..i])
    {
      assert b.inputBuf[..i + 1][..i] == b.inputBuf[..i];
      s := s + ToStr(b.inputBuf[i]);
      i := i + 1;
    }
    assert b.inputBuf[..i] == b.inputBuf;
  }

  /** Rendering the chords of a command string gives the string back, one character per chord. */
  lemma {:induction false} RenderChunks(s: string)
    requires forall i :: 0 <= i < |s| ==> IsAsciiLetter(s[i])
    ensures Render(Chunks(s)) == s
    decreases |s|
  {
    if |s| > 0 {
      var s' := s[..|s| - 1];
      RenderChunks(s');
      assert Chunks(s)[..|s| - 1] == Chunks(s');
      ToStrChunkOfChar(s[|s| - 1]);
    }
  }

  /** `reset_input`: the pending chords and the cursor are dropped; the queue and the mappings stay. */
  function ResetInput(b: CommandBuffer): (r: CommandBuffer)
    ensures r.inputBuf == [] && r.nodeRef.None? && r.cmdBuf == b.cmdBuf && r.trie == b.trie
    ensures Valid(b.trie) ==> Inv(r)
  {
    b.(nodeRef := None, inputBuf := [])
  }

  /** Moving the cursor by one chord is following the pending chords and that one from the roots. */
  lemma CursorStep(b: CommandBuffer, x: InputChunk)
    requires Inv(b)
    ensures Follow(b.trie, b.inputBuf + [x]) == AdvanceNodeRef(b.trie, b.nodeRef, x)
  {
    if b.inputBuf != [] {
      FollowSnoc(b.trie, b.inputBuf, x);
    } else {
      assert b.inputBuf + [x] == [x];
    }
  }

  /**
   * `add_key`: the chord moves the cursor. Where no node has it, the pending
   * chords are dropped; where it reaches a node that ends a command, that
   * command is queued and the pending chords are dropped; otherwise the chord
   * is pending. `AddKeyBreaks`, `AddKeyQueues` and `AddKeyPends` state each
   * outcome in terms of the whole pending sequence followed from the roots.
   */
  function AddKey(b: CommandBuffer, x: InputChunk): (r: CommandBuffer)
    requires Inv(b)
    ensures Inv(r) && r.trie == b.trie
  {
    CursorStep(b, x);
    var n := AdvanceNodeRef(b.trie, b.nodeRef, x);
    if n.None? then b.(inputBuf := [], nodeRef := None)
    else match GetCmd(b.trie, n.value)
      case Some(c) => b.(nodeRef := None, inputBuf := [], cmdBuf := b.cmdBuf + [c])
      case None => b.(inputBuf := b.inputBuf + [x], nodeRef := n)
  }

  /** A chord that leads nowhere drops the pending chords and queues nothing. */
  lemma AddKeyBreaks(b: CommandBuffer, x: InputChunk)
    requires Inv(b) && Follow(b.trie, b.inputBuf + [x]).None?
    ensures AddKey(b, x) == b.(inputBuf := [], nodeRef := None)
  {
    CursorStep(b, x);
  }

  /** A chord that completes a command queues it at the back and drops the pending chords. */
  lemma AddKeyQueues(b: CommandBuffer, x: InputChunk, m: NodeRef, c: Command)
    requires Inv(b) && Follow(b.trie, b.inputBuf + [x]) == Some(m) && GetCmd(b.trie, m) == Some(c)
    ensures AddKey(b, x) == b.(inputBuf := [], nodeRef := None, cmdBuf := b.cmdBuf + [c])
  {
    CursorStep(b, x);
  }

  /** A chord that reaches a node ending no command becomes pending, and the cursor moves there. */
  lemma AddKeyPends(b: CommandBuffer, x: InputChunk, m: NodeRef)
    requires Inv(b) && Follow(b.trie, b.inputBuf + [x]) == Some(m) && m < |b.trie.nodes| && GetCmd(b.trie, m).None?
    ensures AddKey(b, x) == b.(inputBuf := b.inputBuf + [x], nodeRef := Some(m))
  {
    CursorStep(b, x);
  }

  /** `poll_cmd`: the oldest queued command, removed from the queue; nothing when the queue is empty. */
  function PollCmd(b: CommandBuffer): (r: (CommandBuffer, Option<Command>))
    ensures r.1.None? <==> b.cmdBuf == []
    ensures r.1.None? ==> r.0 == b
    ensures r.1.Some? ==> b.cmdBuf == [r.1.value] + r.0.cmdBuf && r.0 == b.(cmdBuf := r.0.cmdBuf)
  {
    if |b.cmdBuf| == 0 then (b, None)
    else (b.(cmdBuf := b.cmdBuf[1..]), Some(b.cmdBuf[0]))
  }

  /** Polling until nothing is left: every command polled, in order. */
  function PollAll(b: CommandBuffer): seq<Command>
    decreases |b.cmdBuf|
  {
    var (b', c) := PollCmd(b);
    if c.None? then [] else [c.value] + PollAll(b')
  }

  /** The queue is first in, first out: polling it dry yields the commands in the order they were queued. */
  lemma {:induction false} PollAllIsQueue(b: CommandBuffer)
    ensures PollAll(b) == b.cmdBuf
    decreases |b.cmdBuf|
  {
    var (b', c) := PollCmd(b);
    if c.Some? {
      PollAllIsQueue(b');
    }
  }

  /** Feeding a chord sequence, one `add_key` each. */
  function AddKeys(b: CommandBuffer, xs: seq<InputChunk>): (r: CommandBuffer)
    requires Inv(b)
    ensures Inv(r) && r.trie == b.trie
  {
    if |xs| == 0 then b else AddKey(AddKeys(b, xs[..|xs| - 1]), Last(xs))
  }

  lemma SnocLast<T>(xs: seq<T>)
    requires |xs| >= 1
    ensures xs[..|xs| - 1] + [Last(xs)] == xs
  {
  }

  /** Once a prefix leads nowhere, so does every longer one. */
  lemma {:induction false} FollowStopsForGood(t: Trie, xs: seq<InputChunk>, k: nat)
    requires Valid(t) && 1 <= k <= |xs| && Follow(t, xs[..k]).None?
    ensures Follow(t, xs).None?
    decreases |xs| - k
  {
    if k < |xs| {
      FollowSnoc(t, xs[..k], xs[k]);
      assert xs[..k] + [xs[k]] == xs[..k + 1];
      FollowStopsForGood(t, xs, k + 1);
    } else {
      assert xs[..k] == xs;
    }
  }

  /** When commands are leaves, every proper prefix of a path leads to a node that ends no command. */
  lemma PrefixOpen(t: Trie, xs: seq<InputChunk>, k: nat)
    requires WellFormed(t) && 1 <= k < |xs| && Follow(t, xs).Some?
    ensures Follow(t, xs[..k]).Some? && GetCmd(t, Follow(t, xs[..k]).value).None?
  {
    if Follow(t, xs[..k]).None? {
      FollowStopsForGood(t, xs, k);
    } else {
      var m := Follow(t, xs[..k]).value;
      if t.nodes[m].command.Some? {
        assert Candidates(t, Some(m)) == [];
        FollowSnoc(t, xs[..k], xs[k]);
        assert xs[..k] + [xs[k]] == xs[..k + 1];
        FollowStopsForGood(t, xs, k + 1);
      }
    }
  }

  /** One more chord of a path: feeding `xs[..k]` is feeding `xs[..k - 1]`, then `xs[k - 1]`. */
  lemma AddKeysStep(b: CommandBuffer, xs: seq<InputChunk>, k: nat)
    requires Inv(b) && 1 <= k <= |xs|
    ensures xs[..k - 1] + [xs[k - 1]] == xs[..k]
    ensures AddKeys(b, xs[..k]) == AddKey(AddKeys(b, xs[..k - 1]), xs[k - 1])
  {
    assert xs[..k][..k - 1] == xs[..k - 1];
  }

  /** `AddKeyPends` with the longer pending sequence named. */
  lemma PendStep(b: CommandBuffer, ys: seq<InputChunk>, x: InputChunk, zs: seq<InputChunk>)
    requires Inv(b) && b.inputBuf == ys && zs == ys + [x]
    requires Follow(b.trie, zs).Some? && GetCmd(b.trie, Follow(b.trie, zs).value).None?
    ensures AddKey(b, x) == b.(inputBuf := zs, nodeRef := Follow(b.trie, zs))
  {
    AddKeyPends(b, x, Follow(b.trie, zs).value);
  }

  /** Typing a proper prefix of a command's chords from an empty buffer leaves them all pending. */
  lemma {:induction false} TypePrefix(b: CommandBuffer, xs: seq<InputChunk>, k: nat)
    requires Inv(b) && WellFormed(b.trie) && b.inputBuf == []
    requires 1 <= k < |xs| && Follow(b.trie, xs).Some?
    ensures AddKeys(b, xs[..k]) == b.(inputBuf := xs[..k], nodeRef := Follow(b.trie, xs[..k]))
  {
    PrefixOpen(b.trie, xs, k);
    AddKeysStep(b, xs, k);
    var before := AddKeys(b, xs[..k - 1]);
    if k == 1 {
      assert before == b;
      PendStep(before, [], xs[0], xs[..1]);
    } else {
      TypePrefix(b, xs, k - 1);
      PendStep(before, xs[..k - 1], xs[k - 1], xs[..k]);
    }
  }

  /**
   * With commands at leaves, typing the chords of a command into an empty
   * buffer queues exactly that command and leaves nothing pending.
   */
  lemma TypeCommand(b: CommandBuffer, xs: seq<InputChunk>, c: Command)
    requires Inv(b) && WellFormed(b.trie) && b.inputBuf == []
    requires |xs| >= 1 && Follow(b.trie, xs).Some? && GetCmd(b.trie, Follow(b.trie, xs).value) == Some(c)
    ensures AddKeys(b, xs) == b.(cmdBuf := b.cmdBuf + [c])
  {
    var k := |xs| - 1;
    var before := AddKeys(b, xs[..k]);
    if k == 0 {
      assert before.inputBuf == [];
    } else {
      TypePrefix(b, xs, k);
      assert before.inputBuf == xs[..k];
    }
    SnocLast(xs);
    AddKeyQueues(before, xs[k], Follow(b.trie, xs).value, c);
  }

  /** The default mappings send c, c to the class leaf and c, p to the package leaf. */
  lemma DefaultPaths()
    ensures Follow(DefaultTrie, [KeyC, KeyC]) == Some(1) && GetCmd(DefaultTrie, 1) == Some(Create(Class))
    ensures Follow(DefaultTrie, [KeyC, KeyP]) == Some(2) && GetCmd(DefaultTrie, 2) == Some(Create(Package))
  {
    DefaultTrieLookups();
    assert [KeyC, KeyC][1..] == [KeyC] && [KeyC, KeyP][1..] == [KeyP];
  }

  /** With the default mappings, c then c queues a class creation. */
  lemma DefaultTypesClass()
    ensures AddKeys(New(), [KeyC, KeyC]).cmdBuf == [Create(Class)]
  {
    DefaultTrieInvariants();
    DefaultPaths();
    TypeCommand(New(), [KeyC, KeyC], Create(Class));
  }

  /** With the default mappings, c then p queues a package creation. */
  lemma DefaultTypesPackage()
    ensures AddKeys(New(), [KeyC, KeyP]).cmdBuf == [Create(Package)]
  {
    DefaultTrieInvariants();
    DefaultPaths();
    TypeCommand(New(), [KeyC, KeyP], Create(Package));
  }
}

=== FILE: input_trie.dfy ===
/**
 * The command trie of `command/input_trie.rs`. Nodes live in one vector and
 * refer to their children by index (`NodeRef`); the roots are a separate list.
 * Every lookup takes the FIRST node in a list whose chunk equals the input, and
 * insertion only ever appends nodes and child references, so what could be
 * looked up before an insertion is found at the same node after it.
 */
module InputTrie {
  import opened Wrappers
  import opened Text
  import opened Keys

  /** The noun of a create command. */
  datatype CreateObject = Class | Package

  /** A recognised command (`Command::Create(CreateCommand(..))`). */
  datatype Command = Create(obj: CreateObject)

  type NodeRef = nat

  /** A node: the chunk that leads to it, its children, and the command when it ends one. */
  datatype TrieNode = TrieNode(input: InputChunk, children: seq<NodeRef>, command: Option<Command>)

  datatype Trie = Trie(nodes: seq<TrieNode>, roots: seq<NodeRef>)

  datatype AddCommandError = CommandAlreadyPrefixed | CommandEmpty

  /** `InputTrie::new`. */
  function EmptyTrie(): (t: Trie)
    ensures Valid(t) && WellFormed(t) && |t.nodes| == 0 && |t.roots| == 0
  {
    Trie([], [])
  }

  predicate InRange(t: Trie, refs: seq<NodeRef>)
  {
    forall i :: 0 <= i < |refs| ==> refs[i] < |t.nodes|
  }

  /** Every reference points into the node vector, so no lookup panics. */
  predicate Valid(t: Trie)
  {
    && InRange(t, t.roots)
    && forall n, i :: 0 <= n < |t.nodes| && 0 <= i < |t.nodes[n].children| ==> t.nodes[n].children[i] < |t.nodes|
  }

  /** A node holding a command has no children: every command is a leaf. */
  predicate WellFormed(t: Trie)
  {
    Valid(t) && forall n :: 0 <= n < |t.nodes| ==> t.nodes[n].command.Some? ==> t.nodes[n].children == []
  }

  predicate ValidRef(t: Trie, r: Option<NodeRef>)
  {
    r.Some? ==> r.value < |t.nodes|
  }

  // ---------------------------------------------------------------------------
  // Lookup
  // ---------------------------------------------------------------------------

  /** The list a lookup scans: the roots for no node, the node's children otherwise. */
  function Candidates(t: Trie, r: Option<NodeRef>): (c: seq<NodeRef>)
    requires Valid(t) && ValidRef(t, r)
    ensures InRange(t, c)
  {
    if r.None? then t.roots else t.nodes[r.value].children
  }

  /** Position in `refs` of the first node whose chunk is `x`. */
  function MatchAt(t: Trie, refs: seq<NodeRef>, x: InputChunk): (r: Option<nat>)
    requires InRange(t, refs)
    ensures r.Some? ==> r.value < |refs| && t.nodes[refs[r.value]].input == x
    decreases |refs|
  {
    if |refs| == 0 then None
    else if t.nodes[refs[0]].input == x then Some(0)
    else match MatchAt(t, refs[1..], x)
      case None => None
      case Some(j) => Some(j + 1)
  }

  /** The match is the first one, and there is none only when no node in `refs` has the chunk. */
  lemma {:induction false} MatchAtFirst(t: Trie, refs: seq<NodeRef>, x: InputChunk)
    requires InRange(t, refs)
    ensures var r := MatchAt(t, refs, x);
            && (r.Some? ==> forall j :: 0 <= j < r.value ==> t.nodes[refs[j]].input != x)
            && (r.None? ==> forall j :: 0 <= j < |refs| ==> t.nodes[refs[j]].input != x)
    decreases |refs|
  {
    if |refs| > 0 && t.nodes[refs[0]].input != x {
      MatchAtFirst(t, refs[1..], x);
      assert forall j :: 1 <= j < |refs| ==> refs[j] == refs[1..][j - 1];
    }
  }

  lemma MatchAtIs(t: Trie, refs: seq<NodeRef>, x: InputChunk, i: nat)
    requires InRange(t, refs)
    requires i < |refs| && t.nodes[refs[i]].input == x
    requires forall j :: 0 <= j < i ==> t.nodes[refs[j]].input != x
    ensures MatchAt(t, refs, x) == Some(i)
    decreases i
  {
    if i > 0 {
      assert t.nodes[refs[0]].input != x;
      MatchAtIs(t, refs[1..], x, i - 1);
    }
  }

  /**
   * `advance_node_ref`: the first root (for no node) or the first child of the
   * node whose chunk is the input; nothing when there is none.
   */
  function AdvanceNodeRef(t: Trie, r: Option<NodeRef>, x: InputChunk): (n: Option<NodeRef>)
    requires Valid(t) && ValidRef(t, r)
    ensures ValidRef(t, n)
    ensures n.Some? ==> t.nodes[n.value].input == x
  {
    var c := Candidates(t, r);
    match MatchAt(t, c, x)
    case None => None
    case Some(j) => Some(c[j])
  }

  /**
   * What `advance_node_ref` finds: a candidate with the input chunk, with no
   * earlier candidate carrying it; and nothing exactly when no candidate does.
   */
  lemma AdvanceNodeRefSpec(t: Trie, r: Option<NodeRef>, x: InputChunk)
    requires Valid(t) && ValidRef(t, r)
    ensures var n := AdvanceNodeRef(t, r, x);
            var c := Candidates(t, r);
            && (n.None? <==> forall j :: 0 <= j < |c| ==> t.nodes[c[j]].input != x)
            && (n.Some? ==> exists i :: 0 <= i < |c| && c[i] == n.value
                                        && forall j :: 0 <= j < i ==> t.nodes[c[j]].input != x)
  {
    var c := Candidates(t, r);
    var m := MatchAt(t, c, x);
    MatchAtFirst(t, c, x);
    if m.Some? {
      assert c[m.value] == AdvanceNodeRef(t, r, x).value;
    }
  }

  /** `get_cmd`: the command the node ends, if any. */
  function GetCmd(t: Trie, n: NodeRef): Option<Command>
    requires n < |t.nodes|
  {
    t.nodes[n].command
  }

  /** The node reached from node `n` by the chunks `xs`, one `advance_node_ref` per chunk. */
  function Walk(t: Trie, n: NodeRef, xs: seq<InputChunk>): (r: Option<NodeRef>)
    requires Valid(t) && n < |t.nodes|
    ensures ValidRef(t, r)
    ensures |xs| == 0 ==> r == Some(n)
    decreases |xs|
  {
    if |xs| == 0 then Some(n)
    else match AdvanceNodeRef(t, Some(n), xs[0])
      case None => None
      case Some(c) => Walk(t, c, xs[1..])
  }

  /** The chunks `xs` lead from node `n` to the node pushed last. */
  predicate LeadsToLast(t: Trie, n: NodeRef, xs: seq<InputChunk>)
    requires Valid(t) && n < |t.nodes|
  {
    Walk(t, n, xs) == Some(|t.nodes| - 1)
  }

  /** The node pushed last is a leaf reached by `x` that ends `cmd`. */
  predicate LastIsLeaf(t: Trie, x: InputChunk, cmd: Command)
  {
    |t.nodes| > 0 && t.nodes[|t.nodes| - 1] == TrieNode(x, [], Some(cmd))
  }

  /** The node a whole chunk sequence leads to from the roots. */
  function Follow(t: Trie, xs: seq<InputChunk>): (r: Option<NodeRef>)
    requires Valid(t) && |xs| >= 1
    ensures ValidRef(t, r)
  {
    match AdvanceNodeRef(t, None, xs[0])
    case None => None
    case Some(c) => Walk(t, c, xs[1..])
  }

  /** Walking one more chunk is one more `advance_node_ref` from where the walk ended. */
  lemma {:induction false} WalkSnoc(t: Trie, n: NodeRef, xs: seq<InputChunk>, x: InputChunk)
    requires Valid(t) && n < |t.nodes|
    ensures Walk(t, n, xs + [x]) == match Walk(t, n, xs) case None => None case Some(m) => AdvanceNodeRef(t, Some(m), x)
    decreases |xs|
  {
    if |xs| > 0 {
      assert (xs + [x])[0] == xs[0] && (xs + [x])[1..] == xs[1..] + [x];
      match AdvanceNodeRef(t, Some(n), xs[0])
      case None => {}
      case Some(c) => WalkSnoc(t, c, xs[1..], x);
    } else {
      assert [x][1..] == [];
    }
  }

  /** Following one more chunk is one more `advance_node_ref` from where the input ended. */
  lemma FollowSnoc(t: Trie, xs: seq<InputChunk>, x: InputChunk)
    requires Valid(t) && |xs| >= 1
    ensures Follow(t, xs + [x]) == match Follow(t, xs) case None => None case Some(m) => AdvanceNodeRef(t, Some(m), x)
  {
    assert (xs + [x])[0] == xs[0] && (xs + [x])[1..] == xs[1..] + [x];
    match AdvanceNodeRef(t, None, xs[0])
    case None => {}
    case Some(c) => WalkSnoc(t, c, xs[1..], x);
  }

  lemma {:induction false} WalkAppend(t: Trie, n: NodeRef, xs: seq<InputChunk>, ys: seq<InputChunk>)
    requires Valid(t) && n < |t.nodes|
    ensures Walk(t, n, xs + ys) == match Walk(t, n, xs) case None => None case Some(m) => Walk(t, m, ys)
    decreases |xs|
  {
    if |xs| > 0 {
      assert (xs + ys)[0] == xs[0] && (xs + ys)[1..] == xs[1..] + ys;
      match AdvanceNodeRef(t, Some(n), xs[0])
      case None => {}
      case Some(c) => WalkAppend(t, c, xs[1..], ys);
    } else {
      assert xs + ys == ys;
    }
  }

  // ---------------------------------------------------------------------------
  // Growth
  // ---------------------------------------------------------------------------

  /**
   * `u` extends `t`: the node vector and the roots are only appended to, and an
   * old node keeps its chunk and command and only gains children at the end.
   */
  predicate Grows(t: Trie, u: Trie)
  {
    && |t.nodes| <= |u.nodes|
    && t.roots <= u.roots
    && forall n :: 0 <= n < |t.nodes| ==>
         && u.nodes[n].input == t.nodes[n].input
         && u.nodes[n].command == t.nodes[n].command
         && t.nodes[n].children <= u.nodes[n].children
  }

  lemma GrowsRefl(t: Trie)
    ensures Grows(t, t)
  {
  }

  lemma GrowsTrans(t: Trie, u: Trie, v: Trie)
    requires Grows(t, u) && Grows(u, v)
    ensures Grows(t, v)
  {
    forall n | 0 <= n < |t.nodes|
      ensures t.nodes[n].children <= v.nodes[n].children
    {
      assert u.nodes[n].children <= v.nodes[n].children;
    }
  }

  /** A lookup that succeeds keeps its answer when the trie grows. */
  lemma GrowsAdvance(t: Trie, u: Trie, r: Option<NodeRef>, x: InputChunk)
    requires Valid(t) && Valid(u) && Grows(t, u) && ValidRef(t, r)
    requires AdvanceNodeRef(t, r, x).Some?
    ensures AdvanceNodeRef(u, r, x) == AdvanceNodeRef(t, r, x)
  {
    var c := Candidates(t, r);
    var d := Candidates(u, r);
    assert c <= d;
    var j := MatchAt(t, c, x).value;
    MatchAtFirst(t, c, x);
    forall k | 0 <= k <= j
      ensures d[k] == c[k] && u.nodes[d[k]].input == t.nodes[c[k]].input
    {
    }
    MatchAtIs(u, d, x, j);
  }

  /** A walk that succeeds keeps its end node when the trie grows. */
  lemma {:induction false} GrowsWalk(t: Trie, u: Trie, n: NodeRef, xs: seq<InputChunk>)
    requires Valid(t) && Valid(u) && Grows(t, u) && n < |t.nodes|
    requires Walk(t, n, xs).Some?
    ensures Walk(u, n, xs) == Walk(t, n, xs)
    decreases |xs|
  {
    if |xs| > 0 {
      GrowsAdvance(t, u, Some(n), xs[0]);
      var c := AdvanceNodeRef(t, Some(n), xs[0]).value;
      GrowsWalk(t, u, c, xs[1..]);
    }
  }

  /** Whatever a chunk sequence led to before the trie grew, it still leads to. */
  lemma GrowsFollow(t: Trie, u: Trie, xs: seq<InputChunk>)
    requires Valid(t) && Valid(u) && Grows(t, u) && |xs| >= 1
    requires Follow(t, xs).Some?
    ensures Follow(u, xs) == Follow(t, xs)
  {
    GrowsAdvance(t, u, None, xs[0]);
    GrowsWalk(t, u, AdvanceNodeRef(t, None, xs[0]).value, xs[1..]);
  }

  // ---------------------------------------------------------------------------
  // InputTrie::add_cmd_str
  // ---------------------------------------------------------------------------

  /** The chunks of a command string, one per letter. */
  function Chunks(s: string): (xs: seq<InputChunk>)
    requires forall i :: 0 <= i < |s| ==> IsAsciiLetter(s[i])
    ensures |xs| == |s|
  {
    seq(|s|, i requires 0 <= i < |s| && IsAsciiLetter(s[i]) => ChunkOfChar(s[i]))
  }

  /** A fresh node with no children. */
  function NewNode(x: InputChunk, cmd: Option<Command>): TrieNode
  {
    TrieNode(x, [], cmd)
  }

  /** Pushes a node and appends its index to the roots. */
  function AddRoot(t: Trie, node: TrieNode): (u: Trie)
    requires Valid(t) && node.children == []
    ensures Valid(u) && Grows(t, u) && |u.nodes| == |t.nodes| + 1 && u.nodes[|t.nodes|] == node
    ensures u.roots == t.roots + [|t.nodes|]
    ensures forall n :: 0 <= n < |t.nodes| ==> u.nodes[n] == t.nodes[n]
  {
    var u := Trie(t.nodes + [node], t.roots + [|t.nodes|]);
    assert forall n :: 0 <= n < |t.nodes| ==> u.nodes[n] == t.nodes[n];
    u
  }

  /** Pushes a node and appends its index to the children of `parent`. */
  function AddChild(t: Trie, parent: NodeRef, node: TrieNode): (u: Trie)
    requires Valid(t) && parent < |t.nodes| && node.children == []
    ensures Valid(u) && |u.nodes| == |t.nodes| + 1 && u.roots == t.roots
  {
    var p := t.nodes[parent];
    var u := Trie(t.nodes[parent := p.(children := p.children + [|t.nodes|])] + [node], t.roots);
    u
  }

  /** The new node is pushed last and added at the end of the children of `parent`; nothing else changes. */
  lemma AddChildSpec(t: Trie, parent: NodeRef, node: TrieNode)
    requires Valid(t) && parent < |t.nodes| && node.children == []
    ensures var u := AddChild(t, parent, node);
            && Grows(t, u) && u.nodes[|t.nodes|] == node
            && u.nodes[parent].children == t.nodes[parent].children + [|t.nodes|]
            && forall n :: 0 <= n < |t.nodes| && n != parent ==> u.nodes[n] == t.nodes[n]
  {
  }

  /**
   * Follows `xs` from `n` for as long as some child matches: the node reached
   * and how many chunks it took (the descent loop of `add_cmd_str`).
   */
  function Descend(t: Trie, n: NodeRef, xs: seq<InputChunk>): (r: (NodeRef, nat))
    requires Valid(t) && n < |t.nodes|
    ensures r.0 < |t.nodes| && r.1 <= |xs|
    decreases |xs|
  {
    if |xs| == 0 then (n, 0)
    else match AdvanceNodeRef(t, Some(n), xs[0])
      case None => (n, 0)
      case Some(c) =>
        var r := Descend(t, c, xs[1..]);
        (r.0, r.1 + 1)
  }

  /** The descent walks the chunks it consumed, and stops only where no child has the next one. */
  lemma {:induction false} DescendSpec(t: Trie, n: NodeRef, xs: seq<InputChunk>)
    requires Valid(t) && n < |t.nodes|
    ensures var r := Descend(t, n, xs);
            && Walk(t, n, xs[..r.1]) == Some(r.0)
            && (r.1 < |xs| ==> AdvanceNodeRef(t, Some(r.0), xs[r.1]).None?)
    decreases |xs|
  {
    if |xs| > 0 {
      match AdvanceNodeRef(t, Some(n), xs[0])
      case None =>
        assert xs[..0] == [];
      case Some(c) =>
        DescendSpec(t, c, xs[1..]);
        var r := Descend(t, c, xs[1..]);
        assert xs[..r.1 + 1][0] == xs[0] && xs[..r.1 + 1][1..] == xs[1..][..r.1];
        assert r.1 < |xs| - 1 ==> xs[1..][r.1] == xs[r.1 + 1];
    }
  }

  /** Where the descent stops when the whole of `xs` cannot be walked: before its end. */
  lemma DescendShort(t: Trie, n: NodeRef, xs: seq<InputChunk>)
    requires Valid(t) && n < |t.nodes| && Walk(t, n, xs).None?
    ensures Descend(t, n, xs).1 < |xs|
  {
    DescendSpec(t, n, xs);
    assert xs[..|xs|] == xs;
  }

  /** A walk that ends at a childless node is exactly where the descent stops. */
  lemma {:induction false} DescendToLeaf(t: Trie, n: NodeRef, xs: seq<InputChunk>, k: nat, c: NodeRef)
    requires Valid(t) && n < |t.nodes| && k <= |xs|
    requires Walk(t, n, xs[..k]) == Some(c) && t.nodes[c].children == []
    ensures Descend(t, n, xs) == (c, k)
    decreases k
  {
    if k == 0 {
      assert Candidates(t, Some(n)) == [];
    } else {
      assert xs[..k][0] == xs[0] && xs[..k][1..] == xs[1..][..k - 1];
      var c' := AdvanceNodeRef(t, Some(n), xs[0]).value;
      DescendToLeaf(t, c', xs[1..], k - 1, c);
    }
  }

  /**
   * Hangs `xs` below `n`, as the last two loops of `add_cmd_str` do: one
   * command-less node per chunk but the last, then a leaf holding `cmd`, each
   * pushed at the end of the vector and appended to the children of the node
   * before it (of `n` for the first).
   */
  function Extend(t: Trie, n: NodeRef, xs: seq<InputChunk>, cmd: Command): (u: Trie)
    requires Valid(t) && n < |t.nodes| && |xs| >= 1
    ensures Valid(u) && |u.nodes| == |t.nodes| + |xs| && u.roots == t.roots
    decreases |xs|
  {
    if |xs| == 1 then AddChild(t, n, NewNode(xs[0], Some(cmd)))
    else Extend(AddChild(t, n, NewNode(xs[0], None)), |t.nodes|, xs[1..], cmd)
  }

  /** `Extend` only extends the trie. */
  lemma {:induction false} ExtendGrows(t: Trie, n: NodeRef, xs: seq<InputChunk>, cmd: Command)
    requires Valid(t) && n < |t.nodes| && |xs| >= 1
    ensures Grows(t, Extend(t, n, xs, cmd))
    decreases |xs|
  {
    if |xs| == 1 {
      AddChildSpec(t, n, NewNode(xs[0], Some(cmd)));
    } else {
      var t1 := AddChild(t, n, NewNode(xs[0], None));
      AddChildSpec(t, n, NewNode(xs[0], None));
      ExtendGrows(t1, |t.nodes|, xs[1..], cmd);
      GrowsTrans(t, t1, Extend(t1, |t.nodes|, xs[1..], cmd));
    }
  }

  /** No old node other than `n` changes under `Extend`. */
  lemma {:induction false} ExtendKeeps(t: Trie, n: NodeRef, xs: seq<InputChunk>, cmd: Command, m: NodeRef)
    requires Valid(t) && n < |t.nodes| && |xs| >= 1 && m < |t.nodes| && m != n
    ensures Extend(t, n, xs, cmd).nodes[m] == t.nodes[m]
    decreases |xs|
  {
    if |xs| == 1 {
      AddChildSpec(t, n, NewNode(xs[0], Some(cmd)));
    } else {
      var t1 := AddChild(t, n, NewNode(xs[0], None));
      AddChildSpec(t, n, NewNode(xs[0], None));
      ExtendKeeps(t1, |t.nodes|, xs[1..], cmd, m);
    }
  }

  /**
   * The nodes from `b` to the end of `u` carry the chunks `xs` in order, and
   * each but the last is the command-less parent of exactly the next one.
   */
  predicate Chain(u: Trie, b: NodeRef, xs: seq<InputChunk>)
  {
    && b + |xs| == |u.nodes|
    && (forall k :: b <= k < |u.nodes| ==> u.nodes[k].input == xs[k - b])
    && (forall k :: b <= k < |u.nodes| - 1 ==> u.nodes[k].children == [k + 1] && u.nodes[k].command.None?)
  }

  /** `u` is `t` with the chunks `xs` hung below `n` as a chain whose head is appended to the children of `n`. */
  predicate Hung(t: Trie, u: Trie, n: NodeRef, xs: seq<InputChunk>)
    requires n < |t.nodes|
  {
    n < |u.nodes| && u.nodes[n].children == t.nodes[n].children + [|t.nodes|] && Chain(u, |t.nodes|, xs)
  }

  /** The last node `Extend` pushes is the leaf holding `cmd`, reached by the last chunk. */
  lemma {:induction false} ExtendLeaf(t: Trie, n: NodeRef, xs: seq<InputChunk>, cmd: Command)
    requires Valid(t) && n < |t.nodes| && |xs| >= 1
    ensures LastIsLeaf(Extend(t, n, xs, cmd), Last(xs), cmd)
    decreases |xs|
  {
    if |xs| == 1 {
      AddChildSpec(t, n, NewNode(xs[0], Some(cmd)));
    } else {
      ExtendLeaf(AddChild(t, n, NewNode(xs[0], None)), |t.nodes|, xs[1..], cmd);
      LastDrop(xs, 1);
    }
  }

  /** What `Extend` builds: the chain of `xs` hung below `n`. */
  lemma {:induction false} ExtendShape(t: Trie, n: NodeRef, xs: seq<InputChunk>, cmd: Command)
    requires Valid(t) && n < |t.nodes| && |xs| >= 1
    ensures Hung(t, Extend(t, n, xs, cmd), n, xs)
    decreases |xs|
  {
    if |xs| == 1 {
      AddChildSpec(t, n, NewNode(xs[0], Some(cmd)));
    } else {
      var b := |t.nodes|;
      var t1 := AddChild(t, n, NewNode(xs[0], None));
      AddChildSpec(t, n, NewNode(xs[0], None));
      var u := Extend(t1, b, xs[1..], cmd);
      ExtendShape(t1, b, xs[1..], cmd);
      ExtendGrows(t1, b, xs[1..], cmd);
      ExtendKeeps(t1, b, xs[1..], cmd, n);
      assert u.nodes[b].input == xs[0] && u.nodes[b].command.None?;
      forall k | b + 1 <= k < |u.nodes|
        ensures u.nodes[k].input == xs[k - b]
      {
        assert xs[1..][k - (b + 1)] == xs[k - b];
      }
    }
  }

  /** A chain of nodes, each the only child of the one before, is walked to its end. */
  lemma {:induction false} ChainWalk(u: Trie, b: NodeRef, xs: seq<InputChunk>)
    requires Valid(u) && |xs| >= 1 && Chain(u, b, xs)
    ensures Walk(u, b, xs[1..]) == Some(|u.nodes| - 1)
    decreases |xs|
  {
    if |xs| > 1 {
      assert u.nodes[b + 1].input == xs[1];
      MatchAtIs(u, u.nodes[b].children, xs[1], 0);
      ChainWalk(u, b + 1, xs[1..]);
    }
  }

  /** The first chunk leads from `n` to the head of the chain when no old child of `n` has it. */
  lemma ChainFirst(t: Trie, u: Trie, n: NodeRef, xs: seq<InputChunk>)
    requires Valid(t) && Valid(u) && Grows(t, u) && n < |t.nodes| && |xs| >= 1
    requires Hung(t, u, n, xs) && AdvanceNodeRef(t, Some(n), xs[0]).None?
    ensures AdvanceNodeRef(u, Some(n), xs[0]) == Some(|t.nodes|)
  {
    var c := t.nodes[n].children;
    MatchAtFirst(t, c, xs[0]);
    assert u.nodes[|t.nodes|].input == xs[0];
    forall j | 0 <= j < |c|
      ensures u.nodes[c[j]].input != xs[0]
    {
      assert c[j] < |t.nodes|;
    }
    MatchAtIs(u, c + [|t.nodes|], xs[0], |c|);
  }

  /** After hanging `xs` below `n`, where no child had its first chunk, `xs` leads from `n` to the last new node. */
  lemma HungWalk(t: Trie, u: Trie, n: NodeRef, xs: seq<InputChunk>)
    requires Valid(t) && Valid(u) && Grows(t, u) && n < |t.nodes| && |xs| >= 1
    requires Hung(t, u, n, xs) && AdvanceNodeRef(t, Some(n), xs[0]).None?
    ensures LeadsToLast(u, n, xs)
  {
    ChainFirst(t, u, n, xs);
    ChainWalk(u, |t.nodes|, xs);
  }

  /** When no child of `n` has the first chunk, the whole of `xs` leads from `n` to the new leaf. */
  lemma ExtendWalk(t: Trie, n: NodeRef, xs: seq<InputChunk>, cmd: Command)
    requires Valid(t) && n < |t.nodes| && |xs| >= 1
    requires AdvanceNodeRef(t, Some(n), xs[0]).None?
    ensures var u := Extend(t, n, xs, cmd);
            LeadsToLast(u, n, xs)
  {
    ExtendGrows(t, n, xs, cmd);
    ExtendShape(t, n, xs, cmd);
    HungWalk(t, Extend(t, n, xs, cmd), n, xs);
  }

  /** Hanging a chain below a node without a command keeps every command at a leaf. */
  lemma ExtendWellFormed(t: Trie, n: NodeRef, xs: seq<InputChunk>, cmd: Command)
    requires WellFormed(t) && n < |t.nodes| && |xs| >= 1 && t.nodes[n].command.None?
    ensures WellFormed(Extend(t, n, xs, cmd))
  {
    ExtendGrows(t, n, xs, cmd);
    ExtendShape(t, n, xs, cmd);
    ExtendLeaf(t, n, xs, cmd);
    var u := Extend(t, n, xs, cmd);
    forall m | 0 <= m < |u.nodes| && u.nodes[m].command.Some?
      ensures u.nodes[m].children == []
    {
      if m < |t.nodes| && m != n {
        ExtendKeeps(t, n, xs, cmd, m);
      }
    }
  }

  /**
   * The descent and the extension below a root: follow `xs` from `n` as far as
   * it goes, refuse with `CommandAlreadyPrefixed` if the node reached ends a
   * command, and hang the rest below it otherwise.
   */
  function Hang(t: Trie, n: NodeRef, xs: seq<InputChunk>, cmd: Command): (r: (Trie, Result<(), AddCommandError>))
    requires Valid(t) && n < |t.nodes| && Walk(t, n, xs).None?
    ensures Valid(r.0) && r.1 != Err(CommandEmpty)
    ensures r.1.Err? ==> r.0 == t
    ensures r.1.Ok? ==> |t.nodes| < |r.0.nodes| <= |t.nodes| + |xs|
    ensures r.1.Ok? ==> LastIsLeaf(r.0, Last(xs), cmd) && LeadsToLast(r.0, n, xs)
  {
    DescendShort(t, n, xs);
    DescendSpec(t, n, xs);
    var d := Descend(t, n, xs);
    if t.nodes[d.0].command.Some? then (t, Err(CommandAlreadyPrefixed))
    else
      ExtendAfterPrefix(t, n, xs, d.1, d.0, cmd);
      ExtendLeaf(t, d.0, xs[d.1..], cmd);
      LastDrop(xs, d.1);
      (Extend(t, d.0, xs[d.1..], cmd), Ok(()))
  }

  lemma HangGrows(t: Trie, n: NodeRef, xs: seq<InputChunk>, cmd: Command)
    requires Valid(t) && n < |t.nodes| && Walk(t, n, xs).None?
    ensures Grows(t, Hang(t, n, xs, cmd).0)
  {
    DescendShort(t, n, xs);
    var d := Descend(t, n, xs);
    if t.nodes[d.0].command.None? {
      ExtendGrows(t, d.0, xs[d.1..], cmd);
    }
  }

  /** Some proper prefix of `xs`, the empty one included, leads from `n` to a node that ends a command. */
  predicate EndsCommandWithin(t: Trie, n: NodeRef, xs: seq<InputChunk>)
    requires Valid(t) && n < |t.nodes|
  {
    exists k :: 0 <= k < |xs| && Walk(t, n, xs[..k]).Some? && t.nodes[Walk(t, n, xs[..k]).value].command.Some?
  }

  /** `Hang` refuses only when a command ends on the way, and always does so when commands are leaves. */
  lemma HangRefuses(t: Trie, n: NodeRef, xs: seq<InputChunk>, cmd: Command)
    requires Valid(t) && n < |t.nodes| && Walk(t, n, xs).None?
    ensures Hang(t, n, xs, cmd).1.Err? ==> EndsCommandWithin(t, n, xs)
    ensures WellFormed(t) && EndsCommandWithin(t, n, xs) ==> Hang(t, n, xs, cmd).1.Err?
  {
    DescendShort(t, n, xs);
    DescendSpec(t, n, xs);
    if WellFormed(t) && EndsCommandWithin(t, n, xs) {
      var k :| 0 <= k < |xs| && Walk(t, n, xs[..k]).Some? && t.nodes[Walk(t, n, xs[..k]).value].command.Some?;
      DescendToLeaf(t, n, xs, k, Walk(t, n, xs[..k]).value);
    }
  }

  /** A walk split at the node where the old path ended and the new nodes begin. */
  lemma WalkThroughInsert(t: Trie, u: Trie, n: NodeRef, xs: seq<InputChunk>, k: nat, cur: NodeRef)
    requires Valid(t) && Valid(u) && Grows(t, u) && n < |t.nodes| && k <= |xs|
    requires Walk(t, n, xs[..k]) == Some(cur)
    ensures Walk(u, n, xs) == Walk(u, cur, xs[k..])
  {
    GrowsWalk(t, u, n, xs[..k]);
    WalkAppend(u, n, xs[..k], xs[k..]);
    SplitAt(xs, k);
  }

  /** A chain hung where the old path of the first `k` chunks of `xs` ends makes all of `xs` lead to its end. */
  lemma HungAfterPrefix(t: Trie, u: Trie, n: NodeRef, xs: seq<InputChunk>, k: nat, c: NodeRef)
    requires Valid(t) && Valid(u) && Grows(t, u) && n < |t.nodes| && k < |xs| && c < |t.nodes|
    requires Walk(t, n, xs[..k]) == Some(c) && AdvanceNodeRef(t, Some(c), xs[k]).None?
    requires Hung(t, u, c, xs[k..])
    ensures LeadsToLast(u, n, xs)
  {
    var ys := xs[k..];
    assert ys[0] == xs[k];
    HungWalk(t, u, c, ys);
    WalkThroughInsert(t, u, n, xs, k, c);
  }

  /** Hanging the rest of `xs` where the old path of its first `k` chunks ends makes all of `xs` lead to the new leaf. */
  lemma ExtendAfterPrefix(t: Trie, n: NodeRef, xs: seq<InputChunk>, k: nat, c: NodeRef, cmd: Command)
    requires Valid(t) && n < |t.nodes| && k < |xs| && c < |t.nodes|
    requires Walk(t, n, xs[..k]) == Some(c) && AdvanceNodeRef(t, Some(c), xs[k]).None?
    ensures var u := Extend(t, c, xs[k..], cmd);
            LeadsToLast(u, n, xs)
  {
    ExtendGrows(t, c, xs[k..], cmd);
    ExtendShape(t, c, xs[k..], cmd);
    HungAfterPrefix(t, Extend(t, c, xs[k..], cmd), n, xs, k, c);
  }

  lemma HangWellFormed(t: Trie, n: NodeRef, xs: seq<InputChunk>, cmd: Command)
    requires Valid(t) && n < |t.nodes| && Walk(t, n, xs).None?
    ensures WellFormed(t) ==> WellFormed(Hang(t, n, xs, cmd).0)
  {
    DescendShort(t, n, xs);
    var d := Descend(t, n, xs);
    if WellFormed(t) && t.nodes[d.0].command.None? {
      ExtendWellFormed(t, d.0, xs[d.1..], cmd);
    }
  }

  /** Below a node without children or command, `Hang` always succeeds. */
  lemma HangBelowFreshNode(t: Trie, n: NodeRef, xs: seq<InputChunk>, cmd: Command)
    requires Valid(t) && n < |t.nodes| && Walk(t, n, xs).None?
    requires t.nodes[n].children == [] && t.nodes[n].command.None?
    ensures Hang(t, n, xs, cmd).1.Ok?
  {
    DescendToLeaf(t, n, xs, 0, n);
  }

  /** The root of the first chunk: the first existing root with it, or a new command-less root. */
  function RootFor(t: Trie, x: InputChunk): (r: (Trie, NodeRef))
    requires Valid(t)
    ensures Valid(r.0) && Grows(t, r.0) && r.1 < |r.0.nodes|
    ensures AdvanceNodeRef(t, None, x).Some? ==> r.0 == t
    ensures AdvanceNodeRef(t, None, x).None? ==> r.0.nodes[r.1].children == [] && r.0.nodes[r.1].command.None?
    ensures AdvanceNodeRef(t, None, x).None? ==> |r.0.nodes| == |t.nodes| + 1
    ensures AdvanceNodeRef(t, None, x).None? ==>
      r.1 == |t.nodes| && r.0.roots == t.roots + [|t.nodes|] && r.0.nodes[r.1].input == x
    ensures WellFormed(t) ==> WellFormed(r.0)
  {
    match AdvanceNodeRef(t, None, x)
    case Some(c) => (t, c)
    case None => (AddRoot(t, NewNode(x, None)), |t.nodes|)
  }

  /** The root used is the one a lookup of the first chunk finds afterwards. */
  lemma RootForFinds(t: Trie, x: InputChunk)
    requires Valid(t)
    ensures AdvanceNodeRef(RootFor(t, x).0, None, x) == Some(RootFor(t, x).1)
  {
    if AdvanceNodeRef(t, None, x).None? {
      var u := RootFor(t, x).0;
      var rs := t.roots;
      MatchAtFirst(t, rs, x);
      forall j | 0 <= j < |rs|
        ensures u.nodes[u.roots[j]].input != x
      {
        assert u.roots[j] == rs[j] && rs[j] < |t.nodes|;
      }
      MatchAtIs(u, u.roots, x, |rs|);
    }
  }

  /**
   * The inputs on which `add_cmd_str` panics because its last loop slices
   * `input_chunks[consumed..len - 1]` with `consumed == len`: a one-chunk
   * command, or a command whose every chunk already matches a path.
   */
  predicate SlicePanics(t: Trie, xs: seq<InputChunk>)
    requires Valid(t)
  {
    |xs| == 1 || (|xs| >= 2 && Follow(t, xs).Some?)
  }

  /** Without the panic, the rest of the input cannot be walked from the root the insertion starts at. */
  lemma RootForRest(t: Trie, xs: seq<InputChunk>)
    requires Valid(t) && |xs| >= 1 && !SlicePanics(t, xs)
    ensures |xs| >= 2 && Walk(RootFor(t, xs[0]).0, RootFor(t, xs[0]).1, xs[1..]).None?
  {
    var r := RootFor(t, xs[0]);
    if AdvanceNodeRef(t, None, xs[0]).None? {
      assert Candidates(r.0, Some(r.1)) == [];
    }
  }

  /** Some proper prefix of `xs` (one chunk or more) leads to a node that ends a command. */
  predicate PrefixEndsCommand(t: Trie, xs: seq<InputChunk>)
    requires Valid(t)
  {
    exists m :: 1 <= m < |xs| && Follow(t, xs[..m]).Some? && t.nodes[Follow(t, xs[..m]).value].command.Some?
  }

  /**
   * `add_cmd_str`: an empty string is refused with `CommandEmpty`; otherwise
   * the first root with the first chunk is used (or a new root pushed), the
   * existing path is followed as far as it goes, and if it stops at a node
   * that already ends a command the insertion is refused with
   * `CommandAlreadyPrefixed`; else the rest is hung below that node, ending in
   * a leaf holding `cmd`. Non-letters make the source panic, as does
   * `SlicePanics`.
   */
  function AddCmdStr(t: Trie, s: string, cmd: Command): (r: (Trie, Result<(), AddCommandError>))
    requires Valid(t)
    requires forall i :: 0 <= i < |s| ==> IsAsciiLetter(s[i])
    requires !SlicePanics(t, Chunks(s))
    ensures Valid(r.0)
    ensures r.1 == Err(CommandEmpty) <==> |s| == 0
    ensures r.1.Err? ==> r.0 == t
  {
    var xs := Chunks(s);
    if |xs| == 0 then (t, Err(CommandEmpty))
    else
      var (t1, root) := RootFor(t, xs[0]);
      RootForRest(t, xs);
      if AdvanceNodeRef(t, None, xs[0]).None? then
        HangBelowFreshNode(t1, root, xs[1..], cmd);
        Hang(t1, root, xs[1..], cmd)
      else Hang(t1, root, xs[1..], cmd)
  }

  /** The chunks `xs` lead from the roots to the node pushed last. */
  predicate FollowsToLast(t: Trie, xs: seq<InputChunk>)
    requires Valid(t) && |xs| >= 1
  {
    Follow(t, xs) == Some(|t.nodes| - 1)
  }

  /** A prefix of `xs` followed from the roots is the rest of that prefix walked from the first chunk's root. */
  lemma FollowPrefix(t: Trie, xs: seq<InputChunk>, c: NodeRef, m: nat)
    requires Valid(t) && 1 <= m <= |xs| && AdvanceNodeRef(t, None, xs[0]) == Some(c)
    ensures Follow(t, xs[..m]) == Walk(t, c, xs[1..][..m - 1])
  {
    assert xs[..m][0] == xs[0];
    assert xs[..m][1..] == xs[1..][..m - 1];
  }

  /** When the first chunk has a root, a command ending on a proper prefix is one ending within the rest. */
  lemma PrefixEndsWithin(t: Trie, xs: seq<InputChunk>, c: NodeRef)
    requires Valid(t) && |xs| >= 1 && AdvanceNodeRef(t, None, xs[0]) == Some(c)
    ensures PrefixEndsCommand(t, xs) <==> EndsCommandWithin(t, c, xs[1..])
  {
    if PrefixEndsCommand(t, xs) {
      var m :| 1 <= m < |xs| && Follow(t, xs[..m]).Some? && t.nodes[Follow(t, xs[..m]).value].command.Some?;
      FollowPrefix(t, xs, c, m);
      assert 0 <= m - 1 < |xs[1..]|;
    }
    if EndsCommandWithin(t, c, xs[1..]) {
      var k :| 0 <= k < |xs[1..]| && Walk(t, c, xs[1..][..k]).Some? && t.nodes[Walk(t, c, xs[1..][..k]).value].command.Some?;
      FollowPrefix(t, xs, c, k + 1);
    }
  }

  /** When no root has the first chunk, no prefix leads anywhere. */
  lemma NoRootNoPrefix(t: Trie, xs: seq<InputChunk>)
    requires Valid(t) && |xs| >= 1 && AdvanceNodeRef(t, None, xs[0]).None?
    ensures !PrefixEndsCommand(t, xs)
  {
    forall m | 1 <= m < |xs|
      ensures Follow(t, xs[..m]).None?
    {
      assert xs[..m][0] == xs[0];
    }
  }

  /**
   * `add_cmd_str` refuses with `CommandAlreadyPrefixed` only when a proper
   * prefix of the command already ends a command, and, when commands are
   * leaves, always does so then.
   */
  lemma AddCmdStrRefuses(t: Trie, s: string, cmd: Command)
    requires Valid(t)
    requires forall i :: 0 <= i < |s| ==> IsAsciiLetter(s[i])
    requires !SlicePanics(t, Chunks(s))
    ensures AddCmdStr(t, s, cmd).1 == Err(CommandAlreadyPrefixed) ==> PrefixEndsCommand(t, Chunks(s))
    ensures WellFormed(t) && PrefixEndsCommand(t, Chunks(s)) ==> AddCmdStr(t, s, cmd).1 == Err(CommandAlreadyPrefixed)
  {
    var xs := Chunks(s);
    if |xs| > 0 {
      RootForRest(t, xs);
      match AdvanceNodeRef(t, None, xs[0])
      case None =>
        NoRootNoPrefix(t, xs);
        var (t1, root) := RootFor(t, xs[0]);
        HangBelowFreshNode(t1, root, xs[1..], cmd);
      case Some(c) =>
        PrefixEndsWithin(t, xs, c);
        HangRefuses(t, c, xs[1..], cmd);
    }
  }

  /**
   * After a successful `add_cmd_str`, between one and `|s|` nodes were added,
   * the command's chunks lead from the roots to the last one, and it is a leaf
   * ending `cmd`.
   */
  lemma AddCmdStrAdds(t: Trie, s: string, cmd: Command)
    requires Valid(t)
    requires forall i :: 0 <= i < |s| ==> IsAsciiLetter(s[i])
    requires !SlicePanics(t, Chunks(s))
    ensures var r := AddCmdStr(t, s, cmd);
      r.1.Ok? ==> && |t.nodes| < |r.0.nodes| <= |t.nodes| + |s|
                  && LastIsLeaf(r.0, Last(Chunks(s)), cmd)
                  && FollowsToLast(r.0, Chunks(s))
  {
    var xs := Chunks(s);
    var r := AddCmdStr(t, s, cmd);
    if |xs| > 0 && r.1.Ok? {
      RootForRest(t, xs);
      var (t1, root) := RootFor(t, xs[0]);
      RootForFinds(t, xs[0]);
      HangGrows(t1, root, xs[1..], cmd);
      GrowsAdvance(t1, r.0, None, xs[0]);
      LastDrop(xs, 1);
    }
  }

  /** `add_cmd_str` only appends: every old lookup keeps its answer. */
  lemma AddCmdStrGrows(t: Trie, s: string, cmd: Command)
    requires Valid(t)
    requires forall i :: 0 <= i < |s| ==> IsAsciiLetter(s[i])
    requires !SlicePanics(t, Chunks(s))
    ensures Grows(t, AddCmdStr(t, s, cmd).0)
  {
    var xs := Chunks(s);
    if |xs| > 0 {
      RootForRest(t, xs);
      var (t1, root) := RootFor(t, xs[0]);
      HangGrows(t1, root, xs[1..], cmd);
      GrowsTrans(t, t1, AddCmdStr(t, s, cmd).0);
    } else {
      GrowsRefl(t);
    }
  }

  /** `add_cmd_str` keeps every command at a leaf. */
  lemma AddCmdStrWellFormed(t: Trie, s: string, cmd: Command)
    requires WellFormed(t)
    requires forall i :: 0 <= i < |s| ==> IsAsciiLetter(s[i])
    requires !SlicePanics(t, Chunks(s))
    ensures WellFormed(AddCmdStr(t, s, cmd).0)
  {
    var xs := Chunks(s);
    if |xs| > 0 {
      RootForRest(t, xs);
      var (t1, root) := RootFor(t, xs[0]);
      HangWellFormed(t1, root, xs[1..], cmd);
    }
  }

  // ---------------------------------------------------------------------------
  // Sibling chunks are distinct
  // ---------------------------------------------------------------------------

  /** No two nodes of `refs` carry the same chunk. */
  predicate Distinct(t: Trie, refs: seq<NodeRef>)
    requires InRange(t, refs)
  {
    forall i, j :: 0 <= i < j < |refs| ==> t.nodes[refs[i]].input != t.nodes[refs[j]].input
  }

  /** The roots, and the children of every node, carry pairwise distinct chunks. */
  predicate Unique(t: Trie)
  {
    Valid(t) && Distinct(t, t.roots) && forall n :: 0 <= n < |t.nodes| ==> Distinct(t, t.nodes[n].children)
  }

  lemma DistinctGrows(t: Trie, u: Trie, refs: seq<NodeRef>)
    requires InRange(t, refs) && Grows(t, u) && Distinct(t, refs)
    ensures InRange(u, refs) && Distinct(u, refs)
  {
    assert forall i :: 0 <= i < |refs| ==> u.nodes[refs[i]].input == t.nodes[refs[i]].input;
  }

  /** Appending a node whose chunk no member of `refs` carries keeps them distinct. */
  lemma DistinctSnoc(t: Trie, u: Trie, refs: seq<NodeRef>, k: NodeRef)
    requires InRange(t, refs) && Grows(t, u) && Distinct(t, refs) && k < |u.nodes|
    requires forall j :: 0 <= j < |refs| ==> t.nodes[refs[j]].input != u.nodes[k].input
    ensures InRange(u, refs + [k]) && Distinct(u, refs + [k])
  {
    DistinctGrows(t, u, refs);
    var rs := refs + [k];
    forall i, j | 0 <= i < j < |rs|
      ensures u.nodes[rs[i]].input != u.nodes[rs[j]].input
    {
      if j == |refs| {
        assert rs[i] == refs[i] && u.nodes[refs[i]].input == t.nodes[refs[i]].input;
      } else {
        assert rs[i] == refs[i] && rs[j] == refs[j];
      }
    }
  }

  /** A child with a chunk its parent's children lack keeps chunks unique. */
  lemma AddChildUnique(t: Trie, parent: NodeRef, node: TrieNode)
    requires Unique(t) && parent < |t.nodes| && node.children == []
    requires AdvanceNodeRef(t, Some(parent), node.input).None?
    ensures Unique(AddChild(t, parent, node))
  {
    var u := AddChild(t, parent, node);
    AddChildSpec(t, parent, node);
    AdvanceNodeRefSpec(t, Some(parent), node.input);
    DistinctGrows(t, u, t.roots);
    forall n | 0 <= n < |u.nodes|
      ensures Distinct(u, u.nodes[n].children)
    {
      if n == parent {
        DistinctSnoc(t, u, t.nodes[parent].children, |t.nodes|);
      } else if n < |t.nodes| {
        DistinctGrows(t, u, t.nodes[n].children);
      }
    }
  }

  /** A root with a chunk no root has keeps chunks unique. */
  lemma AddRootUnique(t: Trie, node: TrieNode)
    requires Unique(t) && node.children == []
    requires AdvanceNodeRef(t, None, node.input).None?
    ensures Unique(AddRoot(t, node))
  {
    var u := AddRoot(t, node);
    AdvanceNodeRefSpec(t, None, node.input);
    DistinctSnoc(t, u, t.roots, |t.nodes|);
    forall n | 0 <= n < |t.nodes|
      ensures Distinct(u, u.nodes[n].children)
    {
      DistinctGrows(t, u, t.nodes[n].children);
    }
  }

  lemma {:induction false} ExtendUnique(t: Trie, n: NodeRef, xs: seq<InputChunk>, cmd: Command)
    requires Unique(t) && n < |t.nodes| && |xs| >= 1
    requires AdvanceNodeRef(t, Some(n), xs[0]).None?
    ensures Unique(Extend(t, n, xs, cmd))
    decreases |xs|
  {
    if |xs| == 1 {
      AddChildUnique(t, n, NewNode(xs[0], Some(cmd)));
    } else {
      var t1 := AddChild(t, n, NewNode(xs[0], None));
      AddChildUnique(t, n, NewNode(xs[0], None));
      AddChildSpec(t, n, NewNode(xs[0], None));
      assert Candidates(t1, Some(|t.nodes|)) == [];
      ExtendUnique(t1, |t.nodes|, xs[1..], cmd);
    }
  }

  lemma HangUnique(t: Trie, n: NodeRef, xs: seq<InputChunk>, cmd: Command)
    requires Valid(t) && n < |t.nodes| && Walk(t, n, xs).None?
    ensures Unique(t) ==> Unique(Hang(t, n, xs, cmd).0)
  {
    DescendShort(t, n, xs);
    DescendSpec(t, n, xs);
    var d := Descend(t, n, xs);
    if Unique(t) && t.nodes[d.0].command.None? {
      assert xs[d.1..][0] == xs[d.1];
      ExtendUnique(t, d.0, xs[d.1..], cmd);
    }
  }

  /** `add_cmd_str` keeps the chunks of the roots, and of every node's children, pairwise distinct. */
  lemma AddCmdStrUnique(t: Trie, s: string, cmd: Command)
    requires Unique(t)
    requires forall i :: 0 <= i < |s| ==> IsAsciiLetter(s[i])
    requires !SlicePanics(t, Chunks(s))
    ensures Unique(AddCmdStr(t, s, cmd).0)
  {
    var xs := Chunks(s);
    if |xs| > 0 {
      RootForRest(t, xs);
      if AdvanceNodeRef(t, None, xs[0]).None? {
        AddRootUnique(t, NewNode(xs[0], None));
      }
      var (t1, root) := RootFor(t, xs[0]);
      HangUnique(t1, root, xs[1..], cmd);
    }
  }
}

=== FILE: keys.dfy ===
/**
 * Keyboard input as the command layer sees it (`command/mod.rs`, `input.rs`,
 * `common/mod.rs`, and `char_to_keycode` in `command/input_trie.rs`): a virtual
 * key code and a 4-bit modifier mask, shift being bit 3, ctrl bit 2, alt bit 1
 * and logo bit 0.
 */
module Keys {
  import opened Wrappers
  import opened Text

  type LetterIndex = i: int | 0 <= i < 26

  /**
   * The virtual key codes the core tells apart: the 26 letter keys (A is 0),
   * Tab, Back, and every other key, kept apart by an opaque code.
   */
  datatype Key = Letter(index: LetterIndex) | Tab | Back | Other(code: nat)

  /** The key the cancel chord uses. */
  const G: Key := Letter(6)

  /** The `u8` modifier mask; only the four low bits are ever set. */
  type Modifiers = bv8

  const SHIFT: Modifiers := 0x8
  const CTRL: Modifiers := 0x4
  const ALT: Modifiers := 0x2
  const LOGO: Modifiers := 0x1

  /** One key press with the modifiers held at the time. */
  datatype InputChunk = InputChunk(key: Key, mods: Modifiers)

  function LetterChar(i: LetterIndex, upper: bool): (c: char)
    ensures IsAsciiLetter(c) && (IsUpper(c) <==> upper)
    ensures ToLower(c) as int == 'a' as int + i
  {
    if upper then ('A' as int + i) as char else ('a' as int + i) as char
  }

  /**
   * `InputChunk::to_str`: a letter key gives that letter, upper case when
   * shift is held, and any other key gives the empty string.
   */
  function ToStr(ch: InputChunk): (r: string)
    ensures |r| <= 1
    ensures |r| == 1 <==> ch.key.Letter?
    ensures |r| == 1 ==> IsAsciiLetter(r[0]) && (IsUpper(r[0]) <==> ch.mods & SHIFT != 0)
    ensures |r| == 1 ==> ToLower(r[0]) as int - 'a' as int == ch.key.index
  {
    if ch.key.Letter? then [LetterChar(ch.key.index, ch.mods & SHIFT != 0)] else []
  }

  /** `char_to_keycode`: the letter key of an ASCII letter of either case, nothing otherwise. */
  function CharToKeycode(c: char): (r: Option<Key>)
    ensures r.Some? <==> IsAsciiLetter(c)
    ensures r.Some? ==> r.value.Letter? && r.value.index == ToLower(c) as int - 'a' as int
  {
    if IsLower(c) then Some(Letter(c as int - 'a' as int))
    else if IsUpper(c) then Some(Letter(c as int - 'A' as int))
    else None
  }

  /** The chunk `add_cmd_str` builds for one character: its key, with shift for an upper-case letter. */
  function ChunkOfChar(c: char): InputChunk
    requires IsAsciiLetter(c)
  {
    InputChunk(CharToKeycode(c).value, if IsUpper(c) then SHIFT else 0)
  }

  /** Rendering the chunk built for a letter gives the letter back. */
  lemma ToStrChunkOfChar(c: char)
    requires IsAsciiLetter(c)
    ensures ToStr(ChunkOfChar(c)) == [c]
  {
    var ch := ChunkOfChar(c);
    var d := ToStr(ch)[0];
    assert IsUpper(d) <==> IsUpper(c);
    assert ToLower(d) == ToLower(c);
  }

  /** Distinct letters give distinct chunks, so a command string is determined by its chunks. */
  lemma ChunkOfCharInjective(a: char, b: char)
    requires IsAsciiLetter(a) && IsAsciiLetter(b) && ChunkOfChar(a) == ChunkOfChar(b)
    ensures a == b
  {
    ToStrChunkOfChar(a);
    ToStrChunkOfChar(b);
  }

  /** The modifier keys held, as the windowing library reports them. */
  datatype ModifiersState = ModifiersState(shift: bool, ctrl: bool, alt: bool, logo: bool)

  /** `mods_to_bitflags`: one bit per modifier, in the order shift, ctrl, alt, logo. */
  function ModsToBitflags(ms: ModifiersState): (r: Modifiers)
    ensures r < 16
    ensures (r & SHIFT != 0) == ms.shift && (r & CTRL != 0) == ms.ctrl
    ensures (r & ALT != 0) == ms.alt && (r & LOGO != 0) == ms.logo
  {
    (if ms.shift then SHIFT else 0) + (if ms.ctrl then CTRL else 0)
      + (if ms.alt then ALT else 0) + (if ms.logo then LOGO else 0)
  }

  /** Reading the four flags back out of a mask. */
  function FlagsToMods(m: Modifiers): ModifiersState
  {
    ModifiersState(m & SHIFT != 0, m & CTRL != 0, m & ALT != 0, m & LOGO != 0)
  }

  /** The mask loses nothing: the flags can be read back from it, and every 4-bit mask is some state's. */
  lemma {:induction false} BitflagsRoundTrip(ms: ModifiersState, m: Modifiers)
    ensures FlagsToMods(ModsToBitflags(ms)) == ms
    ensures m < 16 ==> ModsToBitflags(FlagsToMods(m)) == m
  {
    if m < 16 {
      assert m == (m & SHIFT) + (m & CTRL) + (m & ALT) + (m & LOGO);
    }
  }

  /** The chunk a key press becomes: its key and the mask of the modifiers held. */
  function FromModifiersState(key: Key, ms: ModifiersState): (ch: InputChunk)
    ensures ch.key == key && FlagsToMods(ch.mods) == ms
  {
    BitflagsRoundTrip(ms, 0);
    InputChunk(key, ModsToBitflags(ms))
  }
}

=== FILE: package.dfy ===
/**
 * The package tree of the Java model (`java_model/package.rs`): a package owns its
 * own name segment, its declarations and its subpackages. Raw `*mut Package`
 * handles become name paths: a path lists the segment names from a root package
 * down to the package it designates, and is resolved by taking the first child
 * with the next name, as every walk in the source does.
 */
module Packages {
  import opened Wrappers
  import opened Text

  /** A declaration, reduced to the name `Declaration::name` returns. */
  datatype Declaration = Class(className: string)
  {
    function Name(): string { className }
  }

  datatype Package = Package(name: string, declList: seq<Declaration>, packageList: seq<Package>)

  /** A package with no declarations and no subpackages. */
  function Leaf(name: string): Package { Package(name, [], []) }

  /** Number of package nodes in a tree. */
  function Size(p: Package): nat
  {
    1 + SizeList(p.packageList)
  }

  function SizeList(ps: seq<Package>): nat
    decreases ps
  {
    if ps == [] then 0 else SizeList(ps[..|ps| - 1]) + Size(Last(ps))
  }

  // ---------------------------------------------------------------------------
  // Walking the tree by name
  // ---------------------------------------------------------------------------

  /** Index of the first package in `ps` named `n`, the one every loop of the source stops at. */
  function FirstChild(ps: seq<Package>, n: string): (r: Option<nat>)
    ensures r.Some? ==> r.value < |ps| && ps[r.value].name == n
    ensures r.Some? ==> forall j :: 0 <= j < r.value ==> ps[j].name != n
    ensures r.None? ==> forall j :: 0 <= j < |ps| ==> ps[j].name != n
    decreases |ps|
  {
    if |ps| == 0 then None
    else if ps[0].name == n then Some(0)
    else match FirstChild(ps[1..], n)
      case None => None
      case Some(i) => Some(i + 1)
  }

  lemma FirstChildIs(ps: seq<Package>, n: string, i: nat)
    requires i < |ps| && ps[i].name == n
    requires forall j :: 0 <= j < i ==> ps[j].name != n
    ensures FirstChild(ps, n) == Some(i)
  {
  }

  lemma FirstChildNone(ps: seq<Package>, n: string)
    requires forall j :: 0 <= j < |ps| ==> ps[j].name != n
    ensures FirstChild(ps, n) == None
  {
  }

  /** The package reached from `p` by following `rest` through first-matching children. */
  function Descend(p: Package, rest: seq<string>): (r: Option<Package>)
    ensures r.Some? && |rest| == 0 ==> r.value == p
    ensures r.Some? && |rest| > 0 ==> r.value.name == Last(rest)
    decreases |rest|
  {
    if |rest| == 0 then Some(p)
    else match FirstChild(p.packageList, rest[0])
      case None => None
      case Some(i) => Descend(p.packageList[i], rest[1..])
  }

  /** The package a full path designates, when `path` starts at `p`. */
  function Resolve(p: Package, path: seq<string>): Option<Package>
  {
    if |path| == 0 || path[0] != p.name then None else Descend(p, path[1..])
  }

  /**
   * Declarative existence of a path below `p`: SOME child carries the next
   * name and continues the path (no first-match choice).
   */
  ghost predicate HasPath(p: Package, rest: seq<string>)
    decreases |rest|
  {
    |rest| == 0 ||
    exists i :: 0 <= i < |p.packageList| && p.packageList[i].name == rest[0] && HasPath(p.packageList[i], rest[1..])
  }

  ghost predicate DistinctNames(ps: seq<Package>)
  {
    forall i, j :: 0 <= i < j < |ps| ==> ps[i].name != ps[j].name
  }

  /** No two subpackages of the same parent share a name, anywhere in the tree. */
  ghost predicate UniqueNames(p: Package)
    decreases p
  {
    DistinctNames(p.packageList) && forall i :: 0 <= i < |p.packageList| ==> UniqueNames(p.packageList[i])
  }

  /**
   * `b` is `a` with packages possibly appended: names and declarations are kept,
   * every existing subpackage stays at its index and is itself only extended.
   */
  ghost predicate Extends(a: Package, b: Package)
    decreases a
  {
    && a.name == b.name
    && a.declList == b.declList
    && |a.packageList| <= |b.packageList|
    && forall i :: 0 <= i < |a.packageList| ==> Extends(a.packageList[i], b.packageList[i])
  }

  lemma {:induction false} ExtendsRefl(p: Package)
    ensures Extends(p, p)
    decreases p
  {
    forall i | 0 <= i < |p.packageList| {
      ExtendsRefl(p.packageList[i]);
    }
  }

  /**
   * `b` extends `a` by at most one appended subpackage at every level: every
   * package of `a` gains at most one subpackage in `b`.
   */
  ghost predicate AppendsAtMostOne(a: Package, b: Package)
    decreases a
  {
    && |a.packageList| <= |b.packageList| <= |a.packageList| + 1
    && forall i :: 0 <= i < |a.packageList| ==> AppendsAtMostOne(a.packageList[i], b.packageList[i])
  }

  lemma {:induction false} AppendsAtMostOneRefl(p: Package)
    ensures AppendsAtMostOne(p, p)
    decreases p
  {
    forall i | 0 <= i < |p.packageList| {
      AppendsAtMostOneRefl(p.packageList[i]);
    }
  }

  /** The first-match walk finds a path exactly when some path exists, once sibling names are unique. */
  lemma {:induction false} DescendAgreesWithHasPath(p: Package, rest: seq<string>)
    ensures Descend(p, rest).Some? ==> HasPath(p, rest)
    ensures UniqueNames(p) && HasPath(p, rest) ==> Descend(p, rest).Some?
    decreases |rest|
  {
    if |rest| > 0 {
      match FirstChild(p.packageList, rest[0])
      case None => {}
      case Some(i) => {
        DescendAgreesWithHasPath(p.packageList[i], rest[1..]);
        if UniqueNames(p) && HasPath(p, rest) {
          var k :| 0 <= k < |p.packageList| && p.packageList[k].name == rest[0] && HasPath(p.packageList[k], rest[1..]);
          assert k == i;
        }
      }
    }
  }

  // ---------------------------------------------------------------------------
  // Package::new
  // ---------------------------------------------------------------------------

  /** A chain of packages, one per segment, each the only subpackage of the previous one. */
  function Chain(segs: seq<string>): (p: Package)
    requires |segs| >= 1
    ensures p.name == segs[0] && p.declList == []
    ensures Descend(p, segs[1..]) == Some(Leaf(Last(segs)))
    ensures Size(p) == |segs|
    decreases |segs|
  {
    if |segs| == 1 then Leaf(segs[0])
    else
      var c := Chain(segs[1..]);
      assert SizeList([c]) == Size(c);
      assert segs[1..][1..] == segs[2..];
      Package(segs[0], [], [c])
  }

  /**
   * `Package::new`: the root of a chain built from the dotted name, and the path
   * of the deepest package created, absent when only the root was created.
   */
  function New(name: string): (r: (Package, Option<seq<string>>))
    requires |name| > 0
    ensures r.0.name == Split(name)[0] && r.0.declList == []
    ensures r.1.None? <==> |Split(name)| == 1
    ensures r.1.Some? ==> r.1.value == Split(name)
    ensures Resolve(r.0, Split(name)) == Some(Leaf(Last(Split(name))))
    ensures Size(r.0) == |Split(name)|
  {
    var segs := Split(name);
    (Chain(segs), if |segs| == 1 then None else Some(segs))
  }

  // ---------------------------------------------------------------------------
  // Package::add_subpackage
  // ---------------------------------------------------------------------------

  /**
   * Walks `rest` below `p`, descending into the first child with each name and
   * appending a new empty package at the end of the list when there is none.
   */
  function Insert(p: Package, rest: seq<string>): (r: Package)
    ensures r.name == p.name && r.declList == p.declList
    ensures |p.packageList| <= |r.packageList| <= |p.packageList| + 1
    ensures Extends(p, r)
    ensures AppendsAtMostOne(p, r)
    ensures Descend(r, rest).Some?
    decreases |rest|
  {
    if |rest| == 0 then
      ExtendsRefl(p);
      AppendsAtMostOneRefl(p);
      p
    else match FirstChild(p.packageList, rest[0])
      case Some(i) =>
        var c := Insert(p.packageList[i], rest[1..]);
        var r := p.(packageList := p.packageList[i := c]);
        FirstChildIs(r.packageList, rest[0], i);
        forall j | 0 <= j < |p.packageList| && j != i {
          ExtendsRefl(p.packageList[j]);
        }
        forall j | 0 <= j < |p.packageList|
          ensures AppendsAtMostOne(p.packageList[j], r.packageList[j])
        {
          if j != i {
            AppendsAtMostOneRefl(p.packageList[j]);
            assert r.packageList[j] == p.packageList[j];
          }
        }
        r
      case None =>
        var c := Insert(Leaf(rest[0]), rest[1..]);
        var r := p.(packageList := p.packageList + [c]);
        FirstChildIs(r.packageList, rest[0], |p.packageList|);
        forall j | 0 <= j < |p.packageList| {
          ExtendsRefl(p.packageList[j]);
        }
        forall j | 0 <= j < |p.packageList|
          ensures AppendsAtMostOne(p.packageList[j], r.packageList[j])
        {
          AppendsAtMostOneRefl(p.packageList[j]);
          assert r.packageList[j] == p.packageList[j];
        }
        r
  }

  /** Inserting a path that already exists changes nothing. */
  lemma {:induction false} InsertExisting(p: Package, rest: seq<string>)
    ensures Descend(p, rest).Some? ==> Insert(p, rest) == p
    decreases |rest|
  {
    if |rest| > 0 && Descend(p, rest).Some? {
      var i := FirstChild(p.packageList, rest[0]).value;
      InsertExisting(p.packageList[i], rest[1..]);
      assert p.packageList[i := p.packageList[i]] == p.packageList;
    }
  }

  /** Insertion never creates two siblings with the same name. */
  lemma {:induction false} InsertKeepsUniqueNames(p: Package, rest: seq<string>)
    ensures UniqueNames(p) ==> UniqueNames(Insert(p, rest))
    decreases |rest|
  {
    if |rest| > 0 && UniqueNames(p) {
      match FirstChild(p.packageList, rest[0])
      case Some(i) => {
        InsertKeepsUniqueNames(p.packageList[i], rest[1..]);
      }
      case None => {
        InsertKeepsUniqueNames(Leaf(rest[0]), rest[1..]);
      }
    }
  }

  /** `Package::new` builds the same tree as inserting the remaining segments below a fresh root. */
  lemma {:induction false} ChainIsInsertIntoLeaf(segs: seq<string>)
    requires |segs| >= 1
    ensures Chain(segs) == Insert(Leaf(segs[0]), segs[1..])
    decreases |segs|
  {
    if |segs| > 1 {
      ChainIsInsertIntoLeaf(segs[1..]);
      assert segs[1..][1..] == segs[2..];
    }
  }

  /**
   * `add_subpackage`: the first segment must be this package's own name (the
   * source asserts it); the rest of the path is created where missing. Returns
   * the extended package and the path of the package the call hands back.
   */
  function AddSubpackage(p: Package, name: string): (r: (Package, seq<string>))
    requires Split(name)[0] == p.name
    ensures r.1 == Split(name)
    ensures Resolve(r.0, r.1).Some? && Resolve(r.0, r.1).value.name == Last(r.1)
    ensures Extends(p, r.0)
    ensures |r.0.packageList| <= |p.packageList| + 1
    ensures AppendsAtMostOne(p, r.0)
    ensures UniqueNames(p) ==> UniqueNames(r.0)
    ensures Resolve(p, Split(name)).Some? ==> r.0 == p
  {
    var segs := Split(name);
    var q := Insert(p, segs[1..]);
    InsertKeepsUniqueNames(p, segs[1..]);
    InsertExisting(p, segs[1..]);
    (q, segs)
  }

  /** Adding the same path twice is the same as adding it once. */
  lemma AddSubpackageIdempotent(p: Package, name: string)
    requires Split(name)[0] == p.name
    ensures AddSubpackage(AddSubpackage(p, name).0, name) == AddSubpackage(p, name)
  {
  }

  lemma SplitComTomExample()
    ensures Split("com.tom.example") == ["com", "tom", "example"]
  {
    assert ["tom", "example"][1..] == ["example"];
    assert ["com", "tom", "example"][1..] == ["tom", "example"];
    assert "tom" + "." + "example" == "tom.example";
    assert "com" + "." + "tom.example" == "com.tom.example";
    SplitJoin(["com", "tom", "example"]);
  }

  lemma SplitComTomFoo()
    ensures Split("com.tom.foo") == ["com", "tom", "foo"]
  {
    assert ["tom", "foo"][1..] == ["foo"];
    assert ["com", "tom", "foo"][1..] == ["tom", "foo"];
    assert "tom" + "." + "foo" == "tom.foo";
    assert "com" + "." + "tom.foo" == "com.tom.foo";
    SplitJoin(["com", "tom", "foo"]);
  }

  lemma ComTomChain()
    ensures New("com.tom.example").0 == Package("com", [], [Package("tom", [], [Leaf("example")])])
  {
    var segs := ["com", "tom", "example"];
    SplitComTomExample();
    assert segs[1..] == ["tom", "example"];
    assert segs[1..][1..] == ["example"];
  }

  lemma InsertFooUnderTom()
    ensures Insert(Package("tom", [], [Leaf("example")]), ["foo"])
         == Package("tom", [], [Leaf("example"), Leaf("foo")])
  {
    var tom := Package("tom", [], [Leaf("example")]);
    FirstChildNone(tom.packageList, "foo");
    assert ["foo"][1..] == [];
    assert Insert(Leaf("foo"), []) == Leaf("foo");
  }

  /** Two paths sharing "com.tom" share those nodes: one `com`, one `com.tom`, two leaves. */
  lemma SharedPrefixExample()
    ensures AddSubpackage(New("com.tom.example").0, "com.tom.foo").0
         == Package("com", [], [Package("tom", [], [Leaf("example"), Leaf("foo")])])
  {
    ComTomChain();
    SplitComTomFoo();
    var root := Package("com", [], [Package("tom", [], [Leaf("example")])]);
    FirstChildIs(root.packageList, "tom", 0);
    assert ["com", "tom", "foo"][1..] == ["tom", "foo"];
    assert ["tom", "foo"][1..] == ["foo"];
    InsertFooUnderTom();
  }

  // ---------------------------------------------------------------------------
  // Completion lists
  // ---------------------------------------------------------------------------

  /**
   * Fully qualified package names in the order the stack traversal of
   * `gen_package_completion_list` emits them: a package, then its children
   * from the LAST to the first (the stack pops the last pushed child first).
   */
  function PkgNames(prefix: string, p: Package): (r: seq<string>)
    ensures |r| >= 1 && r[0] == prefix + p.name
    decreases p, 1
  {
    [prefix + p.name] + RevChildNames(prefix + p.name + ".", p.packageList)
  }

  function RevChildNames(prefix: string, ps: seq<Package>): seq<string>
    decreases ps, 0
  {
    if ps == [] then [] else PkgNames(prefix, Last(ps)) + RevChildNames(prefix, ps[..|ps| - 1])
  }

  /** One name per package node. */
  lemma {:induction false} PkgNamesCount(prefix: string, p: Package)
    ensures |PkgNames(prefix, p)| == Size(p)
    decreases p, 1
  {
    RevChildNamesCount(prefix + p.name + ".", p.packageList);
  }

  lemma {:induction false} RevChildNamesCount(prefix: string, ps: seq<Package>)
    ensures |RevChildNames(prefix, ps)| == SizeList(ps)
    decreases ps, 0
  {
    if ps != [] {
      PkgNamesCount(prefix, Last(ps));
      RevChildNamesCount(prefix, ps[..|ps| - 1]);
    }
  }

  type Frame = (string, Package)

  /** Names the frames of a stack will emit, top (last) frame first. */
  function StackNames(stack: seq<Frame>): seq<string>
    decreases |stack|
  {
    if stack == [] then [] else PkgNames(Last(stack).0, Last(stack).1) + StackNames(stack[..|stack| - 1])
  }

  function StackSize(stack: seq<Frame>): nat
    decreases |stack|
  {
    if stack == [] then 0 else StackSize(stack[..|stack| - 1]) + Size(Last(stack).1)
  }

  /** The frames pushed for the children of a package, in list order. */
  function Pushed(prefix: string, ps: seq<Package>): (r: seq<Frame>)
    ensures |r| == |ps|
    ensures forall i :: 0 <= i < |ps| ==> r[i] == (prefix, ps[i])
  {
    seq(|ps|, i requires 0 <= i < |ps| => (prefix, ps[i]))
  }

  lemma {:induction false} PushedFacts(prefix: string, ps: seq<Package>)
    ensures StackSize(Pushed(prefix, ps)) == SizeList(ps)
    ensures StackNames(Pushed(prefix, ps)) == RevChildNames(prefix, ps)
    decreases |ps|
  {
    if ps != [] {
      assert Pushed(prefix, ps)[..|ps| - 1] == Pushed(prefix, ps[..|ps| - 1]);
      PushedFacts(prefix, ps[..|ps| - 1]);
    }
  }

  lemma {:induction false} StackAppend(a: seq<Frame>, b: seq<Frame>)
    ensures StackSize(a + b) == StackSize(a) + StackSize(b)
    ensures StackNames(a + b) == StackNames(b) + StackNames(a)
    decreases |b|
  {
    if b == [] {
      assert a + b == a;
    } else {
      assert (a + b)[..|a + b| - 1] == a + b[..|b| - 1];
      StackAppend(a, b[..|b| - 1]);
    }
  }

  /**
   * The loop of `gen_package_completion_list`: pop the top frame, emit its
   * name, push its children with the extended prefix.
   */
  function Traverse(stack: seq<Frame>, names: seq<string>): (r: seq<string>)
    ensures r == names + StackNames(stack)
    decreases StackSize(stack)
  {
    if stack == [] then names
    else
      var (prefix, p) := Last(stack);
      var q := prefix + p.name;
      TraverseStep(stack);
      Traverse(stack[..|stack| - 1] + Pushed(q + ".", p.packageList), names + [q])
  }

  /** Popping the top frame and pushing its children emits its name and shrinks the work left. */
  lemma TraverseStep(stack: seq<Frame>)
    requires stack != []
    ensures var (prefix, p) := Last(stack);
      var q := prefix + p.name;
      var next := stack[..|stack| - 1] + Pushed(q + ".", p.packageList);
      StackSize(next) < StackSize(stack) && StackNames(stack) == [q] + StackNames(next)
  {
    var (prefix, p) := Last(stack);
    var q := prefix + p.name;
    var rest := stack[..|stack| - 1];
    var pushed := Pushed(q + ".", p.packageList);
    StackAppend(rest, pushed);
    PushedFacts(q + ".", p.packageList);
  }

  /** `gen_package_completion_list`: one fully qualified name per package of the tree. */
  function GenPackageCompletionList(p: Package): (r: seq<string>)
    ensures r == PkgNames("", p)
    ensures |r| == Size(p) && r[0] == p.name
  {
    PkgNamesCount("", p);
    assert [("", p)][..0] == [];
    assert StackNames([("", p)]) == PkgNames("", p) + StackNames([]);
    Traverse([("", p)], [])
  }

  lemma DottedAssoc(prefix: string, head: string, tail: string)
    ensures prefix + (head + "." + tail) == (prefix + head + ".") + tail
  {
  }

  /** For a chain the names are the successive dotted prefixes of the full name. */
  lemma {:induction false} ChainPkgNames(prefix: string, segs: seq<string>)
    requires |segs| >= 1
    ensures |PkgNames(prefix, Chain(segs))| == |segs|
    ensures forall i :: 0 <= i < |segs| ==> PkgNames(prefix, Chain(segs))[i] == prefix + Join(segs[..i + 1])
    decreases |segs|
  {
    var got := PkgNames(prefix, Chain(segs));
    PkgNamesCount(prefix, Chain(segs));
    if |segs| == 1 {
      assert segs[..1] == segs;
    } else {
      var rest := segs[1..];
      var q := prefix + segs[0] + ".";
      var c := Chain(rest);
      ChainPkgNames(q, rest);
      var sub := PkgNames(q, c);
      assert RevChildNames(q, [c]) == sub + RevChildNames(q, []) by {
        assert [c][..0] == [];
      }
      assert got == [prefix + segs[0]] + sub;
      forall i | 0 <= i < |segs|
        ensures got[i] == prefix + Join(segs[..i + 1])
      {
        if i == 0 {
          assert segs[..1] == [segs[0]];
        } else {
          ChainNameStep(prefix, segs, i, sub);
        }
      }
    }
  }

  /** One step of ChainPkgNames: the name below the root extends the root's dotted prefix. */
  lemma ChainNameStep(prefix: string, segs: seq<string>, i: nat, sub: seq<string>)
    requires 1 <= i < |segs| && |sub| == |segs| - 1
    requires sub[i - 1] == prefix + segs[0] + "." + Join(segs[1..][..i])
    ensures sub[i - 1] == prefix + Join(segs[..i + 1])
  {
    JoinPrefix(segs, i);
    DottedAssoc(prefix, segs[0], Join(segs[1..][..i]));
  }

  /** The first i+1 segments join as the first one, a dot, and the next i joined. */
  lemma JoinPrefix(segs: seq<string>, i: nat)
    requires 1 <= i < |segs|
    ensures Join(segs[..i + 1]) == segs[0] + "." + Join(segs[1..][..i])
  {
    assert segs[..i + 1][1..] == segs[1..][..i];
  }

  lemma ComTomJoins()
    ensures Join(["com"]) == "com"
    ensures Join(["com", "tom"]) == "com.tom"
    ensures Join(["com", "tom", "example"]) == "com.tom.example"
  {
    assert ["com", "tom"][1..] == ["tom"];
    assert ["com", "tom", "example"][1..] == ["tom", "example"];
    assert ["tom", "example"][1..] == ["example"];
    assert "tom" + "." + "example" == "tom.example";
    assert "com" + "." + "tom.example" == "com.tom.example";
    assert "com" + "." + "tom" == "com.tom";
  }

  lemma EmptyPrefix(x: string)
    ensures "" + x == x
  {
  }

  lemma ComTomChainNames()
    ensures PkgNames("", Chain(["com", "tom", "example"])) == ["com", "com.tom", "com.tom.example"]
  {
    var segs := ["com", "tom", "example"];
    ChainPkgNames("", segs);
    var w := PkgNames("", Chain(segs));
    assert |w| == 3;
    assert segs[..1] == ["com"] && segs[..2] == ["com", "tom"] && segs[..3] == segs;
    ComTomJoins();
    EmptyPrefix("com");
    EmptyPrefix("com.tom");
    EmptyPrefix("com.tom.example");
    assert w[0] == "com";
    assert w[1] == "com.tom";
    assert w[2] == "com.tom.example";
  }

  /** The example of the doc comment: com.tom.example gives com, com.tom, com.tom.example. */
  lemma PackageCompletionExample()
    ensures GenPackageCompletionList(New("com.tom.example").0) == ["com", "com.tom", "com.tom.example"]
  {
    SplitComTomExample();
    ComTomChainNames();
  }

  /** A declaration found by the traversal: the path of its package and its own name. */
  datatype DeclEntry = DeclEntry(path: seq<string>, decl: string)

  /**
   * Declarations in pre-order: a package's own declarations first, in list
   * order, then those of each subpackage in list order, each tagged with the
   * path of the package holding it.
   */
  function DeclEntries(p: Package): (es: seq<DeclEntry>)
    ensures forall k :: 0 <= k < |es| ==> |es[k].path| >= 1 && es[k].path[0] == p.name
    decreases p, 1
  {
    OwnEntries(p) + ChildDeclEntries(p.name, p.packageList)
  }

  /** A package's own declarations, each tagged with the one-segment path of the package. */
  function OwnEntries(p: Package): (es: seq<DeclEntry>)
    ensures |es| == |p.declList|
    ensures forall k :: 0 <= k < |es| ==> es[k] == DeclEntry([p.name], p.declList[k].Name())
  {
    seq(|p.declList|, i requires 0 <= i < |p.declList| => DeclEntry([p.name], p.declList[i].Name()))
  }

  function ChildDeclEntries(parent: string, ps: seq<Package>): (es: seq<DeclEntry>)
    ensures forall k :: 0 <= k < |es| ==> |es[k].path| >= 1 && es[k].path[0] == parent
    decreases ps, 0
  {
    if ps == [] then [] else Under(parent, DeclEntries(ps[0])) + ChildDeclEntries(parent, ps[1..])
  }

  function Under(parent: string, es: seq<DeclEntry>): (r: seq<DeclEntry>)
    ensures |r| == |es|
    ensures forall k :: 0 <= k < |es| ==> r[k] == DeclEntry([parent] + es[k].path, es[k].decl)
  {
    seq(|es|, k requires 0 <= k < |es| => DeclEntry([parent] + es[k].path, es[k].decl))
  }

  /** Dotted package path, a dot, and the declaration name, after a fixed prefix. */
  function Qualified(prefix: string, es: seq<DeclEntry>): (r: seq<string>)
    requires forall k :: 0 <= k < |es| ==> |es[k].path| >= 1
    ensures |r| == |es|
    ensures forall k :: 0 <= k < |es| ==> r[k] == prefix + Join(es[k].path) + "." + es[k].decl
  {
    seq(|es|, k requires 0 <= k < |es| => prefix + Join(es[k].path) + "." + es[k].decl)
  }

  lemma QualifiedAppend(prefix: string, a: seq<DeclEntry>, b: seq<DeclEntry>)
    requires forall k :: 0 <= k < |a| ==> |a[k].path| >= 1
    requires forall k :: 0 <= k < |b| ==> |b[k].path| >= 1
    ensures Qualified(prefix, a + b) == Qualified(prefix, a) + Qualified(prefix, b)
  {
  }

  lemma QualifiedUnder(prefix: string, parent: string, es: seq<DeclEntry>)
    requires forall k :: 0 <= k < |es| ==> |es[k].path| >= 1
    ensures Qualified(prefix, Under(parent, es)) == Qualified(prefix + parent + ".", es)
  {
    var l := Qualified(prefix, Under(parent, es));
    var r := Qualified(prefix + parent + ".", es);
    forall k | 0 <= k < |es|
      ensures l[k] == r[k]
    {
      var path := es[k].path;
      assert ([parent] + path)[1..] == path;
    }
  }

  /**
   * The inner recursive function of `gen_decl_completion_list`: extend the
   * prefix with this package's name and a dot, emit the declarations, recurse
   * into every subpackage, then truncate the prefix to its original length.
   * Returns the extended name list and the prefix as left on return.
   */
  function GenDecls(names: seq<string>, p: Package, prefix: string): (r: (seq<string>, string))
    ensures r.1 == prefix
    decreases p, 1
  {
    var inner := prefix + p.name + ".";
    var res := GenDeclsChildren(names + OwnNames(inner, p.declList), p.packageList, inner);
    assert inner[..|prefix|] == prefix;
    (res.0, res.1[..|prefix|])
  }

  /** The inner function appends exactly the package's qualified declarations, in pre-order. */
  lemma {:induction false} GenDeclsNames(names: seq<string>, p: Package, prefix: string)
    ensures GenDecls(names, p, prefix).0 == names + Qualified(prefix, DeclEntries(p))
    decreases p, 1
  {
    var inner := prefix + p.name + ".";
    var own := OwnNames(inner, p.declList);
    GenDeclsChildrenNames(names + own, p.packageList, inner);
    GenDeclsSplit(prefix, p);
    assert GenDecls(names, p, prefix).0 == names + (own + ChildrenQualified(inner, p.packageList));
  }

  lemma {:induction false} GenDeclsChildrenNames(names: seq<string>, ps: seq<Package>, prefix: string)
    ensures GenDeclsChildren(names, ps, prefix).0 == names + ChildrenQualified(prefix, ps)
    decreases ps, 0
  {
    if ps != [] {
      GenDeclsNames(names, ps[0], prefix);
      var names1 := GenDecls(names, ps[0], prefix).0;
      GenDeclsChildrenNames(names1, ps[1..], prefix);
    }
  }

  /** The names emitted for a package's own declarations, after the extended prefix. */
  function OwnNames(inner: string, decls: seq<Declaration>): (r: seq<string>)
    ensures |r| == |decls|
  {
    seq(|decls|, i requires 0 <= i < |decls| => inner + decls[i].Name())
  }

  /** A package's qualified declarations: its own, then its subpackages', all below the extended prefix. */
  lemma GenDeclsSplit(prefix: string, p: Package)
    ensures Qualified(prefix, DeclEntries(p))
         == OwnNames(prefix + p.name + ".", p.declList) + ChildrenQualified(prefix + p.name + ".", p.packageList)
  {
    var own := OwnEntries(p);
    assert Qualified(prefix, own) == OwnNames(prefix + p.name + ".", p.declList) by {
      assert forall k :: 0 <= k < |own| ==> Join(own[k].path) == p.name;
    }
    QualifiedAppend(prefix, own, ChildDeclEntries(p.name, p.packageList));
    ChildEntriesQualified(prefix, p.name, p.packageList);
  }

  /** The `for p in &pkg.package_list` loop of the inner function. */
  function GenDeclsChildren(names: seq<string>, ps: seq<Package>, prefix: string): (r: (seq<string>, string))
    ensures r.1 == prefix
    decreases ps, 0
  {
    if ps == [] then (names, prefix)
    else
      var res := GenDecls(names, ps[0], prefix);
      GenDeclsChildren(res.0, ps[1..], res.1)
  }

  function ChildrenQualified(prefix: string, ps: seq<Package>): seq<string>
    decreases ps
  {
    if ps == [] then [] else Qualified(prefix, DeclEntries(ps[0])) + ChildrenQualified(prefix, ps[1..])
  }

  lemma {:induction false} ChildEntriesQualified(prefix: string, parent: string, ps: seq<Package>)
    ensures Qualified(prefix, ChildDeclEntries(parent, ps)) == ChildrenQualified(prefix + parent + ".", ps)
    decreases ps
  {
    if ps != [] {
      var head := Under(parent, DeclEntries(ps[0]));
      QualifiedAppend(prefix, head, ChildDeclEntries(parent, ps[1..]));
      QualifiedUnder(prefix, parent, DeclEntries(ps[0]));
      ChildEntriesQualified(prefix, parent, ps[1..]);
    }
  }

  /**
   * `gen_decl_completion_list`: one name per declaration, the dotted path of
   * its package, a dot and the declaration's name, in pre-order.
   */
  function GenDeclCompletionList(p: Package): (r: seq<string>)
    ensures r == Qualified("", DeclEntries(p))
  {
    GenDeclsNames([], p, "");
    GenDecls([], p, "").0
  }

  // ---------------------------------------------------------------------------
  // Package::find_pkg
  // ---------------------------------------------------------------------------

  /** What `find_pkg` hands back: `self` (index None) or one subpackage, and the flag. */
  datatype Found = Found(index: Option<nat>, found: bool)

  /**
   * The inputs on which `find_pkg` panics: the first segment names a child and
   * no segment follows, so the inner function recurses with an exhausted
   * iterator and unwraps nothing.
   */
  predicate FindPkgPanics(p: Package, name: string)
  {
    |name| > 0 && |Split(name)| == 1 && FirstChild(p.packageList, Split(name)[0]).Some?
  }

  /**
   * `find_pkg` (and `find_pkg_mut`, which has the same control flow) as
   * written: matching is against the children of `p`, and a match with more
   * segments left returns that child with `true` at once, without looking at
   * the remaining segments.
   */
  function FindPkg(p: Package, name: string): (r: Found)
    requires !FindPkgPanics(p, name)
    ensures |name| == 0 ==> r == Found(None, false)
    ensures r.found <==> |name| > 0 && |Split(name)| > 1 && exists i :: 0 <= i < |p.packageList| && p.packageList[i].name == Split(name)[0]
    ensures !r.found ==> r.index.None?
    ensures r.found ==> r.index.Some? && r.index.value < |p.packageList|
    ensures r.found ==> p.packageList[r.index.value].name == Split(name)[0]
    ensures r.found ==> forall j :: 0 <= j < r.index.value ==> p.packageList[j].name != Split(name)[0]
  {
    if |name| == 0 then Found(None, false)
    else
      var segs := Split(name);
      match FirstChild(p.packageList, segs[0])
      case None => Found(None, false)
      case Some(i) =>
        assert p.packageList[i].name == segs[0];
        Found(Some(i), true)
  }

  /**
   * Contrary to the doc comment, `true` does not mean the package exists:
   * "com.nothere" is reported found in a tree that only holds "com".
   */
  lemma FindPkgReportsMissingPackageFound()
    ensures var p := Package("", [], [Leaf("com")]);
            FindPkg(p, "com.nothere") == Found(Some(0), true) && Descend(p, ["com", "nothere"]).None?
  {
    SplitComNothere();
    var p := Package("", [], [Leaf("com")]);
    FirstChildIs(p.packageList, "com", 0);
    FindPkgStopsAtChild(p, "com.nothere", 0);
  }

  /** A name of two or more segments whose first names a childless child is reported found at that child. */
  lemma FindPkgStopsAtChild(p: Package, name: string, k: nat)
    requires |Split(name)| > 1 && FirstChild(p.packageList, Split(name)[0]) == Some(k)
    requires p.packageList[k].packageList == []
    ensures !FindPkgPanics(p, name)
    ensures FindPkg(p, name) == Found(Some(k), true) && Descend(p, Split(name)[..2]).None?
  {
    var segs := Split(name);
    assert |name| > 0;
    assert segs[..2][1..] == [segs[1]];
  }

  lemma SplitComNothere()
    ensures Split("com.nothere") == ["com", "nothere"]
  {
    assert ["com", "nothere"][1..] == ["nothere"];
    assert "com" + "." + "nothere" == "com.nothere";
    SplitJoin(["com", "nothere"]);
  }

  /**
   * The walk the doc comment of `find_pkg` describes: follow every segment,
   * stop at the deepest package reached, and say whether all were matched.
   */
  function Reach(p: Package, rest: seq<string>): (r: (Package, bool))
    ensures r.1 <==> Descend(p, rest).Some?
    ensures r.1 ==> Descend(p, rest) == Some(r.0)
    decreases |rest|
  {
    if |rest| == 0 then (p, true)
    else match FirstChild(p.packageList, rest[0])
      case None => (p, false)
      case Some(i) => Reach(p.packageList[i], rest[1..])
  }

  /**
   * A walk that misses stops at the package it "made it to": the one the first
   * `k` segments lead to, none of whose subpackages carries segment `k`.
   */
  lemma {:induction false} ReachStops(p: Package, rest: seq<string>)
    ensures !Reach(p, rest).1 ==>
      exists k :: 0 <= k < |rest| && Descend(p, rest[..k]) == Some(Reach(p, rest).0)
                  && FirstChild(Reach(p, rest).0.packageList, rest[k]).None?
    decreases |rest|
  {
    if |rest| > 0 {
      match FirstChild(p.packageList, rest[0])
      case None =>
        assert Descend(p, rest[..0]) == Some(p);
      case Some(i) =>
        var c := p.packageList[i];
        ReachStops(c, rest[1..]);
        if !Reach(p, rest).1 {
          var k :| 0 <= k < |rest[1..]| && Descend(c, rest[1..][..k]) == Some(Reach(c, rest[1..]).0)
                   && FirstChild(Reach(c, rest[1..]).0.packageList, rest[1..][k]).None?;
          assert rest[..k + 1][1..] == rest[1..][..k];
          assert Descend(p, rest[..k + 1]) == Descend(c, rest[1..][..k]);
          assert rest[k + 1] == rest[1..][k];
        }
    }
  }

  /**
   * `find_pkg` with the peek test the right way round: recurse while segments
   * remain and report the package once the last one has matched; on a miss,
   * the package the walk made it to. Defined on every input.
   */
  function FindPkgFixed(p: Package, name: string): (r: (Package, bool))
    ensures r.1 <==> |name| > 0 && Descend(p, Split(name)).Some?
    ensures r.1 ==> Descend(p, Split(name)) == Some(r.0)
    ensures |name| == 0 ==> r.0 == p
    ensures !r.1 && |name| > 0 ==>
      exists k :: 0 <= k < |Split(name)| && Descend(p, Split(name)[..k]) == Some(r.0)
                  && FirstChild(r.0.packageList, Split(name)[k]).None?
  {
    if |name| == 0 then (p, false)
    else
      ReachStops(p, Split(name));
      Reach(p, Split(name))
  }

  /** The two inputs that show the divergence, handled as documented. */
  lemma FindPkgFixedExamples()
    ensures var p := Package("", [], [Leaf("com")]);
            FindPkgFixed(p, "com.nothere") == (Leaf("com"), false) && FindPkgFixed(p, "com") == (Leaf("com"), true)
  {
    SplitComNothere();
    SplitJoin(["com"]);
    var p := Package("", [], [Leaf("com")]);
    FirstChildIs(p.packageList, "com", 0);
    FirstChildNone(Leaf("com").packageList, "nothere");
    assert ["com", "nothere"][1..] == ["nothere"];
  }

  /** Looking up a single existing segment makes `find_pkg` as written unwrap an exhausted iterator. */
  lemma FindPkgPanicsOnExistingChild()
    ensures FindPkgPanics(Package("", [], [Leaf("com")]), "com")
  {
    SplitJoin(["com"]);
    assert FirstChild([Leaf("com")], "com") == Some(0);
  }
}

=== FILE: project.dfy ===
/**
 * The project (`state/project.rs`): the list of root packages, the two search
 * buffers the prompts complete against, and the current selection. Locks are
 * dropped: every operation takes the project value and returns the new one.
 */
module Projects {
  import opened Wrappers
  import opened Text
  import opened Search
  import Packages

  // ---------------------------------------------------------------------------
  // Selection
  // ---------------------------------------------------------------------------

  /** What the user has selected: a package or a declaration, by qualified name. */
  datatype Selection = Package(name: string) | Decl(name: string)

  /** `is_package`: the selection is a package, and it is the package named `p`. */
  function IsPackage(sel: Selection, p: string): (r: bool)
    ensures r <==> sel == Package(p)
  {
    match sel
    case Package(q) => p == q
    case Decl(_) => false
  }

  /** `is_decl`: the selection is a declaration, and it is the one named `p`. */
  function IsDecl(sel: Selection, p: string): (r: bool)
    ensures r <==> sel == Decl(p)
  {
    match sel
    case Decl(q) => p == q
    case Package(_) => false
  }

  /** A selection is never both kinds, and names at most one thing of its kind. */
  lemma SelectionKinds(sel: Selection, p: string, q: string)
    ensures !(IsPackage(sel, p) && IsDecl(sel, q))
    ensures IsPackage(sel, p) && IsPackage(sel, q) ==> p == q
    ensures IsDecl(sel, p) && IsDecl(sel, q) ==> p == q
    ensures IsPackage(sel, sel.name) || IsDecl(sel, sel.name)
  {
  }

  // ---------------------------------------------------------------------------
  // The project
  // ---------------------------------------------------------------------------

  datatype Project = Project(
    packageList: seq<Packages.Package>,
    pkgCompletionList: SearchBuffer,
    declCompletionList: SearchBuffer,
    currSel: Option<Selection>)

  /** No two root packages share a name, and every tree keeps its sibling names distinct. */
  ghost predicate UniqueRoots(roots: seq<Packages.Package>)
  {
    Packages.DistinctNames(roots) && forall i :: 0 <= i < |roots| ==> Packages.UniqueNames(roots[i])
  }

  /** The package a full path designates: the first root with the path's head, then first-match descent. */
  function Lookup(roots: seq<Packages.Package>, path: seq<string>): (r: Option<Packages.Package>)
    requires |path| >= 1
    ensures r.Some? ==> r.value.name == path[|path| - 1]
    ensures r.Some? ==> exists i :: 0 <= i < |roots| && Packages.Resolve(roots[i], path) == r
  {
    match Packages.FirstChild(roots, path[0])
    case None => None
    case Some(i) => Packages.Descend(roots[i], path[1..])
  }

  /** `Project::new`: no packages, empty completion buffers, nothing selected. */
  function New(): (r: Project)
    ensures r.packageList == [] && r.currSel.None?
    ensures Valid(r.pkgCompletionList) && Entries(r.pkgCompletionList.buf) == []
    ensures Valid(r.declCompletionList) && Entries(r.declCompletionList.buf) == []
    ensures UniqueRoots(r.packageList)
  {
    Project([], NewBuffer(), NewBuffer(), None)
  }

  // ---------------------------------------------------------------------------
  // Completion lists
  // ---------------------------------------------------------------------------

  /** Every root's qualified declaration names, root after root. */
  function AllDecls(roots: seq<Packages.Package>): seq<string>
    decreases |roots|
  {
    if |roots| == 0 then [] else AllDecls(roots[..|roots| - 1]) + Packages.GenDeclCompletionList(roots[|roots| - 1])
  }

  /** Every root's qualified package names, root after root. */
  function AllPkgs(roots: seq<Packages.Package>): seq<string>
    decreases |roots|
  {
    if |roots| == 0 then [] else AllPkgs(roots[..|roots| - 1]) + Packages.GenPackageCompletionList(roots[|roots| - 1])
  }

  /** One more root packs its names after the packed names of the roots before it. */
  lemma AllDeclsStep(roots: seq<Packages.Package>, i: nat)
    requires i < |roots|
    ensures Pack(AllDecls(roots[..i + 1])) == Pack(AllDecls(roots[..i])) + Pack(Packages.GenDeclCompletionList(roots[i]))
  {
    assert roots[..i + 1][..i] == roots[..i];
    PackAppend(AllDecls(roots[..i]), Packages.GenDeclCompletionList(roots[i]));
  }

  lemma AllPkgsStep(roots: seq<Packages.Package>, i: nat)
    requires i < |roots|
    ensures Pack(AllPkgs(roots[..i + 1])) == Pack(AllPkgs(roots[..i])) + Pack(Packages.GenPackageCompletionList(roots[i]))
  {
    assert roots[..i + 1][..i] == roots[..i];
    PackAppend(AllPkgs(roots[..i]), Packages.GenPackageCompletionList(roots[i]));
  }

  /**
   * `regen_pkg_completion_list`. Despite its name it rebuilds the DECLARATION
   * buffer from the roots' declaration lists; the package buffer is untouched.
   */
  method RegenPkgCompletionList(p: Project) returns (r: Project)
    ensures r == p.(declCompletionList := SearchBuffer(Pack(AllDecls(p.packageList))))
    ensures Valid(r.declCompletionList)
    ensures NulFree(AllDecls(p.packageList)) ==> Entries(r.declCompletionList.buf) == AllDecls(p.packageList)
  {
    var roots := p.packageList;
    var buf := Clear(p.declCompletionList);
    var i := 0;
    while i < |roots|
      invariant 0 <= i <= |roots|
      invariant buf.buf == Pack(AllDecls(roots[..i]))
    {
      buf := AddStrings(buf, Packages.GenDeclCompletionList(roots[i]));
      AllDeclsStep(roots, i);
      i := i + 1;
    }
    assert roots[..|roots|] == roots;
    r := p.(declCompletionList := buf);
    PackValid(AllDecls(roots));
    if NulFree(AllDecls(roots)) {
      EntriesPack([], AllDecls(roots));
      assert [] + Pack(AllDecls(roots)) == Pack(AllDecls(roots));
    }
  }

  /**
   * `regen_decl_completion_list`. Despite its name it rebuilds the PACKAGE
   * buffer from every root's package names; the declaration buffer is untouched.
   */
  method RegenDeclCompletionList(p: Project) returns (r: Project)
    ensures r == p.(pkgCompletionList := SearchBuffer(Pack(AllPkgs(p.packageList))))
    ensures Valid(r.pkgCompletionList)
    ensures NulFree(AllPkgs(p.packageList)) ==> Entries(r.pkgCompletionList.buf) == AllPkgs(p.packageList)
  {
    var roots := p.packageList;
    var buf := Clear(p.pkgCompletionList);
    var i := 0;
    while i < |roots|
      invariant 0 <= i <= |roots|
      invariant buf.buf == Pack(AllPkgs(roots[..i]))
    {
      buf := AddStrings(buf, Packages.GenPackageCompletionList(roots[i]));
      AllPkgsStep(roots, i);
      i := i + 1;
    }
    assert roots[..|roots|] == roots;
    r := p.(pkgCompletionList := buf);
    PackValid(AllPkgs(roots));
    if NulFree(AllPkgs(roots)) {
      EntriesPack([], AllPkgs(roots));
      assert [] + Pack(AllPkgs(roots)) == Pack(AllPkgs(roots));
    }
  }

  // ---------------------------------------------------------------------------
  // package_exists
  // ---------------------------------------------------------------------------

  /**
   * `package_exists`: the empty name (the default package) always exists;
   * otherwise the first root named after the first segment, followed child by
   * child through the remaining segments.
   */
  function PackageExists(p: Project, name: string): (r: bool)
    ensures |name| == 0 ==> r
    ensures r && |name| > 0 ==> exists i :: 0 <= i < |p.packageList| && Packages.Resolve(p.packageList[i], Split(name)).Some?
  {
    |name| == 0 || Lookup(p.packageList, Split(name)).Some?
  }

  /**
   * With unique names the first-match walk agrees with the declarative reading:
   * a non-empty name exists exactly when SOME root carries its first segment
   * and a path of children carries the rest.
   */
  lemma PackageExistsIff(p: Project, name: string)
    requires UniqueRoots(p.packageList)
    ensures PackageExists(p, name) <==>
      |name| == 0 ||
      exists i :: 0 <= i < |p.packageList| && p.packageList[i].name == Split(name)[0]
                  && Packages.HasPath(p.packageList[i], Split(name)[1..])
  {
    var roots, segs := p.packageList, Split(name);
    if |name| > 0 {
      match Packages.FirstChild(roots, segs[0])
      case None =>
      case Some(k) =>
        Packages.DescendAgreesWithHasPath(roots[k], segs[1..]);
        if exists i :: 0 <= i < |roots| && roots[i].name == segs[0] && Packages.HasPath(roots[i], segs[1..]) {
          var i :| 0 <= i < |roots| && roots[i].name == segs[0] && Packages.HasPath(roots[i], segs[1..]);
          assert i == k;
        }
    }
  }

  // ---------------------------------------------------------------------------
  // add_package
  // ---------------------------------------------------------------------------

  /** `str::find('.')`: the index of the first dot. */
  function FindDot(s: string): (r: Option<nat>)
    ensures r.Some? ==> r.value < |s| && s[r.value] == '.'
    decreases |s|
  {
    if |s| == 0 then None
    else if s[0] == '.' then Some(0)
    else match FindDot(s[1..])
      case None => None
      case Some(k) => Some(k + 1)
  }

  /** `&name[0..name.find(".").unwrap_or(name.len())]`. */
  function FirstSegment(name: string): string
  {
    match FindDot(name)
    case None => name
    case Some(k) => name[..k]
  }

  /** The slice before the first dot is the head of the dotted split. */
  lemma {:induction false} FirstSegmentIsSplitHead(name: string)
    ensures FirstSegment(name) == Split(name)[0]
    decreases |name|
  {
    if |name| > 0 && name[0] != '.' {
      FirstSegmentIsSplitHead(name[1..]);
      match FindDot(name[1..])
      case None =>
        assert name == [name[0]] + name[1..];
      case Some(k) =>
        assert name[..k + 1] == [name[0]] + name[1..][..k];
    }
  }

  /** `Package::new` builds a tree with unique sibling names. */
  lemma NewUnique(name: string)
    requires |name| > 0
    ensures Packages.UniqueNames(Packages.New(name).0)
  {
    var segs := Split(name);
    Packages.ChainIsInsertIntoLeaf(segs);
    Packages.InsertKeepsUniqueNames(Packages.Leaf(segs[0]), segs[1..]);
  }

  /** Replacing one root by an extension of it keeps every root's name, hence the first-match choice. */
  lemma ReplaceRoot(roots: seq<Packages.Package>, i: nat, q: Packages.Package, n: string)
    requires i < |roots| && Packages.Extends(roots[i], q)
    ensures Packages.FirstChild(roots[i := q], n) == Packages.FirstChild(roots, n)
    ensures Packages.DistinctNames(roots) ==> Packages.DistinctNames(roots[i := q])
  {
    var rs := roots[i := q];
    assert forall j :: 0 <= j < |rs| ==> rs[j].name == roots[j].name;
    match Packages.FirstChild(roots, n)
    case None => Packages.FirstChildNone(rs, n);
    case Some(k) => Packages.FirstChildIs(rs, n, k);
  }

  /**
   * The package-list half of `add_package`: extend the first root named after
   * the first segment, or append a new root chain when there is none. Returns
   * the new roots and the path of the deepest package named.
   */
  function Place(roots: seq<Packages.Package>, name: string): (r: (seq<Packages.Package>, seq<string>))
    requires |name| > 0 || Packages.FirstChild(roots, Split(name)[0]).Some?
  {
    FirstSegmentIsSplitHead(name);
    match Packages.FirstChild(roots, FirstSegment(name))
    case Some(k) =>
      var added := Packages.AddSubpackage(roots[k], name);
      (roots[k := added.0], added.1)
    case None =>
      var created := Packages.New(name);
      (roots + [created.0], if created.1.None? then [created.0.name] else created.1.value)
  }

  /** The returned path is the dotted split of the name, and it designates a package afterwards. */
  lemma PlaceFinds(roots: seq<Packages.Package>, name: string)
    requires |name| > 0 || Packages.FirstChild(roots, Split(name)[0]).Some?
    ensures Place(roots, name).1 == Split(name)
    ensures Lookup(Place(roots, name).0, Split(name)).Some?
  {
    FirstSegmentIsSplitHead(name);
    var segs := Split(name);
    var rs := Place(roots, name).0;
    match Packages.FirstChild(roots, segs[0])
    case Some(k) =>
      var added := Packages.AddSubpackage(roots[k], name);
      ReplaceRoot(roots, k, added.0, segs[0]);
      assert Packages.Resolve(added.0, segs).Some?;
      assert Lookup(rs, segs) == Packages.Descend(added.0, segs[1..]);
    case None =>
      var created := Packages.New(name);
      Packages.FirstChildIs(rs, segs[0], |roots|);
      assert Lookup(rs, segs) == Packages.Descend(created.0, segs[1..]);
  }

  /** At most one root is added, only when no root carries the first segment, and old roots are only extended. */
  lemma PlaceExtends(roots: seq<Packages.Package>, name: string)
    requires |name| > 0 || Packages.FirstChild(roots, Split(name)[0]).Some?
    ensures |Place(roots, name).0| == |roots| + (if Packages.FirstChild(roots, Split(name)[0]).None? then 1 else 0)
    ensures forall i :: 0 <= i < |roots| ==> Packages.Extends(roots[i], Place(roots, name).0[i])
  {
    FirstSegmentIsSplitHead(name);
    var rs := Place(roots, name).0;
    match Packages.FirstChild(roots, Split(name)[0])
    case Some(k) =>
      forall i | 0 <= i < |roots|
        ensures Packages.Extends(roots[i], rs[i])
      {
        if i != k { Packages.ExtendsRefl(roots[i]); }
      }
    case None =>
      forall i | 0 <= i < |roots|
        ensures Packages.Extends(roots[i], rs[i])
      {
        Packages.ExtendsRefl(roots[i]);
      }
  }

  /** Adding a name that already exists changes nothing. */
  lemma PlaceExisting(p: Project, name: string)
    requires |name| > 0 || Packages.FirstChild(p.packageList, Split(name)[0]).Some?
    ensures PackageExists(p, name) ==> Place(p.packageList, name).0 == p.packageList
  {
    FirstSegmentIsSplitHead(name);
    var roots, segs := p.packageList, Split(name);
    match Packages.FirstChild(roots, segs[0])
    case Some(k) =>
      if PackageExists(p, name) {
        assert Packages.Resolve(roots[k], segs).Some?;
      }
    case None =>
  }

  /** Unique names stay unique. */
  lemma PlaceUnique(roots: seq<Packages.Package>, name: string)
    requires |name| > 0 || Packages.FirstChild(roots, Split(name)[0]).Some?
    ensures UniqueRoots(roots) ==> UniqueRoots(Place(roots, name).0)
  {
    FirstSegmentIsSplitHead(name);
    var rs := Place(roots, name).0;
    if UniqueRoots(roots) {
      match Packages.FirstChild(roots, Split(name)[0])
      case Some(k) =>
        var added := Packages.AddSubpackage(roots[k], name);
        ReplaceRoot(roots, k, added.0, Split(name)[0]);
        assert forall i :: 0 <= i < |rs| ==> Packages.UniqueNames(rs[i]);
      case None =>
        NewUnique(name);
    }
  }

  /**
   * `add_package`: places the name in the package list, then calls
   * `regen_pkg_completion_list`, which refreshes the declaration buffer only.
   * Returns the path of the deepest package named.
   */
  method AddPackage(p: Project, name: string) returns (r: Project, path: seq<string>)
    requires |name| > 0 || Packages.FirstChild(p.packageList, Split(name)[0]).Some?
    ensures r.packageList == Place(p.packageList, name).0 && path == Split(name)
    ensures PackageExists(r, name)
    ensures r.pkgCompletionList == p.pkgCompletionList && r.currSel == p.currSel
    ensures r.declCompletionList == SearchBuffer(Pack(AllDecls(r.packageList)))
  {
    var placed := Place(p.packageList, name);
    PlaceFinds(p.packageList, name);
    path := placed.1;
    r := RegenPkgCompletionList(p.(packageList := placed.0));
  }
}

=== FILE: prompt.dfy ===
/**
 * The prompt of `prompt/mod.rs` and `prompt/prompt_type.rs`: several text
 * slots filled one after another, with Tab and Shift-Tab stepping through the
 * completions offered for the current slot, Backspace, and Enter to move to
 * the next slot or finish. The completion callback is left out: finishing
 * hands back the inputs instead.
 */
module Prompts {
  import opened Wrappers
  import opened Text
  import opened Keys
  import opened Search

  /** `Prompt`: the label shown, and whether an empty answer is accepted. */
  datatype Prompt = Prompt(text: string, allowEmpty: bool)

  /** `PromptType`: a plain text slot, or a package name slot completed from the package list. */
  datatype PromptType = String(prompt: Prompt) | Package(prompt: Prompt)

  /** `PromptType::as_str`: the label of the slot, whichever kind it is. */
  function AsStr(pt: PromptType): (r: string)
    ensures r == pt.prompt.text
  {
    match pt
    case String(p) => p.text
    case Package(p) => p.text
  }

  /**
   * `PromptType::complete`: nothing for a text slot; for a package slot, the
   * entries of the package list that the input matches as a case-insensitive
   * subsequence, in list order (what `find_all_subsequences` returns).
   */
  function Completions(pt: PromptType, pkgList: SearchBuffer, input: string): (r: seq<string>)
    ensures pt.String? ==> r == []
    ensures pt.Package? ==> IsSubseq(r, Entries(pkgList.buf))
    ensures pt.Package? ==> forall x :: x in r <==> x in Entries(pkgList.buf) && Matches(Lower(input), x)
  {
    MatchingIsFilter(Entries(pkgList.buf), Lower(input));
    if pt.String? then [] else Matching(Entries(pkgList.buf), Lower(input))
  }

  /** `complete`, running the search the way the source does. */
  method Complete(pt: PromptType, pkgList: SearchBuffer, input: string) returns (r: seq<string>)
    ensures r == Completions(pt, pkgList, input)
  {
    match pt
    case String(_) => r := [];
    case Package(_) => r := FindAllSubsequences(pkgList, input);
  }

  /**
   * `PromptInput`: the slots, one input per slot, the slot being edited, the
   * completions on offer and the one selected, if any.
   */
  datatype PromptInput = PromptInput(
    prompts: seq<PromptType>,
    inputs: seq<string>,
    currPrompt: nat,
    currCompletions: seq<string>,
    activeCompletion: Option<nat>)

  /** A live prompt: at least one slot, one input per slot, and the slot being edited exists. */
  predicate Inv(pi: PromptInput)
  {
    |pi.prompts| >= 1 && |pi.inputs| == |pi.prompts| && pi.currPrompt < |pi.prompts|
  }

  /** The selected completion, if any, is one on offer. */
  predicate ActiveInRange(pi: PromptInput)
  {
    pi.activeCompletion.Some? ==> pi.activeCompletion.value < |pi.currCompletions|
  }

  /** `PromptInput::new` (it panics on no slots): every input empty, the first slot current, nothing offered. */
  function New(prompts: seq<PromptType>): (pi: PromptInput)
    requires |prompts| > 0
    ensures Inv(pi) && ActiveInRange(pi) && pi.prompts == prompts && pi.currPrompt == 0
    ensures forall i :: 0 <= i < |pi.inputs| ==> pi.inputs[i] == ""
    ensures pi.currCompletions == [] && pi.activeCompletion.None?
  {
    PromptInput(prompts, seq(|prompts|, _ => ""), 0, [], None)
  }

  /** `get_curr_input`: the input of the slot being edited. */
  function GetCurrInput(pi: PromptInput): (r: string)
    requires pi.currPrompt < |pi.inputs|
  {
    pi.inputs[pi.currPrompt]
  }

  const TabChunk: InputChunk := InputChunk(Tab, 0)
  const ShiftTabChunk: InputChunk := InputChunk(Tab, SHIFT)

  /**
   * The input of `key_input` that would underflow `len() - 1`: Tab with a
   * completion selected while none are offered.
   */
  predicate TabUnderflows(pi: PromptInput, x: InputChunk)
  {
    x == TabChunk && pi.activeCompletion.Some? && |pi.currCompletions| == 0
  }

  /**
   * `key_input`: Shift-Tab (the mask exactly shift) selects the previous
   * completion, or none after the first, and with none selected goes back one
   * slot (never before the first); Tab (no modifiers) selects the first
   * completion when none is, none after the last, and the next one otherwise;
   * Backspace with any modifiers deletes the last character of the current
   * input; every other chord is ignored.
   */
  function KeyInput(pi: PromptInput, x: InputChunk): (r: PromptInput)
    requires Inv(pi) && !TabUnderflows(pi, x)
    ensures Inv(r) && r.prompts == pi.prompts && r.currCompletions == pi.currCompletions
    ensures x.key != Tab ==> r.activeCompletion == pi.activeCompletion && r.currPrompt == pi.currPrompt
    ensures x.key == Back ==> GetCurrInput(pi) == GetCurrInput(r) + (if GetCurrInput(pi) == "" then "" else [Last(GetCurrInput(pi))])
    ensures x.key == Back ==> forall i :: 0 <= i < |pi.inputs| && i != pi.currPrompt ==> r.inputs[i] == pi.inputs[i]
    ensures x.key != Back ==> r.inputs == pi.inputs
    ensures x.key != Back && x.key != Tab ==> r == pi
    ensures x.key == Tab && x.mods != 0x0 && x.mods != 0x8 ==> r == pi
  {
    match (x.key, x.mods)
    case (Tab, 0x8) =>
      (match pi.activeCompletion
       case Some(k) => pi.(activeCompletion := if k == 0 then None else Some(k - 1))
       case None => pi.(currPrompt := if pi.currPrompt > 0 then pi.currPrompt - 1 else 0))
    case (Tab, 0x0) =>
      (match pi.activeCompletion
       case None => if |pi.currCompletions| > 0 then pi.(activeCompletion := Some(0)) else pi
       case Some(k) =>
         if k == |pi.currCompletions| - 1 then pi.(activeCompletion := None)
         else pi.(activeCompletion := Some(k + 1)))
    case (Back, _) =>
      var s := pi.inputs[pi.currPrompt];
      if |s| > 0 then pi.(inputs := pi.inputs[pi.currPrompt := s[..|s| - 1]]) else pi
    case _ => pi
  }

  /** Tab never leaves the selection outside the completions on offer. */
  lemma TabKeepsActiveInRange(pi: PromptInput, x: InputChunk)
    requires Inv(pi) && !TabUnderflows(pi, x) && ActiveInRange(pi)
    ensures ActiveInRange(KeyInput(pi, x))
  {
  }

  /** Shift-Tab undoes a Tab that left a completion selected. */
  lemma ShiftTabUndoesTab(pi: PromptInput)
    requires Inv(pi) && ActiveInRange(pi)
    requires KeyInput(pi, TabChunk).activeCompletion.Some?
    ensures KeyInput(KeyInput(pi, TabChunk), ShiftTabChunk) == pi
  {
  }

  /** Tab undoes a Shift-Tab made while a completion was selected. */
  lemma TabUndoesShiftTab(pi: PromptInput)
    requires Inv(pi) && ActiveInRange(pi) && pi.activeCompletion.Some?
    ensures KeyInput(KeyInput(pi, ShiftTabChunk), TabChunk) == pi
  {
  }

  /** Shift-Tab with nothing selected moves back one slot and stops at the first. */
  lemma ShiftTabGoesBack(pi: PromptInput)
    requires Inv(pi) && pi.activeCompletion.None?
    ensures KeyInput(pi, ShiftTabChunk) == pi.(currPrompt := if pi.currPrompt == 0 then 0 else pi.currPrompt - 1)
  {
  }

  /** `j` Tabs in a row. */
  function Tabs(pi: PromptInput, j: nat): (r: PromptInput)
    requires Inv(pi) && ActiveInRange(pi)
    ensures Inv(r) && ActiveInRange(r)
  {
    if j == 0 then pi
    else
      var p := Tabs(pi, j - 1);
      TabKeepsActiveInRange(p, TabChunk);
      KeyInput(p, TabChunk)
  }

  /**
   * Tab cycles: from no selection, the `j`-th Tab selects completion `j - 1`,
   * and one more Tab than there are completions returns to no selection,
   * touching nothing else.
   */
  lemma {:induction false} TabCycle(pi: PromptInput, j: nat)
    requires Inv(pi) && pi.activeCompletion.None? && |pi.currCompletions| > 0
    requires j <= |pi.currCompletions| + 1
    ensures Tabs(pi, j) == pi.(activeCompletion := if j == 0 || j == |pi.currCompletions| + 1 then None else Some(j - 1))
  {
    if j > 0 {
      TabCycle(pi, j - 1);
    }
  }

  /**
   * The input of `char_input` that indexes past the completions: a printable
   * character while the selection points beyond the list on offer.
   */
  predicate CharPanics(pi: PromptInput, c: char)
  {
    && c != '\r' && c != '\n' && !IsControl(c)
    && pi.activeCompletion.Some? && pi.activeCompletion.value >= |pi.currCompletions|
  }

  /**
   * `char_input`: Enter (`\r` or `\n`) moves to the next slot, leaving the
   * inputs alone, and reports whether that was the last slot; a printable
   * character first replaces the input with the selected completion, if any,
   * clearing the selection, then is appended; other control characters are
   * ignored. The second component is the source's return value: whether the
   * prompt finished, in which case the first holds the inputs handed to the
   * callback.
   */
  function CharInput(pi: PromptInput, c: char): (r: (PromptInput, bool))
    requires Inv(pi) && !CharPanics(pi, c)
    ensures r.0.prompts == pi.prompts && r.0.currCompletions == pi.currCompletions && |r.0.inputs| == |pi.inputs|
    ensures r.1 <==> (c == '\r' || c == '\n') && pi.currPrompt == |pi.prompts| - 1
    ensures !r.1 ==> Inv(r.0)
    ensures ActiveInRange(pi) ==> ActiveInRange(r.0)
    ensures c == '\r' || c == '\n' ==> r.0 == pi.(currPrompt := pi.currPrompt + 1)
    ensures c != '\r' && c != '\n' && !IsControl(c) ==>
      && r.0.activeCompletion.None? && r.0.currPrompt == pi.currPrompt
      && GetCurrInput(r.0) == (match pi.activeCompletion case None => GetCurrInput(pi) case Some(k) => pi.currCompletions[k]) + [c]
      && forall i :: 0 <= i < |pi.inputs| && i != pi.currPrompt ==> r.0.inputs[i] == pi.inputs[i]
    ensures IsControl(c) && c != '\r' && c != '\n' ==> r.0 == pi
  {
    if c == '\r' || c == '\n' then
      var p := pi.(currPrompt := pi.currPrompt + 1);
      (p, p.currPrompt >= |p.prompts|)
    else if !IsControl(c) then
      var base := match pi.activeCompletion case None => pi.inputs[pi.currPrompt] case Some(k) => pi.currCompletions[k];
      (pi.(inputs := pi.inputs[pi.currPrompt := base + [c]], activeCompletion := None), false)
    else (pi, false)
  }

  /** With nothing selected, Backspace undoes a printable character. */
  lemma BackUndoesChar(pi: PromptInput, c: char, mods: Modifiers)
    requires Inv(pi) && pi.activeCompletion.None? && c != '\r' && c != '\n' && !IsControl(c)
    ensures KeyInput(CharInput(pi, c).0, InputChunk(Back, mods)) == pi
  {
    var p := CharInput(pi, c).0;
    var q := KeyInput(p, InputChunk(Back, mods));
    assert GetCurrInput(q) == GetCurrInput(pi);
    assert q.inputs == pi.inputs;
  }

  /**
   * `update_completions` as written: the completions for the current input
   * replace the list, but the selection is kept, so it can point past the end
   * of the new list.
   */
  function UpdateCompletionsAsWritten(pi: PromptInput, pkgList: SearchBuffer): (r: PromptInput)
    requires Inv(pi)
    ensures Inv(r) && r == pi.(currCompletions := Completions(pi.prompts[pi.currPrompt], pkgList, GetCurrInput(pi)))
  {
    pi.(currCompletions := Completions(pi.prompts[pi.currPrompt], pkgList, pi.inputs[pi.currPrompt]))
  }

  /**
   * `update_completions`, corrected: the selection is dropped when the list of
   * completions changes, so it always points into the list on offer. A
   * refresh that leaves the list as it was (as after Tab) keeps it, so Tab
   * cycling still works.
   */
  function UpdateCompletions(pi: PromptInput, pkgList: SearchBuffer): (r: PromptInput)
    requires Inv(pi)
    ensures Inv(r) && r.prompts == pi.prompts && r.inputs == pi.inputs && r.currPrompt == pi.currPrompt
    ensures r.currCompletions == Completions(pi.prompts[pi.currPrompt], pkgList, GetCurrInput(pi))
    ensures r.currCompletions == pi.currCompletions ==> r.activeCompletion == pi.activeCompletion
    ensures ActiveInRange(pi) ==> ActiveInRange(r)
  {
    var cs := Completions(pi.prompts[pi.currPrompt], pkgList, pi.inputs[pi.currPrompt]);
    pi.(currCompletions := cs, activeCompletion := if cs == pi.currCompletions then pi.activeCompletion else None)
  }

  /** A package list holding the one entry "com". */
  const ComList: SearchBuffer := SearchBuffer("com" + [NUL])

  lemma ComListEntries()
    ensures Entries(ComList.buf) == ["com"]
  {
    AppendEntry([], "com");
    assert [] + "com" + [NUL] == ComList.buf;
  }

  /** An empty package slot is offered every package. */
  lemma ComListCompletions(p: Prompt)
    ensures Completions(Package(p), ComList, "") == ["com"]
  {
    ComListEntries();
    assert IsSubseq("", Lower("com"));
    assert Matching(["com"], "") == Matching([], "") + ["com"];
  }

  /**
   * As written, Enter from a slot with a completion selected into a text slot
   * keeps the selection while the refresh offers nothing, so the next
   * printable character would read past the end of the list (the index
   * panics).
   */
  lemma EnterKeepsStaleSelection(pi: PromptInput, pkgList: SearchBuffer)
    requires Inv(pi) && pi.activeCompletion.Some?
    requires pi.currPrompt + 1 < |pi.prompts| && pi.prompts[pi.currPrompt + 1].String?
    ensures var r := CharInput(pi, '\r');
      !r.1 && Inv(r.0) && !ActiveInRange(UpdateCompletionsAsWritten(r.0, pkgList))
  {
  }

  /** Corrected, the same Enter leaves no selection behind. */
  lemma EnterDropsSelection(pi: PromptInput, pkgList: SearchBuffer)
    requires Inv(pi) && pi.activeCompletion.Some? && ActiveInRange(pi)
    requires pi.currPrompt + 1 < |pi.prompts| && pi.prompts[pi.currPrompt + 1].String?
    ensures var r := CharInput(pi, '\r');
      !r.1 && Inv(r.0) && UpdateCompletions(r.0, pkgList).activeCompletion.None?
  {
  }

  /** A package slot followed by a text slot, both empty. */
  function TwoSlots(): (pi: PromptInput)
    ensures Inv(pi) && |pi.prompts| == 2 && pi.currPrompt == 0 && pi.activeCompletion.None?
    ensures pi.prompts[0].Package? && pi.prompts[1].String? && pi.inputs[0] == ""
  {
    New([Package(Prompt("Package", true)), String(Prompt("Name", false))])
  }

  /**
   * The state `EnterKeepsStaleSelection` starts from is reached from a new
   * prompt: the refresh offers "com" for the empty package slot and Tab
   * selects it.
   */
  lemma TabSelectsCom()
    ensures var p := KeyInput(UpdateCompletionsAsWritten(TwoSlots(), ComList), TabChunk);
      p.activeCompletion == Some(0) && p.currPrompt == 0 && p.currCompletions == ["com"]
    ensures KeyInput(UpdateCompletions(TwoSlots(), ComList), TabChunk) == KeyInput(UpdateCompletionsAsWritten(TwoSlots(), ComList), TabChunk)
  {
    var pi := TwoSlots();
    ComListCompletions(pi.prompts[0].prompt);
  }
}

=== FILE: search.dfy ===
/**
 * The search buffer of `search/mod.rs`: searchable strings stored back to back,
 * each followed by a NUL, and the two case-insensitive scans over it. The scans
 * are proved against declarative definitions: the entries the buffer holds, the
 * subsequence relation, and "the part before the first occurrence".
 */
module Search {
  import opened Wrappers
  import opened Text

  datatype SearchBuffer = SearchBuffer(buf: string)

  function Init<T>(s: seq<T>): seq<T>
    requires |s| > 0
  {
    s[..|s| - 1]
  }

  // ---------------------------------------------------------------------------
  // What a buffer holds
  // ---------------------------------------------------------------------------

  /** The characters after the last NUL: an entry that has not been terminated yet. */
  function Tail(buf: string): (r: string)
    ensures NUL !in r
    ensures |r| <= |buf|
    decreases |buf|
  {
    if |buf| == 0 then []
    else if Last(buf) == NUL then []
    else Tail(Init(buf)) + [Last(buf)]
  }

  /** The NUL-terminated entries of a buffer, in order. */
  function Entries(buf: string): (r: seq<string>)
    ensures forall i :: 0 <= i < |r| ==> NUL !in r[i]
    decreases |buf|
  {
    if |buf| == 0 then []
    else if Last(buf) == NUL then Entries(Init(buf)) + [Tail(Init(buf))]
    else Entries(Init(buf))
  }

  /** Every buffer the operations build is empty or ends in a NUL. */
  predicate Valid(sb: SearchBuffer)
  {
    Tail(sb.buf) == []
  }

  predicate NulFree(strs: seq<string>)
  {
    forall i :: 0 <= i < |strs| ==> NUL !in strs[i]
  }

  /** The layout `add_strings` writes: each string followed by a NUL. */
  function Pack(strs: seq<string>): string
    decreases |strs|
  {
    if |strs| == 0 then [] else Pack(Init(strs)) + Last(strs) + [NUL]
  }

  lemma {:induction false} EntriesAppendNulFree(buf: string, s: string)
    requires NUL !in s
    ensures Entries(buf + s) == Entries(buf)
    ensures Tail(buf + s) == Tail(buf) + s
    decreases |s|
  {
    if |s| > 0 {
      EntriesAppendNulFree(buf, Init(s));
      assert Init(buf + s) == buf + Init(s);
      assert Last(buf + s) == Last(s);
      assert Init(s) + [Last(s)] == s;
      assert Tail(buf) + Init(s) + [Last(s)] == Tail(buf) + s;
    } else {
      assert buf + s == buf;
    }
  }

  lemma EntriesTerminate(buf: string)
    ensures Entries(buf + [NUL]) == Entries(buf) + [Tail(buf)]
    ensures Tail(buf + [NUL]) == []
  {
    assert Init(buf + [NUL]) == buf;
  }

  /** Appending one string and its terminator to a valid buffer adds exactly that entry. */
  lemma AppendEntry(buf: string, s: string)
    requires NUL !in s && Tail(buf) == []
    ensures Entries(buf + s + [NUL]) == Entries(buf) + [s]
    ensures Tail(buf + s + [NUL]) == []
  {
    EntriesAppendNulFree(buf, s);
    EntriesTerminate(buf + s);
    assert [] + s == s;
  }

  lemma PackStep(buf: string, front: seq<string>, x: string)
    requires Entries(buf + Pack(front)) == Entries(buf) + front && Tail(buf + Pack(front)) == []
    requires NUL !in x
    ensures Entries(buf + Pack(front + [x])) == Entries(buf) + (front + [x])
    ensures Tail(buf + Pack(front + [x])) == []
  {
    var b := buf + Pack(front);
    AppendEntry(b, x);
    assert Init(front + [x]) == front && Last(front + [x]) == x;
    assert buf + Pack(front + [x]) == b + x + [NUL];
  }

  /** The entries of a packed list are the list itself. */
  lemma {:induction false} EntriesPack(buf: string, strs: seq<string>)
    requires Tail(buf) == [] && NulFree(strs)
    ensures Entries(buf + Pack(strs)) == Entries(buf) + strs
    ensures Tail(buf + Pack(strs)) == []
    decreases |strs|
  {
    if |strs| == 0 {
      assert buf + Pack(strs) == buf;
    } else {
      var front := Init(strs);
      EntriesPack(buf, front);
      PackStep(buf, front, Last(strs));
      assert front + [Last(strs)] == strs;
    }
  }

  /** Packing two lists one after the other lays them out as packing their concatenation. */
  lemma {:induction false} PackAppend(a: seq<string>, b: seq<string>)
    ensures Pack(a + b) == Pack(a) + Pack(b)
    decreases |b|
  {
    if |b| == 0 {
      assert a + b == a;
    } else {
      assert Init(a + b) == a + Init(b);
      assert Last(a + b) == Last(b);
      PackAppend(a, Init(b));
    }
  }

  /** A packed list, whatever its strings, leaves no unterminated entry. */
  lemma PackValid(strs: seq<string>)
    ensures Valid(SearchBuffer(Pack(strs)))
  {
    if |strs| > 0 {
      EntriesTerminate(Pack(Init(strs)) + Last(strs));
    }
  }

  // ---------------------------------------------------------------------------
  // Building and clearing
  // ---------------------------------------------------------------------------

  /** `SearchBuffer::new`. */
  function NewBuffer(): (r: SearchBuffer)
    ensures Valid(r) && Entries(r.buf) == []
  {
    SearchBuffer([])
  }

  /**
   * `add_strings` and `add_strings_owned` (the same loop over borrowed and over
   * owned strings): each string and a NUL are appended in order.
   */
  method AddStrings(sb: SearchBuffer, strs: seq<string>) returns (r: SearchBuffer)
    ensures r.buf == sb.buf + Pack(strs)
    ensures |r.buf| >= |sb.buf| + |strs|
    ensures Valid(sb) && NulFree(strs) ==> Valid(r) && Entries(r.buf) == Entries(sb.buf) + strs
  {
    var buf := sb.buf;
    var i := 0;
    while i < |strs|
      invariant 0 <= i <= |strs|
      invariant buf == sb.buf + Pack(strs[..i])
      invariant |buf| >= |sb.buf| + i
    {
      assert Init(strs[..i + 1]) == strs[..i];
      buf := buf + strs[i] + [NUL];
      i := i + 1;
    }
    assert strs[..|strs|] == strs;
    r := SearchBuffer(buf);
    if Valid(sb) && NulFree(strs) {
      EntriesPack(sb.buf, strs);
    }
  }

  /** `clear`: the buffer holds nothing afterwards. */
  function Clear(sb: SearchBuffer): (r: SearchBuffer)
    ensures Valid(r) && Entries(r.buf) == []
  {
    SearchBuffer([])
  }

  // ---------------------------------------------------------------------------
  // Subsequences
  // ---------------------------------------------------------------------------

  /** `q` is a subsequence of `s`: the last character of `s` is either used or skipped. */
  predicate IsSubseq<T(==)>(q: seq<T>, s: seq<T>)
    decreases |s|
  {
    |q| == 0 ||
    (|s| > 0 && ((Last(q) == Last(s) && IsSubseq(Init(q), Init(s))) || IsSubseq(q, Init(s))))
  }

  /**
   * How much of `q` the left-to-right scan of `find_all_subsequences` has
   * consumed after reading `s`: it advances whenever the next character matches.
   */
  function Greedy<T(==)>(q: seq<T>, s: seq<T>): (k: nat)
    ensures k <= |q| && k <= |s|
    decreases |s|
  {
    if |s| == 0 then 0
    else
      var k := Greedy(q, Init(s));
      if k < |q| && q[k] == Last(s) then k + 1 else k
  }

  /** The greedy scan consumes at least `m` characters exactly when `q[..m]` is a subsequence. */
  lemma {:induction false} GreedyPrefixes<T>(q: seq<T>, s: seq<T>, m: nat)
    requires m <= |q|
    ensures IsSubseq(q[..m], s) <==> Greedy(q, s) >= m
    decreases |s|
  {
    if m == 0 {
    } else if |s| == 0 {
    } else {
      var s' := Init(s);
      var k' := Greedy(q, s');
      GreedyPrefixes(q, s', m);
      GreedyPrefixes(q, s', m - 1);
      assert Init(q[..m]) == q[..m - 1];
      assert Last(q[..m]) == q[m - 1];
    }
  }

  /** The greedy scan is complete and sound for the subsequence relation. */
  lemma GreedyAgrees<T>(q: seq<T>, s: seq<T>)
    ensures IsSubseq(q, s) <==> Greedy(q, s) == |q|
  {
    GreedyPrefixes(q, s, |q|);
    assert q[..|q|] == q;
  }

  /** Case-insensitive subsequence match of a (lower-cased) query against an entry. */
  predicate Matches(lq: string, entry: string)
  {
    IsSubseq(lq, Lower(entry))
  }

  /** The entries a lower-cased query matches, in buffer order. */
  function Matching(es: seq<string>, lq: string): (r: seq<string>)
    ensures |r| <= |es|
    decreases |es|
  {
    if |es| == 0 then []
    else Matching(Init(es), lq) + (if Matches(lq, Last(es)) then [Last(es)] else [])
  }

  /** What `Matching` keeps: exactly the matching entries, in their original order. */
  lemma MatchingIsFilter(es: seq<string>, lq: string)
    ensures forall x :: x in Matching(es, lq) <==> x in es && Matches(lq, x)
    ensures IsSubseq(Matching(es, lq), es)
  {
    MatchingMembers(es, lq);
    MatchingSubseq(es, lq);
  }

  lemma {:induction false} MatchingMembers(es: seq<string>, lq: string)
    ensures forall x :: x in Matching(es, lq) <==> x in es && Matches(lq, x)
    decreases |es|
  {
    if |es| > 0 {
      MatchingMembers(Init(es), lq);
      assert es == Init(es) + [Last(es)];
      forall x
        ensures x in Matching(es, lq) <==> x in es && Matches(lq, x)
      {
        assert x in es <==> x in Init(es) || x == Last(es);
      }
    }
  }

  lemma {:induction false} MatchingSubseq(es: seq<string>, lq: string)
    ensures IsSubseq(Matching(es, lq), es)
    decreases |es|
  {
    if |es| > 0 {
      var m := Matching(Init(es), lq);
      MatchingSubseq(Init(es), lq);
      assert Init(es) + [Last(es)] == es;
      if Matches(lq, Last(es)) {
        SubseqSnocBoth(m, Init(es), Last(es));
        assert Matching(es, lq) == m + [Last(es)];
      } else {
        SubseqSnoc(m, Init(es), Last(es));
        assert Matching(es, lq) == m;
      }
    }
  }

  /** A common last element extends a subsequence on both sides. */
  lemma SubseqSnocBoth<T>(q: seq<T>, s: seq<T>, x: T)
    requires IsSubseq(q, s)
    ensures IsSubseq(q + [x], s + [x])
  {
    assert Init(q + [x]) == q && Last(q + [x]) == x;
    assert Init(s + [x]) == s && Last(s + [x]) == x;
  }

  /** A subsequence stays one when the sequence grows at the end. */
  lemma SubseqSnoc<T>(q: seq<T>, s: seq<T>, x: T)
    requires IsSubseq(q, s)
    ensures IsSubseq(q, s + [x])
  {
    assert Init(s + [x]) == s;
  }

  /** An empty query matches every entry. */
  lemma {:induction false} MatchingEmptyQuery(es: seq<string>)
    ensures Matching(es, []) == es
    decreases |es|
  {
    if |es| > 0 {
      MatchingEmptyQuery(Init(es));
      assert Init(es) + [Last(es)] == es;
    }
  }

  lemma GreedySnoc<T>(q: seq<T>, s: seq<T>, d: T)
    ensures Greedy(q, s + [d]) == var k := Greedy(q, s); if k < |q| && q[k] == d then k + 1 else k
  {
    assert Init(s + [d]) == s && Last(s + [d]) == d;
  }

  /** Reading a terminator closes the current entry and reports it when the whole query was consumed. */
  lemma SubseqScanNul(pre: string, lq: string)
    ensures Entries(pre + [NUL]) == Entries(pre) + [Tail(pre)]
    ensures Tail(pre + [NUL]) == []
    ensures Matching(Entries(pre + [NUL]), lq)
         == Matching(Entries(pre), lq)
            + (if Greedy(lq, Lower(Tail(pre))) == |lq| then [Tail(pre)] else [])
  {
    EntriesTerminate(pre);
    var es := Entries(pre) + [Tail(pre)];
    assert Init(es) == Entries(pre) && Last(es) == Tail(pre);
    GreedyAgrees(lq, Lower(Tail(pre)));
  }

  /** Reading any other character extends the current entry and may advance the query. */
  lemma SubseqScanChar(pre: string, c: char, lq: string)
    requires c != NUL
    ensures Entries(pre + [c]) == Entries(pre)
    ensures Tail(pre + [c]) == Tail(pre) + [c]
    ensures Greedy(lq, Lower(Tail(pre + [c])))
         == var k := Greedy(lq, Lower(Tail(pre))); if k < |lq| && lq[k] == ToLower(c) then k + 1 else k
  {
    EntriesAppendNulFree(pre, [c]);
    LowerSnoc(Tail(pre), c);
    GreedySnoc(lq, Lower(Tail(pre)), ToLower(c));
  }

  /**
   * The state of the `find_all_subsequences` loop after reading `pre`, step by
   * step as the loop computes it: the results so far and how much of the
   * query the current entry has consumed.
   */
  function SubseqScan(pre: string, lq: string): (st: (seq<string>, nat))
    decreases |pre|
  {
    if |pre| == 0 then ([], 0)
    else
      var st := SubseqScan(Init(pre), lq);
      var c := Last(pre);
      if c == NUL then (st.0 + (if st.1 == |lq| then [Tail(Init(pre))] else []), 0)
      else if st.1 < |lq| && ToLower(c) == lq[st.1] then (st.0, st.1 + 1)
      else st
  }

  /** The loop state means: the matching entries so far, and the greedy position in the current one. */
  lemma {:induction false} SubseqScanMeaning(pre: string, lq: string)
    ensures SubseqScan(pre, lq) == (Matching(Entries(pre), lq), Greedy(lq, Lower(Tail(pre))))
    decreases |pre|
  {
    if |pre| > 0 {
      var front := Init(pre);
      SubseqScanMeaning(front, lq);
      assert pre == front + [Last(pre)];
      if Last(pre) == NUL {
        SubseqScanNul(front, lq);
      } else {
        SubseqScanChar(front, Last(pre), lq);
      }
    }
  }

  /** One more character of the buffer: where the unterminated tail starts afterwards. */
  lemma ScanTailStep(buf: string, base: nat, ii: nat)
    requires base <= ii < |buf| && buf[base..ii] == Tail(buf[..ii])
    ensures buf[..ii + 1] == buf[..ii] + [buf[ii]]
    ensures buf[ii] == NUL ==> buf[ii + 1..ii + 1] == Tail(buf[..ii + 1])
    ensures buf[ii] != NUL ==> buf[base..ii + 1] == Tail(buf[..ii + 1])
  {
    var pre := buf[..ii + 1];
    assert Init(pre) == buf[..ii] && Last(pre) == buf[ii];
    if buf[ii] != NUL {
      assert buf[base..ii + 1] == buf[base..ii] + [buf[ii]];
    }
  }

  lemma SubseqScanSnoc(pre: string, c: char, lq: string)
    ensures var st := SubseqScan(pre, lq);
      SubseqScan(pre + [c], lq)
        == if c == NUL then (st.0 + (if st.1 == |lq| then [Tail(pre)] else []), 0)
           else if st.1 < |lq| && ToLower(c) == lq[st.1] then (st.0, st.1 + 1)
           else st
  {
    assert Init(pre + [c]) == pre && Last(pre + [c]) == c;
  }

  /**
   * `find_all_subsequences`: the entries of which the lower-cased query is a
   * subsequence, compared case-insensitively, in buffer order. Characters after
   * the last NUL are scanned but never reported.
   */
  method FindAllSubsequences(sb: SearchBuffer, search: string) returns (results: seq<string>)
    ensures results == Matching(Entries(sb.buf), Lower(search))
  {
    var buf := sb.buf;
    var lq := Lower(search);
    results := [];
    var base := 0;
    var k: nat := 0;
    var ii := 0;
    while ii < |buf|
      invariant 0 <= base <= ii <= |buf|
      invariant buf[base..ii] == Tail(buf[..ii])
      invariant results == SubseqScan(buf[..ii], lq).0
      invariant k == SubseqScan(buf[..ii], lq).1
    {
      var c := buf[ii];
      ScanTailStep(buf, base, ii);
      SubseqScanSnoc(buf[..ii], c, lq);
      if c == NUL {
        if k == |lq| {
          results := results + [buf[base..ii]];
        }
        base := ii + 1;
        k := 0;
      } else if k < |lq| && ToLower(c) == lq[k] {
        k := k + 1;
      }
      ii := ii + 1;
    }
    assert buf[..|buf|] == buf;
    SubseqScanMeaning(buf, lq);
  }

  // ---------------------------------------------------------------------------
  // First occurrence of a character
  // ---------------------------------------------------------------------------

  /** The part of `s` before its first character that lower-cases to `lc`, if there is one. */
  function Before(s: string, lc: char): (r: Option<string>)
    ensures r.None? <==> forall i :: 0 <= i < |s| ==> ToLower(s[i]) != lc
    ensures r.Some? ==> |r.value| < |s| && r.value == s[..|r.value|] && ToLower(s[|r.value|]) == lc
    ensures r.Some? ==> forall i :: 0 <= i < |r.value| ==> ToLower(s[i]) != lc
    decreases |s|
  {
    if |s| == 0 then None
    else match Before(Init(s), lc)
      case Some(p) => Some(p)
      case None => if ToLower(Last(s)) == lc then Some(Init(s)) else None
  }

  /** What one piece adds to the results: its part before the character, if it contains it. */
  function Hit(s: string, lc: char): seq<string>
  {
    match Before(s, lc)
    case Some(p) => [p]
    case None => []
  }

  /** One result per piece that contains the character: the part before its first occurrence. */
  function Prefixes(pieces: seq<string>, lc: char): (r: seq<string>)
    ensures |r| <= |pieces|
    decreases |pieces|
  {
    if |pieces| == 0 then []
    else Prefixes(Init(pieces), lc) + Hit(Last(pieces), lc)
  }

  lemma PrefixesSnoc(pieces: seq<string>, s: string, lc: char)
    ensures Prefixes(pieces + [s], lc) == Prefixes(pieces, lc) + Hit(s, lc)
  {
    assert Init(pieces + [s]) == pieces;
  }

  /** A piece with no occurrence contributes nothing, wherever it sits. */
  lemma PrefixesEmptyPiece(pieces: seq<string>, lc: char)
    ensures Prefixes(pieces + [[]], lc) == Prefixes(pieces, lc)
  {
    PrefixesSnoc(pieces, [], lc);
  }

  lemma BeforeSnoc(t: string, c: char, lc: char)
    ensures Before(t + [c], lc)
         == if Before(t, lc).Some? then Before(t, lc) else if ToLower(c) == lc then Some(t) else None
  {
    assert Init(t + [c]) == t && Last(t + [c]) == c;
  }

  /** The pieces the scan of `find_all_containing_char` goes over: every entry, then the tail. */
  function Pieces(buf: string): seq<string>
  {
    Entries(buf) + [Tail(buf)]
  }

  /**
   * The state of the `find_all_containing_char` loop after reading `pre`: the
   * results so far and whether the rest of the current entry is being skipped.
   */
  function CharScan(pre: string, lc: char): (st: (seq<string>, bool))
    decreases |pre|
  {
    if |pre| == 0 then ([], false)
    else
      var st := CharScan(Init(pre), lc);
      var c := Last(pre);
      if c == NUL then (st.0, false)
      else if st.1 then st
      else if ToLower(c) == lc then (st.0 + [Tail(Init(pre))], true)
      else st
  }

  lemma CharScanSnoc(pre: string, c: char, lc: char)
    ensures var st := CharScan(pre, lc);
      CharScan(pre + [c], lc)
        == if c == NUL then (st.0, false)
           else if st.1 then st
           else if ToLower(c) == lc then (st.0 + [Tail(pre)], true)
           else st
  {
    assert Init(pre + [c]) == pre && Last(pre + [c]) == c;
  }

  /** The loop state means: one prefix per piece seen so far, and whether the current piece already gave one. */
  lemma {:induction false} CharScanMeaning(pre: string, lc: char)
    ensures CharScan(pre, lc) == (Prefixes(Pieces(pre), lc), Before(Tail(pre), lc).Some?)
    decreases |pre|
  {
    if |pre| > 0 {
      var front := Init(pre);
      var c := Last(pre);
      CharScanMeaning(front, lc);
      assert pre == front + [c];
      if c == NUL {
        EntriesTerminate(front);
        PrefixesEmptyPiece(Pieces(front), lc);
      } else {
        EntriesAppendNulFree(front, [c]);
        assert Tail(pre) == Tail(front) + [c] && Entries(pre) == Entries(front);
        BeforeSnoc(Tail(front), c, lc);
        var e := Prefixes(Entries(front), lc);
        PrefixesSnoc(Entries(front), Tail(front), lc);
        PrefixesSnoc(Entries(front), Tail(front) + [c], lc);
        assert Prefixes(Pieces(front), lc) == e + Hit(Tail(front), lc);
        assert Prefixes(Pieces(pre), lc) == e + Hit(Tail(front) + [c], lc);
        var st := CharScan(front, lc);
        if !st.1 && ToLower(c) == lc {
          assert Hit(Tail(front), lc) == [];
          assert Hit(Tail(front) + [c], lc) == [Tail(front)];
          assert st.0 == e;
        } else {
          assert Hit(Tail(front) + [c], lc) == Hit(Tail(front), lc);
        }
      }
    }
  }

  /**
   * `find_all_containing_char`: for each entry containing the character
   * (compared case-insensitively), the part of it before the first occurrence.
   * An unterminated tail is scanned too. The character must not be NUL, or the
   * source would slice backwards at the first terminator.
   */
  method FindAllContainingChar(sb: SearchBuffer, search: char) returns (results: seq<string>)
    requires search != NUL
    ensures results == Prefixes(Pieces(sb.buf), ToLower(search))
    ensures Valid(sb) ==> results == Prefixes(Entries(sb.buf), ToLower(search))
  {
    var buf := sb.buf;
    var lc := ToLower(search);
    results := [];
    var base := 0;
    var skipping := false;
    var ii := 0;
    while ii < |buf|
      invariant 0 <= base <= ii <= |buf|
      invariant buf[base..ii] == Tail(buf[..ii])
      invariant results == CharScan(buf[..ii], lc).0
      invariant skipping == CharScan(buf[..ii], lc).1
    {
      var c := buf[ii];
      ScanTailStep(buf, base, ii);
      CharScanSnoc(buf[..ii], c, lc);
      if c == NUL {
        skipping := false;
        base := ii + 1;
      }
      if !skipping && lc == ToLower(c) {
        results := results + [buf[base..ii]];
        skipping := true;
      }
      ii := ii + 1;
    }
    assert buf[..|buf|] == buf;
    CharScanMeaning(buf, lc);
    if Valid(sb) {
      PrefixesEmptyPiece(Entries(buf), lc);
    }
  }
}

=== FILE: state.dfy ===
/**
 * The application state (`state/mod.rs`) and the selection rule of the select
 * commands (`command/select.rs`). Locks and the shared `Arc` are dropped: the
 * state is one record, and an event maps it to the next one. A prompt's
 * callback is not stored; a finished prompt hands its inputs back instead.
 */
module AppState {
  import opened Wrappers
  import opened Keys
  import Text
  import Search
  import Commands
  import InputTrie
  import Prompts
  import Projects

  datatype State = State(
    project: Projects.Project,
    commandBuffer: Commands.CommandBuffer,
    currPrompt: Option<Prompts.PromptInput>)

  /**
   * The command buffer keeps its invariant, and a prompt on show is well formed
   * with its selection pointing into its completions.
   */
  predicate Inv(st: State)
  {
    && Commands.Inv(st.commandBuffer)
    && (st.currPrompt.Some? ==> Prompts.Inv(st.currPrompt.value) && Prompts.ActiveInRange(st.currPrompt.value))
  }

  /** `State::new`: an empty project, the default command buffer, no prompt. */
  function New(): (st: State)
    ensures Inv(st) && st.currPrompt.None?
    ensures st.project == Projects.New()
    ensures st.commandBuffer.inputBuf == [] && st.commandBuffer.cmdBuf == [] && st.commandBuffer.trie == Commands.DefaultTrie
  {
    State(Projects.New(), Commands.New(), None)
  }

  /**
   * `State::prompt`: shows a prompt for `prompts` unless one is already on
   * show, which it never replaces. Its doc comment promises false in that case;
   * the code returns true in both branches.
   */
  function Prompt(st: State, prompts: seq<Prompts.PromptType>): (r: (State, bool))
    requires Inv(st) && |prompts| > 0
    ensures Inv(r.0) && r.1
    ensures r.0.project == st.project && r.0.commandBuffer == st.commandBuffer
    ensures st.currPrompt.Some? ==> r.0 == st
    ensures st.currPrompt.None? ==>
      && r.0.currPrompt.Some? && r.0.currPrompt.value.prompts == prompts
      && r.0.currPrompt.value.currPrompt == 0 && r.0.currPrompt.value.activeCompletion.None?
      && forall i :: 0 <= i < |prompts| ==> r.0.currPrompt.value.inputs[i] == ""
  {
    if st.currPrompt.Some? then (st, true)
    else (st.(currPrompt := Some(Prompts.New(prompts))), true)
  }

  // ---------------------------------------------------------------------------
  // Events
  // ---------------------------------------------------------------------------

  datatype ElementState = Pressed | Released

  /** The window events the dispatcher looks at; every other event is `Other`. */
  datatype Event =
    | KeyboardInput(keycode: Option<Key>, state: ElementState, modifiers: ModifiersState)
    | ReceivedCharacter(c: char)
    | Other

  /**
   * The outcome of one event: the next state, the source's return value
   * (whether the event was used), and the inputs a prompt finished with.
   */
  datatype Step = Step(state: State, used: bool, finished: Option<seq<string>>)

  /** A key event the dispatcher handles: pressed, with a key code. */
  predicate Handled(ev: Event)
  {
    ev.KeyboardInput? && ev.keycode.Some? && ev.state == Pressed
  }

  /** Ctrl alone (the mask 0b0100) with the G key: the cancel chord. */
  predicate IsCancel(ev: Event)
    requires Handled(ev)
  {
    ModsToBitflags(ev.modifiers) == CTRL && ev.keycode.value == G
  }

  /** The chord a handled key event becomes. */
  function ChunkOf(ev: Event): InputChunk
    requires Handled(ev)
  {
    FromModifiersState(ev.keycode.value, ev.modifiers)
  }

  /**
   * `State::process_input`. A handled key event first cancels on Ctrl-G
   * (pending chords and the prompt are dropped), then goes to the prompt, if
   * one is on show, followed by a completion refresh, or else to the command
   * buffer. A character goes to the prompt only; when it finishes the prompt,
   * the prompt is dropped and its inputs are handed back, otherwise completions
   * are refreshed. Completions are refreshed by the corrected
   * `update_completions` (see `Prompts.UpdateCompletions`).
   */
  function ProcessInput(st: State, ev: Event): (r: Step)
    requires Inv(st)
    ensures Inv(r.state) && r.state.project == st.project
    ensures r.used <==> Handled(ev)
    ensures r.finished.Some? ==>
      && ev.ReceivedCharacter? && st.currPrompt.Some? && r.state.currPrompt.None?
      && |r.finished.value| == |st.currPrompt.value.prompts|
    ensures !Handled(ev) && !ev.ReceivedCharacter? ==> r.state == st
    ensures ev.ReceivedCharacter? ==> r.state.commandBuffer == st.commandBuffer
  {
    match ev
    case KeyboardInput(kc, es, mods) =>
      if Handled(ev) then
        var s := if IsCancel(ev)
          then st.(commandBuffer := Commands.ResetInput(st.commandBuffer), currPrompt := None)
          else st;
        var x := ChunkOf(ev);
        if s.currPrompt.Some? then
          var pi := s.currPrompt.value;
          var q := Prompts.UpdateCompletions(Prompts.KeyInput(pi, x), s.project.pkgCompletionList);
          Prompts.TabKeepsActiveInRange(pi, x);
          Step(s.(currPrompt := Some(q)), true, None)
        else
          Step(s.(commandBuffer := Commands.AddKey(s.commandBuffer, x)), true, None)
      else Step(st, false, None)
    case ReceivedCharacter(c) =>
      if st.currPrompt.Some? then
        var res := Prompts.CharInput(st.currPrompt.value, c);
        if res.1 then Step(st.(currPrompt := None), false, Some(res.0.inputs))
        else Step(st.(currPrompt := Some(Prompts.UpdateCompletions(res.0, st.project.pkgCompletionList))), false, None)
      else Step(st, false, None)
    case Other => Step(st, false, None)
  }

  // ---------------------------------------------------------------------------
  // Routing
  // ---------------------------------------------------------------------------

  /** A chord other than Ctrl-G goes to the prompt on show, and the command buffer does not see it. */
  lemma KeyToPrompt(st: State, ev: Event)
    requires Inv(st) && Handled(ev) && !IsCancel(ev) && st.currPrompt.Some?
    ensures var r := ProcessInput(st, ev);
      && r.state.commandBuffer == st.commandBuffer
      && r.state.currPrompt == Some(Prompts.UpdateCompletions(Prompts.KeyInput(st.currPrompt.value, ChunkOf(ev)), st.project.pkgCompletionList))
  {
  }

  /** Without a prompt, a chord other than Ctrl-G goes to the command buffer only. */
  lemma KeyToCommands(st: State, ev: Event)
    requires Inv(st) && Handled(ev) && !IsCancel(ev) && st.currPrompt.None?
    ensures var r := ProcessInput(st, ev);
      r.state == st.(commandBuffer := Commands.AddKey(st.commandBuffer, ChunkOf(ev)))
  {
  }

  /** After Ctrl-G the chord itself goes to the emptied command buffer, never to a prompt. */
  lemma CancelRoutesToCommands(st: State, ev: Event)
    requires Inv(st) && Handled(ev) && IsCancel(ev)
    ensures var r := ProcessInput(st, ev);
      && r.used && r.finished.None? && r.state.currPrompt.None?
      && r.state.commandBuffer == Commands.AddKey(Commands.ResetInput(st.commandBuffer), ChunkOf(ev))
  {
  }

  /**
   * Ctrl-G drops the prompt, drops pending chords and is then itself fed to the
   * command buffer; when no command starts with it, nothing is pending
   * afterwards and the queue of recognised commands is untouched.
   */
  lemma CancelClears(st: State, ev: Event)
    requires Inv(st) && Handled(ev) && IsCancel(ev)
    requires InputTrie.AdvanceNodeRef(st.commandBuffer.trie, None, ChunkOf(ev)).None?
    ensures var r := ProcessInput(st, ev);
      && r.state.currPrompt.None? && r.used
      && r.state.commandBuffer == st.commandBuffer.(inputBuf := [], nodeRef := None)
  {
    var b := Commands.ResetInput(st.commandBuffer);
    var x := ChunkOf(ev);
    assert b.inputBuf + [x] == [x];
    assert [x][0] == x;
    Commands.AddKeyBreaks(b, x);
  }

  /** No default mapping starts with Ctrl-G. */
  lemma DefaultIgnoresCancel(ev: Event)
    requires Handled(ev) && IsCancel(ev)
    ensures InputTrie.AdvanceNodeRef(Commands.DefaultTrie, None, ChunkOf(ev)).None?
  {
    InputTrie.AdvanceNodeRefSpec(Commands.DefaultTrie, None, ChunkOf(ev));
  }

  /** A character without a prompt on show changes nothing. */
  lemma CharWithoutPrompt(st: State, c: char)
    requires Inv(st) && st.currPrompt.None?
    ensures ProcessInput(st, ReceivedCharacter(c)) == Step(st, false, None)
  {
  }

  /**
   * Enter on the last slot finishes the prompt: it is dropped and its inputs
   * are handed back unchanged. Enter on an earlier slot moves to the next one.
   */
  lemma EnterFinishes(st: State, c: char)
    requires Inv(st) && st.currPrompt.Some? && (c == '\r' || c == '\n')
    ensures var pi, r := st.currPrompt.value, ProcessInput(st, ReceivedCharacter(c));
      && (r.finished.Some? <==> pi.currPrompt == |pi.prompts| - 1)
      && (r.finished.Some? ==> r.finished.value == pi.inputs && r.state.currPrompt.None?)
      && (r.finished.None? ==>
            && r.state.currPrompt.Some? && r.state.currPrompt.value.currPrompt == pi.currPrompt + 1
            && r.state.currPrompt.value.inputs == pi.inputs)
  {
  }

  /** The completions on show agree with the current input. */
  predicate Fresh(pi: Prompts.PromptInput, pkgList: Search.SearchBuffer)
    requires Prompts.Inv(pi)
  {
    pi.currCompletions == Prompts.Completions(pi.prompts[pi.currPrompt], pkgList, Prompts.GetCurrInput(pi))
  }

  /**
   * With fresh completions and nothing selected, typing a printable character
   * and then pressing Backspace (no Ctrl-G) gives back the state as it was.
   */
  lemma TypeThenBackspace(st: State, c: char, ev: Event)
    requires Inv(st) && st.currPrompt.Some? && st.currPrompt.value.activeCompletion.None?
    requires Fresh(st.currPrompt.value, st.project.pkgCompletionList)
    requires c != '\r' && c != '\n' && !Text.IsControl(c)
    requires Handled(ev) && ev.keycode.value == Back
    ensures var s := ProcessInput(st, ReceivedCharacter(c)).state;
      ProcessInput(s, ev).state == st
  {
    var pi := st.currPrompt.value;
    var pkg := st.project.pkgCompletionList;
    var typed := Prompts.CharInput(pi, c).0;
    var shown := Prompts.UpdateCompletions(typed, pkg);
    var s := ProcessInput(st, ReceivedCharacter(c)).state;
    assert s == st.(currPrompt := Some(shown));
    assert !IsCancel(ev);
    var back := Prompts.KeyInput(shown, ChunkOf(ev));
    Prompts.BackUndoesChar(pi, c, ChunkOf(ev).mods);
    assert back == Prompts.KeyInput(typed, ChunkOf(ev)).(currCompletions := shown.currCompletions);
    assert Prompts.UpdateCompletions(back, pkg) == pi;
  }

  // ---------------------------------------------------------------------------
  // The dispatcher as written
  // ---------------------------------------------------------------------------

  /**
   * What the source keeps between events: the command buffer's invariant and a
   * well-formed prompt, whose selection may point anywhere.
   */
  predicate InvAsWritten(st: State)
  {
    && Commands.Inv(st.commandBuffer)
    && (st.currPrompt.Some? ==> Prompts.Inv(st.currPrompt.value))
  }

  /**
   * The events on which `process_input` as written panics inside the prompt:
   * a Tab that underflows `len() - 1`, or a printable character that indexes
   * past the completions.
   */
  predicate PanicsAsWritten(st: State, ev: Event)
  {
    match ev
    case KeyboardInput(_, _, _) =>
      Handled(ev) && !IsCancel(ev) && st.currPrompt.Some? && Prompts.TabUnderflows(st.currPrompt.value, ChunkOf(ev))
    case ReceivedCharacter(c) => st.currPrompt.Some? && Prompts.CharPanics(st.currPrompt.value, c)
    case Other => false
  }

  /**
   * `State::process_input` with the refresh as written
   * (`Prompts.UpdateCompletionsAsWritten`), which keeps the selection whatever
   * the new list is. The routing is that of `ProcessInput`.
   */
  function ProcessInputAsWritten(st: State, ev: Event): (r: Step)
    requires InvAsWritten(st) && !PanicsAsWritten(st, ev)
    ensures InvAsWritten(r.state) && r.state.project == st.project
    ensures r.used <==> Handled(ev)
    ensures r.finished.Some? ==>
      && ev.ReceivedCharacter? && st.currPrompt.Some? && r.state.currPrompt.None?
      && |r.finished.value| == |st.currPrompt.value.prompts|
    ensures !Handled(ev) && !ev.ReceivedCharacter? ==> r.state == st
    ensures ev.ReceivedCharacter? ==> r.state.commandBuffer == st.commandBuffer
  {
    match ev
    case KeyboardInput(kc, es, mods) =>
      if Handled(ev) then
        var s := if IsCancel(ev)
          then st.(commandBuffer := Commands.ResetInput(st.commandBuffer), currPrompt := None)
          else st;
        var x := ChunkOf(ev);
        if s.currPrompt.Some? then
          var q := Prompts.UpdateCompletionsAsWritten(Prompts.KeyInput(s.currPrompt.value, x), s.project.pkgCompletionList);
          Step(s.(currPrompt := Some(q)), true, None)
        else
          Step(s.(commandBuffer := Commands.AddKey(s.commandBuffer, x)), true, None)
      else Step(st, false, None)
    case ReceivedCharacter(c) =>
      if st.currPrompt.Some? then
        var res := Prompts.CharInput(st.currPrompt.value, c);
        if res.1 then Step(st.(currPrompt := None), false, Some(res.0.inputs))
        else Step(st.(currPrompt := Some(Prompts.UpdateCompletionsAsWritten(res.0, st.project.pkgCompletionList))), false, None)
      else Step(st, false, None)
    case Other => Step(st, false, None)
  }

  /**
   * As written, a chord other than Ctrl-G goes to the prompt on show, and the
   * refresh replaces the completions while the selection stays what the key
   * left it.
   */
  lemma KeyToPromptAsWritten(st: State, ev: Event)
    requires InvAsWritten(st) && Handled(ev) && !IsCancel(ev) && st.currPrompt.Some? && !PanicsAsWritten(st, ev)
    ensures var r, k := ProcessInputAsWritten(st, ev), Prompts.KeyInput(st.currPrompt.value, ChunkOf(ev));
      && r.state.commandBuffer == st.commandBuffer && r.state.currPrompt.Some?
      && r.state.currPrompt.value.activeCompletion == k.activeCompletion
      && r.state.currPrompt.value.currCompletions == Prompts.Completions(k.prompts[k.currPrompt], st.project.pkgCompletionList, Prompts.GetCurrInput(k))
      && r.state.currPrompt.value == k.(currCompletions := r.state.currPrompt.value.currCompletions)
  {
  }

  /**
   * From a state whose selection points into its list, the source does not
   * panic, and the two dispatchers agree on everything except the selection:
   * the corrected one either keeps the selection the source keeps or drops it.
   */
  lemma AsWrittenDiffersOnlyInSelection(st: State, ev: Event)
    requires Inv(st)
    ensures InvAsWritten(st) && !PanicsAsWritten(st, ev)
    ensures var a, b := ProcessInputAsWritten(st, ev), ProcessInput(st, ev);
      && a.used == b.used && a.finished == b.finished
      && a.state.project == b.state.project && a.state.commandBuffer == b.state.commandBuffer
      && (a.state.currPrompt.Some? <==> b.state.currPrompt.Some?)
      && (b.state.currPrompt.Some? ==>
            && b.state.currPrompt.value == a.state.currPrompt.value.(activeCompletion := b.state.currPrompt.value.activeCompletion)
            && (b.state.currPrompt.value.activeCompletion.None?
                || b.state.currPrompt.value.activeCompletion == a.state.currPrompt.value.activeCompletion))
  {
  }

  /** Feeds events in order through the dispatcher as written; None once one of them panics. */
  function RunAsWritten(st: State, evs: seq<Event>): (r: Option<State>)
    requires InvAsWritten(st)
    ensures r.Some? ==> InvAsWritten(r.value) && r.value.project == st.project
    decreases |evs|
  {
    if |evs| == 0 then Some(st)
    else if PanicsAsWritten(st, evs[0]) then None
    else RunAsWritten(ProcessInputAsWritten(st, evs[0]).state, evs[1..])
  }

  /** Feeds events in order through the corrected dispatcher, which never panics. */
  function Run(st: State, evs: seq<Event>): (r: State)
    requires Inv(st)
    ensures Inv(r) && r.project == st.project
    decreases |evs|
  {
    if |evs| == 0 then st else Run(ProcessInput(st, evs[0]).state, evs[1..])
  }

  const NoMods: ModifiersState := ModifiersState(false, false, false, false)
  const TabKey: Event := KeyboardInput(Some(Tab), Pressed, NoMods)
  const BackKey: Event := KeyboardInput(Some(Back), Pressed, NoMods)

  /** A package list holding "a" then "b". */
  const AbList: Search.SearchBuffer := Search.SearchBuffer("a" + [Text.NUL] + "b" + [Text.NUL])

  /** One package slot. */
  const OneSlot: seq<Prompts.PromptType> := [Prompts.Package(Prompts.Prompt("Package", true))]

  /**
   * A character that does not finish the prompt on show is typed into it, and
   * the completions are refreshed: as written keeping the selection, corrected
   * dropping a selection the new list no longer backs.
   */
  lemma CharToPrompt(st: State, c: char)
    requires InvAsWritten(st) && st.currPrompt.Some? && !Prompts.CharPanics(st.currPrompt.value, c)
    requires !Prompts.CharInput(st.currPrompt.value, c).1
    ensures var typed := Prompts.CharInput(st.currPrompt.value, c).0;
      && ProcessInputAsWritten(st, ReceivedCharacter(c)).state
         == st.(currPrompt := Some(Prompts.UpdateCompletionsAsWritten(typed, st.project.pkgCompletionList)))
      && (Inv(st) ==> ProcessInput(st, ReceivedCharacter(c)).state
                      == st.(currPrompt := Some(Prompts.UpdateCompletions(typed, st.project.pkgCompletionList))))
  {
  }

  lemma RunAsWrittenCons(st: State, e: Event, evs: seq<Event>)
    requires InvAsWritten(st) && !PanicsAsWritten(st, e)
    ensures RunAsWritten(st, [e] + evs) == RunAsWritten(ProcessInputAsWritten(st, e).state, evs)
  {
    assert ([e] + evs)[1..] == evs;
  }

  lemma RunCons(st: State, e: Event, evs: seq<Event>)
    requires Inv(st)
    ensures Run(st, [e] + evs) == Run(ProcessInput(st, e).state, evs)
  {
    assert ([e] + evs)[1..] == evs;
  }

  const BackChunk: InputChunk := InputChunk(Back, 0)

  lemma NoModsChunks()
    ensures Handled(TabKey) && ChunkOf(TabKey) == Prompts.TabChunk && !IsCancel(TabKey)
    ensures Handled(BackKey) && ChunkOf(BackKey) == BackChunk && !IsCancel(BackKey)
  {
    assert ModsToBitflags(NoMods) == 0;
  }

  lemma AbListCompletions(p: Prompts.Prompt)
    ensures Prompts.Completions(Prompts.Package(p), AbList, "") == ["a", "b"]
    ensures Prompts.Completions(Prompts.Package(p), AbList, "b") == ["b"]
  {
    Search.AppendEntry([], "a");
    assert [] + "a" + [Text.NUL] == "a" + [Text.NUL];
    Search.AppendEntry("a" + [Text.NUL], "b");
    assert Search.Entries(AbList.buf) == ["a", "b"];
    Search.MatchingEmptyQuery(["a", "b"]);
    assert Text.Lower("b") == "b";
    assert !Search.IsSubseq("b", Text.Lower("a"));
    assert Search.IsSubseq("b", Text.Lower("b"));
    assert Search.Matching(["a", "b"], "b") == Search.Matching(["a"], "b") + ["b"];
    assert Search.Matching(["a"], "b") == Search.Matching([], "b");
  }

  // The prompts along the trace of StaleSelectionRenames.
  const R0: Prompts.PromptInput := Prompts.PromptInput(OneSlot, [""], 0, [], None)
  const R1: Prompts.PromptInput := Prompts.PromptInput(OneSlot, ["b"], 0, ["b"], None)
  const R2: Prompts.PromptInput := Prompts.PromptInput(OneSlot, ["b"], 0, ["b"], Some(0))
  const R3: Prompts.PromptInput := Prompts.PromptInput(OneSlot, [""], 0, ["a", "b"], Some(0))
  const R3c: Prompts.PromptInput := Prompts.PromptInput(OneSlot, [""], 0, ["a", "b"], None)

  lemma RenamesType()
    ensures !Prompts.CharInput(R0, 'b').1
    ensures Prompts.UpdateCompletionsAsWritten(Prompts.CharInput(R0, 'b').0, AbList) == R1
    ensures Prompts.UpdateCompletions(Prompts.CharInput(R0, 'b').0, AbList) == R1
  {
    assert !Text.IsControl('b') && "" + ['b'] == "b" && [""][0 := "b"] == ["b"];
    var typed := Prompts.PromptInput(OneSlot, ["b"], 0, [], None);
    assert Prompts.CharInput(R0, 'b') == (typed, false);
    AbListCompletions(OneSlot[0].prompt);
  }

  lemma RenamesTab()
    ensures Prompts.UpdateCompletionsAsWritten(Prompts.KeyInput(R1, Prompts.TabChunk), AbList) == R2
    ensures Prompts.UpdateCompletions(Prompts.KeyInput(R1, Prompts.TabChunk), AbList) == R2
  {
    assert Prompts.KeyInput(R1, Prompts.TabChunk) == R1.(activeCompletion := Some(0));
    AbListCompletions(OneSlot[0].prompt);
  }

  lemma RenamesBack()
    ensures Prompts.UpdateCompletionsAsWritten(Prompts.KeyInput(R2, BackChunk), AbList) == R3
    ensures Prompts.UpdateCompletions(Prompts.KeyInput(R2, BackChunk), AbList) == R3c
  {
    assert "b"[..0] == "";
    var back := Prompts.PromptInput(OneSlot, [""], 0, ["b"], Some(0));
    assert Prompts.KeyInput(R2, BackChunk) == back;
    AbListCompletions(OneSlot[0].prompt);
  }

  lemma RenamesNext()
    ensures !Prompts.CharPanics(R3, 'q') && !Prompts.CharPanics(R3c, 'q')
    ensures Prompts.CharInput(R3, 'q').0.inputs == ["aq"] && !Prompts.CharInput(R3, 'q').1
    ensures Prompts.CharInput(R3c, 'q').0.inputs == ["q"] && !Prompts.CharInput(R3c, 'q').1
  {
    assert !Text.IsControl('q') && "a" + ['q'] == "aq" && "" + ['q'] == "q";
  }

  /**
   * As written, a kept selection can silently name another entry. With "a"
   * and "b" on offer and a new one-slot package prompt, typing b narrows the
   * list to ["b"] and Tab selects it; Backspace brings back ["a", "b"] with
   * the selection still 0, which now names "a", so the next character q
   * gives "aq". The corrected refresh drops the selection there and gives "q".
   */
  lemma StaleSelectionRenames(st: State)
    requires Inv(st) && st.currPrompt == Some(Prompts.New(OneSlot)) && st.project.pkgCompletionList == AbList
    ensures var evs := [ReceivedCharacter('b'), TabKey, BackKey, ReceivedCharacter('q')];
      && RunAsWritten(st, evs).Some? && RunAsWritten(st, evs).value.currPrompt.Some?
      && RunAsWritten(st, evs).value.currPrompt.value.inputs == ["aq"]
      && Run(st, evs).currPrompt.Some? && Run(st, evs).currPrompt.value.inputs == ["q"]
  {
    var e0, e1, e2, e3 := ReceivedCharacter('b'), TabKey, BackKey, ReceivedCharacter('q');
    assert Prompts.New(OneSlot) == R0;
    NoModsChunks();
    RenamesType(); RenamesTab(); RenamesBack(); RenamesNext();
    var s1, s2 := st.(currPrompt := Some(R1)), st.(currPrompt := Some(R2));
    var s3, s3c := st.(currPrompt := Some(R3)), st.(currPrompt := Some(R3c));
    CharToPrompt(st, e0.c);
    KeyToPromptAsWritten(s1, e1); KeyToPrompt(s1, e1);
    KeyToPromptAsWritten(s2, e2); KeyToPrompt(s2, e2);
    CharToPrompt(s3, e3.c); CharToPrompt(s3c, e3.c);
    RunAsWrittenCons(s3, e3, []);
    RunAsWrittenCons(s2, e2, [e3]);
    RunAsWrittenCons(s1, e1, [e2, e3]);
    RunAsWrittenCons(st, e0, [e1, e2, e3]);
    RunCons(s3c, e3, []);
    RunCons(s2, e2, [e3]);
    RunCons(s1, e1, [e2, e3]);
    RunCons(st, e0, [e1, e2, e3]);
  }

  // The prompts along the trace of StaleSelectionPanics.
  const TwoSlotPrompts: seq<Prompts.PromptType> := [Prompts.Package(Prompts.Prompt("Package", true)), Prompts.String(Prompts.Prompt("Name", false))]
  const T0: Prompts.PromptInput := Prompts.PromptInput(TwoSlotPrompts, ["", ""], 0, [], None)
  const T1: Prompts.PromptInput := Prompts.PromptInput(TwoSlotPrompts, ["", ""], 0, ["com"], None)
  const T2: Prompts.PromptInput := Prompts.PromptInput(TwoSlotPrompts, ["", ""], 0, ["com"], Some(0))
  const T3: Prompts.PromptInput := Prompts.PromptInput(TwoSlotPrompts, ["", ""], 1, [], Some(0))
  const T3c: Prompts.PromptInput := Prompts.PromptInput(TwoSlotPrompts, ["", ""], 1, [], None)

  lemma PanicsFirstTab()
    ensures Prompts.UpdateCompletionsAsWritten(Prompts.KeyInput(T0, Prompts.TabChunk), Prompts.ComList) == T1
    ensures Prompts.UpdateCompletions(Prompts.KeyInput(T0, Prompts.TabChunk), Prompts.ComList) == T1
  {
    assert Prompts.KeyInput(T0, Prompts.TabChunk) == T0;
    Prompts.ComListCompletions(TwoSlotPrompts[0].prompt);
  }

  lemma PanicsSecondTab()
    ensures Prompts.UpdateCompletionsAsWritten(Prompts.KeyInput(T1, Prompts.TabChunk), Prompts.ComList) == T2
    ensures Prompts.UpdateCompletions(Prompts.KeyInput(T1, Prompts.TabChunk), Prompts.ComList) == T2
  {
    assert Prompts.KeyInput(T1, Prompts.TabChunk) == T2;
    Prompts.ComListCompletions(TwoSlotPrompts[0].prompt);
  }

  lemma PanicsEnter()
    ensures !Prompts.CharInput(T2, '\r').1
    ensures Prompts.UpdateCompletionsAsWritten(Prompts.CharInput(T2, '\r').0, Prompts.ComList) == T3
    ensures Prompts.UpdateCompletions(Prompts.CharInput(T2, '\r').0, Prompts.ComList) == T3c
  {
  }

  lemma PanicsNext()
    ensures Prompts.CharPanics(T3, 'a') && !Prompts.CharPanics(T3c, 'a')
    ensures Prompts.CharInput(T3c, 'a').0.inputs == ["", "a"] && !Prompts.CharInput(T3c, 'a').1
  {
    assert !Text.IsControl('a') && "" + ['a'] == "a";
  }

  /** The first three events of StaleSelectionPanics, as the two dispatchers see them. */
  lemma PanicsPrefix(st: State)
    requires Inv(st) && st.currPrompt == Some(T0) && st.project.pkgCompletionList == Prompts.ComList
    ensures var s1, s2 := st.(currPrompt := Some(T1)), st.(currPrompt := Some(T2));
      && ProcessInputAsWritten(st, TabKey).state == s1 && ProcessInput(st, TabKey).state == s1
      && ProcessInputAsWritten(s1, TabKey).state == s2 && ProcessInput(s1, TabKey).state == s2
      && ProcessInputAsWritten(s2, ReceivedCharacter('\r')).state == st.(currPrompt := Some(T3))
      && ProcessInput(s2, ReceivedCharacter('\r')).state == st.(currPrompt := Some(T3c))
  {
    NoModsChunks();
    PanicsFirstTab(); PanicsSecondTab(); PanicsEnter();
    var s1, s2 := st.(currPrompt := Some(T1)), st.(currPrompt := Some(T2));
    KeyToPromptAsWritten(st, TabKey); KeyToPrompt(st, TabKey);
    KeyToPromptAsWritten(s1, TabKey); KeyToPrompt(s1, TabKey);
    CharToPrompt(s2, '\r');
  }

  const PanicEvents: seq<Event> := [TabKey, TabKey, ReceivedCharacter('\r'), ReceivedCharacter('a')]

  lemma PanicsRunAsWritten(st: State)
    requires Inv(st) && st.currPrompt == Some(T0) && st.project.pkgCompletionList == Prompts.ComList
    ensures RunAsWritten(st, PanicEvents).None?
  {
    var e0, e1, e2, e3 := TabKey, TabKey, ReceivedCharacter('\r'), ReceivedCharacter('a');
    NoModsChunks();
    PanicsPrefix(st);
    PanicsNext();
    var s1, s2, s3 := st.(currPrompt := Some(T1)), st.(currPrompt := Some(T2)), st.(currPrompt := Some(T3));
    assert PanicsAsWritten(s3, e3);
    assert RunAsWritten(s3, [e3]).None?;
    RunAsWrittenCons(s2, e2, [e3]);
    RunAsWrittenCons(s1, e1, [e2, e3]);
    RunAsWrittenCons(st, e0, [e1, e2, e3]);
  }

  lemma PanicsRunCorrected(st: State)
    requires Inv(st) && st.currPrompt == Some(T0) && st.project.pkgCompletionList == Prompts.ComList
    ensures Run(st, PanicEvents).currPrompt.Some? && Run(st, PanicEvents).currPrompt.value.inputs == ["", "a"]
  {
    var e0, e1, e2, e3 := TabKey, TabKey, ReceivedCharacter('\r'), ReceivedCharacter('a');
    NoModsChunks();
    PanicsPrefix(st);
    PanicsNext();
    var s1, s2, s3c := st.(currPrompt := Some(T1)), st.(currPrompt := Some(T2)), st.(currPrompt := Some(T3c));
    CharToPrompt(s3c, e3.c);
    RunCons(s3c, e3, []);
    RunCons(s2, e2, [e3]);
    RunCons(s1, e1, [e2, e3]);
    RunCons(st, e0, [e1, e2, e3]);
  }

  /**
   * The panic of the as-written refresh, reached through events: a new
   * prompt with a package slot and a text slot over a list holding "com";
   * Tab (the refresh offers "com"), Tab (selects it), Enter (into the text
   * slot, which offers nothing, with the selection kept), then a printable
   * character indexes the empty list. The corrected dispatcher types the
   * character into the text slot.
   */
  lemma StaleSelectionPanics(st: State)
    requires Inv(st) && st.currPrompt == Some(Prompts.New(TwoSlotPrompts)) && st.project.pkgCompletionList == Prompts.ComList
    ensures var evs := [TabKey, TabKey, ReceivedCharacter('\r'), ReceivedCharacter('a')];
      && RunAsWritten(st, evs).None?
      && Run(st, evs).currPrompt.Some? && Run(st, evs).currPrompt.value.inputs == ["", "a"]
  {
    assert Prompts.New(TwoSlotPrompts) == T0;
    PanicsRunAsWritten(st);
    PanicsRunCorrected(st);
  }

  // ---------------------------------------------------------------------------
  // Selection (command/select.rs)
  // ---------------------------------------------------------------------------

  /** What a finished select prompt reports for its slot: the text, and whether it matched a completion. */
  datatype PromptResult = PromptResult(val: string, completionMatch: bool)

  /** The prompt `select_package` opens: one package slot that accepts empty input. */
  function SelectPackagePrompts(): (ps: seq<Prompts.PromptType>)
    ensures |ps| == 1 && ps[0].Package? && ps[0].prompt.allowEmpty
  {
    [Prompts.Package(Prompts.Prompt("Package Name", true))]
  }

  /** `select_package`: asks for a package name, unless a prompt is already on show. */
  function SelectPackage(st: State): (r: State)
    requires Inv(st)
    ensures Inv(r) && r.project == st.project && r.commandBuffer == st.commandBuffer
    ensures st.currPrompt.None? ==> r.currPrompt.Some? && r.currPrompt.value.prompts == SelectPackagePrompts()
    ensures st.currPrompt.Some? ==> r == st
  {
    Prompt(st, SelectPackagePrompts()).0
  }

  /**
   * The callback of `select_package`: the selection becomes the package typed
   * when it matched a completion, and nothing otherwise.
   */
  function OnSelectPackage(p: Projects.Project, data: seq<PromptResult>): (r: Projects.Project)
    requires |data| > 0
    ensures r.currSel.Some? <==> data[0].completionMatch
    ensures r.currSel.Some? ==> Projects.IsPackage(r.currSel.value, data[0].val)
    ensures r == p.(currSel := r.currSel)
  {
    if data[0].completionMatch then p.(currSel := Some(Projects.Package(data[0].val)))
    else p.(currSel := None)
  }

  /** The callback of `select_decl`: the same rule with a declaration selection. */
  function OnSelectDecl(p: Projects.Project, data: seq<PromptResult>): (r: Projects.Project)
    requires |data| > 0
    ensures r.currSel.Some? <==> data[0].completionMatch
    ensures r.currSel.Some? ==> Projects.IsDecl(r.currSel.value, data[0].val)
    ensures r == p.(currSel := r.currSel)
  {
    if data[0].completionMatch then p.(currSel := Some(Projects.Decl(data[0].val)))
    else p.(currSel := None)
  }
}

=== FILE: text.dfy ===
/**
 * Character and string helpers shared by the namespace, the search buffer and the
 * prompt: ASCII case folding, the control-character test, and splitting a dotted
 * name into its segments (Rust's `str::split(".")`) together with its inverse.
 */
module Text {

  /** The separator the search buffer puts after every entry. */
  const NUL: char := '\0'

  predicate IsUpper(c: char) { 'A' <= c <= 'Z' }

  predicate IsLower(c: char) { 'a' <= c <= 'z' }

  predicate IsAsciiLetter(c: char) { IsUpper(c) || IsLower(c) }

  /** ASCII lower-casing; every other character is left alone. */
  function ToLower(c: char): (r: char)
    ensures IsUpper(c) ==> IsLower(r) && r as int == c as int + 32
    ensures !IsUpper(c) ==> r == c
  {
    if IsUpper(c) then (c as int + 32) as char else c
  }

  function Lower(s: string): (r: string)
    ensures |r| == |s|
    ensures forall i :: 0 <= i < |s| ==> r[i] == ToLower(s[i])
  {
    seq(|s|, i requires 0 <= i < |s| => ToLower(s[i]))
  }

  lemma LowerSnoc(s: string, c: char)
    ensures Lower(s + [c]) == Lower(s) + [ToLower(c)]
  {
  }

  /** The last element of a non-empty sequence. */
  function Last<T>(s: seq<T>): T
    requires |s| > 0
  {
    s[|s| - 1]
  }

  /** Dropping a proper prefix keeps the last element. */
  lemma LastDrop<T>(s: seq<T>, k: nat)
    requires k < |s|
    ensures Last(s[k..]) == Last(s)
  {
  }

  /** A sequence is its prefix followed by the matching suffix. */
  lemma SplitAt<T>(xs: seq<T>, k: nat)
    requires k <= |xs|
    ensures xs[..k] + xs[k..] == xs
  {
  }

  /** Unicode general category Cc, which is what Rust's `char::is_control` tests. */
  predicate IsControl(c: char) {
    c < ' ' || ('\U{7F}' <= c <= '\U{9F}')
  }

  /** Segments of `s` between the dots; a string without dots is one segment. */
  function Split(s: string): (r: seq<string>)
    ensures |r| >= 1
    ensures forall i :: 0 <= i < |r| ==> '.' !in r[i]
    decreases |s|
  {
    if |s| == 0 then [""]
    else
      var rest := Split(s[1..]);
      if s[0] == '.' then [""] + rest
      else [[s[0]] + rest[0]] + rest[1..]
  }

  /** Segments joined back together with dots. */
  function Join(segs: seq<string>): string
    requires |segs| >= 1
    decreases |segs|
  {
    if |segs| == 1 then segs[0] else segs[0] + "." + Join(segs[1..])
  }

  lemma ConsAssoc(c: char, a: string, b: string)
    ensures ([c] + a) + b == [c] + (a + b)
  {
  }

  lemma JoinConsChar(c: char, segs: seq<string>)
    requires |segs| >= 1
    ensures Join([[c] + segs[0]] + segs[1..]) == [c] + Join(segs)
  {
    var t := [[c] + segs[0]] + segs[1..];
    assert t[1..] == segs[1..];
    if |segs| > 1 {
      var j := Join(segs[1..]);
      ConsAssoc(c, segs[0], "." + j);
      assert segs[0] + "." + j == segs[0] + ("." + j);
      assert ([c] + segs[0]) + "." + j == ([c] + segs[0]) + ("." + j);
    }
  }

  /** Joining the segments of a name gives the name back. */
  lemma {:induction false} JoinSplit(s: string)
    ensures Join(Split(s)) == s
    decreases |s|
  {
    if |s| == 0 {
    } else {
      var rest := Split(s[1..]);
      JoinSplit(s[1..]);
      if s[0] == '.' {
        assert ([""] + rest)[1..] == rest;
        assert s == [s[0]] + s[1..];
      } else {
        JoinConsChar(s[0], rest);
        assert s == [s[0]] + s[1..];
      }
    }
  }

  /** A dot-free prefix glues onto the first segment of what follows it. */
  lemma {:induction false} SplitDotFreePrefix(a: string, t: string)
    requires '.' !in a
    ensures Split(a + t) == [a + Split(t)[0]] + Split(t)[1..]
    decreases |a|
  {
    if |a| == 0 {
      var r := Split(t);
      assert a + t == t && a + r[0] == r[0];
      assert r == [r[0]] + r[1..];
    } else {
      SplitDotFreePrefix(a[1..], t);
      assert (a + t)[1..] == a[1..] + t;
      assert (a + t)[0] == a[0];
      var rest := Split(a[1..] + t);
      assert [a[0]] + rest[0] == a + Split(t)[0];
    }
  }

  /** Splitting the join of dot-free segments gives the segments back. */
  lemma {:induction false} SplitJoin(segs: seq<string>)
    requires |segs| >= 1
    requires forall i :: 0 <= i < |segs| ==> '.' !in segs[i]
    ensures Split(Join(segs)) == segs
    decreases |segs|
  {
    if |segs| == 1 {
      SplitDotFreePrefix(segs[0], "");
      assert segs[0] + "" == segs[0];
    } else {
      SplitJoin(segs[1..]);
      var t := "." + Join(segs[1..]);
      SplitDotFreePrefix(segs[0], t);
      assert t[0] == '.' && t[1..] == Join(segs[1..]);
      assert Split(t) == [""] + Split(t[1..]);
      assert Split(t) == [""] + segs[1..];
      assert segs[0] + t == Join(segs);
      assert segs[0] + "" == segs[0];
      assert segs == [segs[0]] + segs[1..];
    }
  }
}

=== FILE: wrappers.dfy ===
/** Optional values and fallible results, as the Rust code uses `Option` and `Result`. */
module Wrappers {

  datatype Option<+T> = None | Some(value: T)

  datatype Result<+R, +E> = Ok(value: R) | Err(error: E)
}
